=== FILE: README.md ===
# Sequence Ruby client: a Dafny model of its core

This project models the core of the Ruby client for the Sequence ledger API.
It covers the following parts:

- **Resilient POST.** One logical call makes numbered attempts. They share one
  idempotency key and carry attempt ids `"<id>/<n>"`. Between attempts there is
  a randomised, capped exponential backoff. Network errors and API errors the
  server marks retriable are retried while a 120-second budget lasts.
- **Session.** Opening a session validates its options. Every path goes under
  `/<team>/<ledger>/`. A response without a `Chain-Request-ID` header is raised
  as a network error.
- **Error classes.** This includes the message format of API errors.
- **Option checks.** `validate_required!` and `validate_inclusion_of!` run
  before a request is made.
- **Response objects.** A response object is a record limited to declared
  attributes. Per-attribute options translate raw JSON on the way in and write
  it back out (snapshot, RFC 3339 time, custom block).
- **Cursor paging.** `Page`, `Query#each`, `Query#page` and
  `PageQuery#each`/`#page`.
- **Feeds.** A feed keeps two cursors: the acknowledged `cursor` and the pending
  `next_cursor`. This part covers `consume`, `ack` and the option checks of
  `create`, `get` and `delete`.
- **Transaction builder.** The append-only list of actions, and the issue,
  transfer and retire helpers.

There is one module per source file.

| file | module |
|---|---|
| `common.dfy` | `Common` (Option, Result, Outcome) |
| `text.dfy` | `Text` (join, decimal rendering, attempt ids) |
| `values.dfy` | `Values` (JSON values; a Ruby hash as an insertion-ordered association list; Ruby truthiness) |
| `errors.dfy` | `Errors` |
| `transport.dfy` | `Transport` (`HttpWrapper#post`) |
| `session.dfy` | `Session` |
| `validations.dfy` | `Validations` |
| `response_object.dfy` | `ResponseObject` |
| `pager.dfy` | `Pager` (`page.rb` and `query.rb`) |
| `feed.dfy` | `Feeds` |
| `transaction.dfy` | `TransactionBuilder` |

The model takes inputs in place of what is random or outside the client:

- **Retry loop.** Each attempt is a `Step` of an injected trace. The step holds
  the value `rand(max)` returned, what the HTTP exchange produced (an exception
  class, or a response with status, body and request-id header) and what the
  monotonic clock read when the failure was rescued. When the trace ends while
  the loop still wants to retry, the verdict is `Unfinished`.
- **`SecureRandom`.** The idempotency key and the fresh request id are
  parameters.
- **The block `post` yields each response to.** It is a function from the
  response to the exception it raises, if any.
- **`JSON.parse`.** It is a partial function from strings to JSON values.
- **`Time.parse` and `to_datetime.rfc3339`.** They are the fields of a
  `TimeCodec`; a time value is an opaque integer instant. The codec also
  carries the message of the exception `to_datetime` raises on a value that
  is not a time.
- **The server.** Paging runs against a finite list of the hashes successive
  fetches return. Feed consumption runs against a finite list of the batches
  successive `stream-feed-items` requests return.
- **The caller's block of `consume`.** It is a `Handler`: one reaction per
  delivery, saying whether the block calls `ack` (and what that `ack-feed`
  request raises, if anything) and whether it then breaks. Past the end of the
  list the block returns without doing either.
- **`Action` and `Transaction`.** Their attribute declarations are a parameter
  (`ItemClasses`); constructing an item is `ResponseObject.Build` with them.

Symbols are written as the strings they serialise to (`:amount` is `"amount"`).

## Model

| member | source | states |
|---|---|---|
| `Transport.BackoffCapShape` | lib/sequence/http_wrapper.rb:106-108 | The bound handed to `rand` before attempt n is at least 40 ms and at most 20000 ms. It equals 40·2^(n-1) and doubles from one attempt to the next up to the ninth. From the tenth attempt on it is pinned at 20000 ms. |
| `Transport.BackoffDelayMs` | lib/sequence/http_wrapper.rb:106-111 | The sleep before an attempt is `rand(max) + 1` ms. It lies between 1 ms and that attempt's cap, so it never exceeds 20000 ms. |
| `Transport.Is2xx` | lib/sequence/http_wrapper.rb:81 | The flooring test `status / 100 == 2` holds exactly for statuses 200 to 299. |
| `Transport.ClassifyResponseCases` | lib/sequence/http_wrapper.rb:66-86 | What the caller's block raises comes first. A response is returned exactly when the status is 2xx and the body parses (204 bodies are never parsed, so they yield nil). An unparsable non-204 body is a JSON error carrying the attempt id, whatever the status. Any other non-2xx status is an API error built from the parsed body, of the unauthorized kind exactly for 401. |
| `Transport.AttemptRecord` | lib/sequence/http_wrapper.rb:42-57 | Attempt n sends the call's idempotency key and the id `"<id>/<n>"`. It sleeps before it exactly when n > 1, and the sleep lies within that attempt's backoff cap. |
| `Transport.PostFrom` | lib/sequence/http_wrapper.rb:41-95 | The loop makes at most one attempt per step and at least one when there is a step. It stops without a verdict only after using every step. |
| `Transport.PostFromRetried` | lib/sequence/http_wrapper.rb:88-95 | After an attempt the rescue clauses retry, the run is that attempt followed by the run from the next attempt number, with the same verdict. |
| `Transport.PostFromRetriesBeforeLast` | lib/sequence/http_wrapper.rb:88-95 | Every attempt but the last failed with an error that a rescue clause retried. |
| `Transport.PostFromRecords` | lib/sequence/http_wrapper.rb:42-57 | Attempt i of the run is the record of attempt number `attempt + i` built from step i, whose draw respects that attempt's cap. |
| `Transport.PostFromDone` | lib/sequence/http_wrapper.rb:86-95 | A verdict is the outcome of the last attempt, and that attempt was not retried. |
| `Transport.PostFromUnfinished` | lib/sequence/http_wrapper.rb:88-94 | A run without a verdict used every step, and the last one still called for a retry. |
| `Transport.PostFromStops` | lib/sequence/http_wrapper.rb:41-95 | The loop's stopping rule in one statement: every attempt before the last retried. A verdict is the outcome of the last attempt, which did not retry. An unfinished run's last step wanted a retry. |
| `Transport.Post` | lib/sequence/http_wrapper.rb:37-57 | Every attempt of a call sends the same url, body, credential and idempotency key. Attempt i+1 carries the id `"<id>/<i+1>"`. The first attempt does not sleep, and each later one sleeps within its backoff cap. |
| `Transport.PostStopsAtFirstFinalAttempt` | lib/sequence/http_wrapper.rb:41-95 | When attempt j+1 is the first whose failure is not retried (or that succeeds), the call makes exactly j+1 attempts. That attempt's outcome is the verdict. |
| `Transport.NonRetriableApiErrorRaisesAtOnce` | lib/sequence/http_wrapper.rb:91-92 | An API error whose `retriable` is falsy is raised after the single attempt that produced it. |
| `Transport.BudgetBoundsAttempts` | lib/sequence/http_wrapper.rb:88-93 | Once a rescued failure finds more than 120 s elapsed, no further attempt is made and the call has a verdict. |
| `Transport.RetriableFailuresAreRetried` | lib/sequence/http_wrapper.rb:88-94 | When the first k+1 attempts all fail with errors the rescue clauses retry, and the trace holds another step, at least k+2 attempts are made. |
| `Transport.AttemptIdsUnique` | lib/sequence/http_wrapper.rb:40-47 | Two attempts of one call never share an attempt id but always share the idempotency key. |
| `Text.AttemptIdRoundTrip` | lib/sequence/http_wrapper.rb:47 | The attempt number can be read back from the decimal segment after the last `/` of `"<id>/<n>"`, whatever the id contains. |
| `Text.AttemptIdsDistinct` | lib/sequence/http_wrapper.rb:47 | Different attempt numbers give different attempt ids for the same logical id. |
| `Text.ParseNatOfNatToString` | lib/sequence/http_wrapper.rb:47 | The decimal rendering `Integer#to_s` used in attempt ids is undone by reading the digits back. |
| `Errors.ErrorTokens` | lib/sequence/errors.rb:74-83 | The message tokens are, in order: `Code: …` only for a non-empty string code, `Message: …` always, `Detail: …` only for a non-empty string detail, and `Request-ID: …` always, last. |
| `Errors.FormatErrorMessageShape` | lib/sequence/errors.rb:74-85 | The message starts with `Code: ` exactly when the code is a non-empty string, otherwise with `Message: `. It always ends with `Request-ID: <id>`. |
| `Errors.FormatErrorMessageExample` | spec/unit/api_error_spec.rb:14-29 | Code SEQ008, message "not found", detail "deets" and request id 1 give `Code: SEQ008 Message: not found Detail: deets Request-ID: 1`. |
| `Errors.NewApiError` | lib/sequence/errors.rb:49-71 | `retriable?` is the truthiness of the body's `retriable`, and `temporary` equals it. The error keeps the response. The request id is the response's header, and nil without a response. `chain_message`, `detail` and `seq_code` are the body's `message`, `detail` and `seq_code`. The message opens with a code exactly when the body has a non-empty one and ends with the request id. The unauthorized subclass is chosen as asked. |
| `Errors.NewJsonError` | lib/sequence/errors.rb:27-31 | The JSON error keeps the attempt id and the response, and its message ends with `Request-ID: <attempt id>`. |
| `Session.NewSession` | lib/sequence/session.rb:12-27 | A session opens exactly when `ledger_name`, `credential` and `team_name` are truthy and `addr` is a string. The missing options are reported in that order with their own messages, and a non-string `addr` is a type error. An open session keeps the options and the values read from them, and its base url starts with `https://`. |
| `Session.DupIsSameSession` | lib/sequence/session.rb:29-31 | Opening a session again from a session's options gives the same session. |
| `Session.LedgerUrl` | lib/sequence/session.rb:55-58 | The url starts with `/<team>/<ledger>/`. After that prefix comes the path with one leading `/` removed, if it had one. |
| `Session.LedgerUrlDropsOneSlash` | lib/sequence/session.rb:55-58 | `"/p"` and `"p"` give the same url exactly when `p` does not itself start with `/`: only one slash is dropped. |
| `Session.RequestIdCheck` | lib/sequence/session.rb:46-49 | The block accepts a response exactly when its `Chain-Request-ID` header is present and non-empty. Otherwise it raises `InvalidRequestIDError`. |
| `Session.SessionCall` | lib/sequence/session.rb:37-39 | The logical call uses the given id, or the fresh one when the id is nil. It posts the body to the ledger url with the session's credential and the request-id check as its block. |
| `Session.RequestFullResp` | lib/sequence/session.rb:37-51 | Every attempt goes to the ledger url of the path with the session's credential. Attempt i+1 carries the id `"<id>/<i+1>"`, where the id is the given one or the fresh one. |
| `Session.Request` | lib/sequence/session.rb:33-35 | `request` gives the parsed body of a returned response and raises what the call raised. It has no answer only while the call is unfinished. |
| `Session.MissingRequestIdIsRetried` | lib/sequence/session.rb:40-49 | A response with a missing or empty request id is retried like a network error while the budget lasts. |
| `Session.ReturnedResponsesCarryRequestId` | lib/sequence/session.rb:37-51 | Every response a session returns carries a non-empty request id, whatever the earlier attempts received. |
| `Validations.SymbolNames` | lib/sequence/validations.rb:11 | Each key is rendered as `:key`, one per key, in order. |
| `Validations.AllBlank` | lib/sequence/validations.rb:10 | True exactly when every listed key is nil or empty in the options. |
| `Validations.ValidateRequired` | lib/sequence/validations.rb:9-14 | The check fails exactly when every listed key is nil or empty. Its message is the keys joined with ` and ` followed by ` must be provided`. |
| `Validations.NoKeysAlwaysRaise` | lib/sequence/validations.rb:9-14 | With no keys listed the check always fails, with the bare ` must be provided`. |
| `Validations.OnePresentKeySuffices` | lib/sequence/validations.rb:10 | One listed key that is present and non-empty, anywhere in the list, makes the check pass. |
| `Validations.RequiredMessageShape` | lib/sequence/validations.rb:11-12 | The message starts with `:` and the first key, and ends with `:` and the last key followed by ` must be provided`. |
| `Validations.RequiredMessageExample` | spec/integration/assets_spec.rb:11-24 | The message for a missing `keys` option is `:keys must be provided`. |
| `Validations.ValidateInclusionOf` | lib/sequence/validations.rb:16-23 | The check passes exactly when every option key is one of the valid ones. Otherwise it fails on the first offending key, naming it and the valid options. |
| `Validations.EmptyOptionsAreValid` | lib/sequence/validations.rb:16-23 | An empty option hash always passes. |
| `ResponseObject.OptsOf` | lib/sequence/response_object.rb:82 | An undeclared attribute has the plain options (`fetch(name, {})`). A declared one has the options bound to its name in `attrib_opts`, which holds each name once. |
| `ResponseObject.Attrib` | lib/sequence/response_object.rb:53-57 | `attrib` binds the name to the new options and leaves every other name's options and declaredness alone. A name already declared keeps its place, so the names and their order are unchanged. A new name is appended at the end. |
| `ResponseObject.Declare` | lib/sequence/response_object.rb:53-57 | A class body of `attrib` calls declares exactly the names it mentions, each once. |
| `ResponseObject.DeclareKeepsLast` | lib/sequence/response_object.rb:55 | A name declared several times has the options of its last declaration. |
| `ResponseObject.RedeclaredAttribute` | lib/sequence/response_object.rb:53-57 | Declaring a name twice leaves the second options in force, with the same names in the same order as after the first declaration. |
| `ResponseObject.Translate` | lib/sequence/response_object.rb:65-78 | A snapshot attribute wraps the raw value. A time attribute gives the parsed time when the raw value is a string the parser accepts, and otherwise fails with the parser's error. A plain attribute keeps the raw value. A custom block's result is kept; its failure becomes a `TranslateError` naming the attribute and the raw value, with the message `Error translating attrib <name>: <cause>`. Only a block can raise a `TranslateError`. |
| `ResponseObject.Detranslate` | lib/sequence/response_object.rb:81-93 | A time attribute succeeds exactly when its value is a time, rendered in RFC 3339. Otherwise it raises a `DetranslateError` naming the attribute and the value, with the message `Error de-translating attrib <name>: <message of the exception to_datetime raised>`. Every other attribute is written back as it is held: nil as null, a snapshot as its wrapped hash. |
| `ResponseObject.TranslateRoundTrip` | lib/sequence/response_object.rb:65-93 | For plain and snapshot attributes, and for time attributes whose codec prints back what it parsed, writing out a translated value gives the raw value back. |
| `ResponseObject.Build` | lib/sequence/response_object.rb:8-13 | Construction only sets declared attributes that some binding of the raw hash gives a non-nil value. When it fails, it fails with a translation error. |
| `ResponseObject.BuildSucceedsUnlessOneFails` | lib/sequence/response_object.rb:8-13 | Construction succeeds exactly when no declared, non-nil binding of the raw hash fails to translate. |
| `ResponseObject.BuildFailsAtFirstFailure` | lib/sequence/response_object.rb:9-12 | A failed construction raises the translation error of the first binding, in hash order, whose translation fails. |
| `ResponseObject.BuildSetsDeclaredAttribute` | lib/sequence/response_object.rb:8-13 | Each declared attribute with a non-nil raw value holds the translation of that value. |
| `ResponseObject.BuildSkipsNilAndUndeclared` | lib/sequence/response_object.rb:9-11 | A nil raw value, or an undeclared key, leaves the attribute unset. |
| `ResponseObject.Index` | lib/sequence/response_object.rb:29-36 | Reading fails with `key not found: <name>` exactly for an undeclared name. Otherwise it gives the attribute's value, or nil when unset. |
| `ResponseObject.SetIndex` | lib/sequence/response_object.rb:38-45 | Writing fails with `key not found: <name>` exactly for an undeclared name. |
| `ResponseObject.SetThenIndex` | lib/sequence/response_object.rb:29-45 | After writing a declared attribute, reading it gives the value written and every other attribute reads as before. |
| `ResponseObject.ToH` | lib/sequence/response_object.rb:15-19 | `to_h` lists every declared attribute in declaration order, each with what reading it gives. |
| `ResponseObject.ToJson` | lib/sequence/response_object.rb:21-27 | `to_json` writes out every declared attribute in order, detranslated with its options. When one cannot be detranslated it raises the `DetranslateError` of the first such attribute, all earlier ones having succeeded. |
| `ResponseObject.DetranslateAll` | lib/sequence/response_object.rb:22-24 | Each entry is detranslated in order, keeping its name. On failure the error is that of the first entry that fails, every entry before it having succeeded. |
| `ResponseObject.SnapshotIndex` | lib/sequence/response_object.rb:100-102 | `snapshot[key]` on a wrapped hash is the value bound to the key, and nil when the key is absent. On a wrapped string it is the key when the string contains it, else nil. On an array or a number it raises a type error, and on nil or a boolean a no-method error. |
| `ResponseObject.Contains` | lib/sequence/response_object.rb:100-102 | A string contains a key exactly when the key occurs in it at some position. |
| `ResponseObject.SnapshotTag` | lib/sequence/response_object.rb:108-143 | Each named snapshot reader is `snapshot[key]` for its own key, raising as it does, and reads that key's value when the snapshot wraps a hash. |
| `ResponseObject.SnapshotKeysDistinct` | lib/sequence/response_object.rb:110-143 | The six readers read six different keys. |
| `Pager.Enumerated` | lib/sequence/page.rb:27 | Missing or false items enumerate as nothing. An array gives its elements. A hash gives one `[key, value]` pair per binding, in order. Enumeration raises exactly for a truthy value that is neither an array nor a hash. |
| `Pager.TranslateAll` | lib/sequence/page.rb:27 | Items are translated one for one and in order. The first failing item raises, and translation succeeds exactly when every item translates. |
| `Pager.PageFromRaw` | lib/sequence/page.rb:25-28 | A page copies `cursor` and `last_page`. Missing items make an empty page. Items that cannot be enumerated raise that error. Otherwise the page is built exactly when every enumerated item translates, and then holds one translated item per element, in order. |
| `Pager.EachPage` | lib/sequence/query.rb:70-84 | Iteration makes at most one fetch per server response, and the first fetch uses the stored query. It yields one page per fetch unless the last fetch raised. It runs out only after using every response. |
| `Pager.EachPageContinues` | lib/sequence/query.rb:73-83 | A page that does not stop the loop is yielded and followed by the iteration from its cursor. |
| `Pager.EachPageQueries` | lib/sequence/query.rb:74-75 | Every fetch after the first asks for exactly `{cursor: <cursor of the page before>}`: the rest of the query is dropped. |
| `Pager.EachPagePages` | lib/sequence/query.rb:74-76 | Page i is the page built from the i-th response. |
| `Pager.EachPageOnlyLastStops` | lib/sequence/query.rb:78-82 | Every yielded page but the last has a falsy `last_page` and at least one item. |
| `Pager.EachPageFinishedOnStop` | lib/sequence/query.rb:76-82 | A finished iteration's last yielded page is the last page or has no items. |
| `Pager.EachPageStopsAtFirstStoppingPage` | lib/sequence/query.rb:70-84 | When response j is the first to build a stopping page, iteration makes exactly j+1 fetches and yields j+1 pages, however many pages the server holds. |
| `Pager.OneFetchForAnItemlessPage` | spec/unit/query_spec.rb:5-27 | A first response without items (a single account record, say) leads to exactly one fetch. |
| `Pager.SinglePageIsFirstPage` | lib/sequence/query.rb:86-88 | `PageQuery#page` gives the page iteration from the same query yields first. If it raises, iteration raises the same error without yielding. |
| `Pager.FlattenKeepsOrder` | lib/sequence/query.rb:26-32 | Item i of page p is yielded at position (items on earlier pages) + i. |
| `Pager.FlattenInPageOrder` | lib/sequence/query.rb:26-32 | The yielded items are exactly those of the pages, page after page and in order within each page. |
| `Pager.EachItem` | lib/sequence/query.rb:26-32 | `Query#each` yields the items of the pages iteration yields, in page order, and ends as that iteration ends. |
| `Pager.PageOpts` | lib/sequence/query.rb:51-54 | `size` and `cursor` are always set and distinct. `page_size` is set, to `size`, exactly when `size` is a non-zero number. A size that is not a number and not nil raises. |
| `Pager.QueryPage` | lib/sequence/query.rb:50-57 | The stored query afterwards has the new `size` and `cursor`, and `page_size` when the size is a non-zero number. Every other key is kept. The page fetched is built from the response to that merged query. |
| `Values.MergeGet` | lib/sequence/query.rb:55 | After `merge`, a key reads from the merged-in hash when that hash has it and from the original hash otherwise. |
| `Feeds.FeedFromRaw` | lib/sequence/feed.rb:37-43 | A feed reads its attributes from the raw hash and has nothing pending. |
| `Feeds.NewItem` | lib/sequence/feed.rb:57-61 | An item is built as an `Action` exactly on an action feed and as a `Transaction` otherwise. Building succeeds exactly when the raw item is a hash that the class can be constructed from. A non-hash item and a failed construction each raise. |
| `Feeds.RunBlock` | lib/sequence/feed.rb:71-82 | One run of the block. It sends an `ack-feed` request, with the pending cursor, exactly when it calls `ack` while that cursor is truthy. It ends the loop exactly when it breaks or that request raises. A successful `ack` moves the pending cursor to the acknowledged one and clears it. Without an `ack` that is sent, the feed is unchanged. |
| `Feeds.DeliverItem` | lib/sequence/feed.rb:56-61 | The item's cursor becomes the pending position before the item is built. An item that fails to build raises with nothing handed over, and its cursor stays pending. Otherwise the block runs on the built item with that cursor pending. |
| `Feeds.DeliverBatch` | lib/sequence/feed.rb:55-62 | A batch hands over at most its items and all of them unless it ends early. It ends early only when the block ends it after a delivery or an item fails to build. Only the two cursors of the feed can change. |
| `Feeds.DeliverBatchDelivers` | lib/sequence/feed.rb:55-61 | Delivery k is item k of the batch as built, with cursor k pending (nil past the end of the cursors). |
| `Feeds.DeliverBatchAckSent` | lib/sequence/feed.rb:71-78 | Delivery k sent an `ack-feed` request exactly when the block called `ack` on it and cursor k is truthy. The request sends cursor k. |
| `Feeds.DeliverBatchReturns` | lib/sequence/feed.rb:55-62 | The block returned normally on every delivery of a batch except a last one where it broke or its `ack` raised, which ended the batch. |
| `Feeds.DeliverBatchStoppedByBlock` | lib/sequence/feed.rb:55-62 | A batch the block ended was ended by a break on the last delivery, or by an `ack` there that raised what the request raised, with a truthy cursor pending. |
| `Feeds.DeliverBatchItemFailed` | lib/sequence/feed.rb:55-61 | An item that fails to build is the one right after the last delivery. It raises its own construction error, and its cursor is left pending. |
| `Feeds.DeliverBatchWithoutAcks` | lib/sequence/feed.rb:55-56 | Without `ack`, a batch moves only the pending position: to the cursor of a failed item, else of the last delivery, else nowhere. |
| `Feeds.DeliverBatchAckedLast` | lib/sequence/feed.rb:55-82 | When the block's `ack` succeeded on the last delivery with a truthy cursor and no item failed after it, that cursor is acknowledged and nothing is pending. |
| `Feeds.DeliverBatchAllReturn` | lib/sequence/feed.rb:55-62 | For any items as built, the block returned normally on every delivery but a last one that ended the batch. |
| `Feeds.DeliverBatchBlockEnded` | lib/sequence/feed.rb:55-82 | For any items as built, a batch the block ended was ended by a break or a raising `ack` on its last delivery. |
| `Feeds.DeliverBatchPositionLaw` | lib/sequence/feed.rb:55-82 | For any items as built, without `ack` only the pending position moves, a successful `ack` on the last delivery commits its cursor, and an idle batch changes nothing. |
| `Feeds.DeliverBatchIdle` | lib/sequence/feed.rb:55-62 | A batch that hands nothing over and has no failed item leaves the feed as it was. |
| `Feeds.BatchLists` | lib/sequence/feed.rb:55-56 | A batch can be read exactly when `items` is a list and, if it has items, `cursors` is a list. |
| `Feeds.ConsumeBatch` | lib/sequence/feed.rb:55-62 | Handing over a batch fails exactly for an unreadable batch. Only the two cursors of the feed can change. |
| `Feeds.ConsumeBatchDeliveryLaw` | lib/sequence/feed.rb:55-62 | In every readable batch each item handed over is of the feed's kind, and the block returned normally on all but a last delivery that ended the batch. |
| `Feeds.ConsumeBatchEndLaw` | lib/sequence/feed.rb:55-82 | In every readable batch the block ends it only by a break or a raising `ack` on the last delivery. An item failure leaves that item's cursor pending, and the item does fail to build. |
| `Feeds.ConsumeBatchItemFailed` | lib/sequence/feed.rb:55-61 | When an item of a readable batch fails, its cursor is pending and building that item does fail, with the error the batch ended on. |
| `Feeds.ConsumeBatchPositionLaw` | lib/sequence/feed.rb:55-82 | In every readable batch, without `ack`, only the pending position moves, to the last position reached. A successful `ack` on the last delivery commits its cursor. A batch that hands nothing over and has no failed item changes nothing. |
| `Feeds.BatchStepLawful` | lib/sequence/feed.rb:55-62 | The turn of the loop that hands over one batch keeps all four of the laws above. |
| `Feeds.ConsumeLoop` | lib/sequence/feed.rb:52-63 | The loop makes one request per batch it reads, at most one per batch and at least one when there is a batch. |
| `Feeds.LoopShape` | lib/sequence/feed.rb:52-63 | For any turn that keeps the shape law, a waiting loop made a request for every batch. A loop the block ended handed something over. The feed's attributes other than the cursors never change. |
| `Feeds.LoopRequests` | lib/sequence/feed.rb:53 | For any such turn, every request asks for the same feed id. |
| `Feeds.LoopDeliversFeedKind` | lib/sequence/feed.rb:57-61 | For any turn that keeps the delivery law, every item the loop hands over is of the feed's kind. |
| `Feeds.LoopReturns` | lib/sequence/feed.rb:52-63 | For any such turn, the block returned normally on every delivery of the loop except a last one that ended it. |
| `Feeds.LoopBlockEnded` | lib/sequence/feed.rb:52-82 | For any turn that keeps the end law, a loop the block ended broke on its last delivery, or ended there with an `ack` that raised. |
| `Feeds.LoopItemFailed` | lib/sequence/feed.rb:55-61 | For any such turn, a loop ended by an item leaves that item's cursor pending, and the item does fail to build. |
| `Feeds.LoopWithoutAcks` | lib/sequence/feed.rb:55-56 | For any turn that keeps the position law and a block without `ack`, the loop moves only the pending position, to the last position it reached. |
| `Feeds.LoopIdleKeepsFeed` | lib/sequence/feed.rb:52-63 | For any such turn, a loop that hands nothing over and builds nothing that fails leaves the feed as it was. |
| `Feeds.IdleAfterFirstBatchAckedLast` | lib/sequence/feed.rb:52-82 | A successful `ack` on the last delivery of the first batch commits its cursor when later batches hand nothing over. |
| `Feeds.LoopAckedLast` | lib/sequence/feed.rb:52-82 | For any turn that keeps the position law, a successful `ack` on the last delivery of a loop that no item failure ended leaves that cursor acknowledged and nothing pending. |
| `Feeds.Consume` | lib/sequence/feed.rb:51-64 | Consuming makes one request per batch read, at least one when there is a batch. It waits only after using every batch. When the block ends it, something was handed over. Only the two cursors of the feed can change. |
| `Feeds.ConsumeFirstBatch` | lib/sequence/feed.rb:52-62 | An unreadable first batch ends consuming after one request with nothing handed over and the feed unchanged. Otherwise the first batch's deliveries come first, in order. |
| `Feeds.ConsumeRequests` | lib/sequence/feed.rb:53 | Every `stream-feed-items` request asks for the same feed id, whatever the block acknowledged. |
| `Feeds.ConsumeDeliversFeedKind` | lib/sequence/feed.rb:57-61 | Every item handed over is an `Action` exactly on an action feed. |
| `Feeds.ConsumeReturns` | lib/sequence/feed.rb:51-64 | The block returned normally on every delivery except a last one where it broke or its `ack` raised, which ended consuming. |
| `Feeds.ConsumeBlockEnded` | lib/sequence/feed.rb:51-82 | Consuming the block ended was ended by a break on the last delivery, or by an `ack` there that raised, with a truthy cursor pending. |
| `Feeds.ConsumeItemFailed` | lib/sequence/feed.rb:55-61 | Consuming that an item ended raises that item's construction error. The item was never handed over, yet its cursor is pending. |
| `Feeds.ConsumeWithoutAcks` | lib/sequence/feed.rb:55-56 | Without `ack`, consuming moves only the pending position: to the cursor of a failed item, else of the last delivery, else nowhere. |
| `Feeds.ConsumeIdleKeepsFeed` | lib/sequence/feed.rb:51-64 | Consuming that hands nothing over and builds nothing that fails leaves the feed as it was. |
| `Feeds.ConsumeAckedLast` | spec/integration/feeds_spec.rb:15-21 | A block that calls `ack` and then breaks, as in the example, leaves the cursor of that delivery acknowledged and nothing pending. |
| `Feeds.ConsumeKeepsCursor` | lib/sequence/feed.rb:51-64 | A block that never calls `ack` leaves the acknowledged cursor and every other attribute but the pending position alone. |
| `Feeds.ReconsumeWithoutAckKeepsPosition` | spec/integration/feeds_spec.rb:191-212 | Consuming again without `ack` asks for the same feed, and the acknowledged cursor is still the one before both runs. An `ack` afterwards sends it as `previous_cursor`, so the server resumes from there. |
| `Feeds.Ack` | lib/sequence/feed.rb:71-82 | With nothing pending, no request is made and nothing changes. Otherwise the pending cursor is sent as `cursor` with the acknowledged one as `previous_cursor`. On success the pending cursor becomes the acknowledged one and nothing is pending. On failure the request's error is raised and the feed is unchanged. |
| `Feeds.AckTwiceIsAckOnce` | lib/sequence/feed.rb:71-82 | A second acknowledgement right after a successful one sends nothing and changes nothing. |
| `Feeds.ConsumeThenAck` | lib/sequence/feed.rb:51-82 | Consuming without `ack` and then acknowledging makes the last position reached the acknowledged one, sending the old acknowledged cursor as `previous_cursor`. |
| `Feeds.ItemFailedThenAck` | lib/sequence/feed.rb:55-82 | After consuming that an item ended, an `ack` acknowledges that item's cursor, whatever the block did, so later runs skip the item. |
| `Feeds.CreateFeedRequest` | lib/sequence/feed.rb:94-106 | `create` proceeds exactly when every option is one of id, type, filter and filter_params and the type is `action` or `transaction`. A blank type is refused with `:type must be provided`. The request body is the options unchanged. |
| `Feeds.CreateRejectsOtherTypes` | lib/sequence/feed.rb:103-105 | A present type that is neither kind is refused with `:type must equal action or transaction`. |
| `Feeds.CreateFeedExamples` | spec/integration/feeds_spec.rb:216-244 | An unknown option, no options at all, and a type that is neither kind are each refused, the last with its own message. |
| `Feeds.IdRequest` | lib/sequence/feed.rb:113-125 | `get` and `delete` proceed exactly when `id` is present and non-empty, and otherwise raise `:id must be provided`. The request body is the options unchanged. |
| `TransactionBuilder.TransactionTags` | lib/sequence/transaction.rb:90-92 | The tags read back are the assigned ones, or an empty hash while they are nil or false. |
| `TransactionBuilder.SetTransactionTags` | lib/sequence/transaction.rb:117-120 | Assigning tags leaves the actions alone. Truthy tags read back as assigned, and nil or false tags read back as an empty hash. |
| `TransactionBuilder.ToH` | lib/sequence/transaction.rb:95-97 | `to_h` has exactly the keys `actions` and `transaction_tags`, holding the actions and the tags as read back. |
| `TransactionBuilder.AddAction` | lib/sequence/transaction.rb:105-111 | An action is refused with `:amount must be provided` exactly when its amount is nil. Otherwise it is appended as given, keeping every earlier action and the tags. |
| `TransactionBuilder.AddAllAppends` | lib/sequence/transaction.rb:105-111 | Adding actions that all have amounts always succeeds and appends exactly them, in order, to the existing ones. |
| `TransactionBuilder.IssueFields` | lib/sequence/transaction.rb:141-148 | The issue hash has exactly the keys type, amount, flavor_id, destination_account_id, token_tags and action_tags, each once. Each holds its argument, and type is `issue`. |
| `TransactionBuilder.TransferFields` | lib/sequence/transaction.rb:179-189 | The transfer hash has exactly the keys type, amount, flavor_id, source_account_id, destination_account_id, filter, filter_params, token_tags and action_tags, each once. Each holds its argument, and type is `transfer`. |
| `TransactionBuilder.RetireFields` | lib/sequence/transaction.rb:214-222 | The retire hash has exactly the keys type, amount, flavor_id, source_account_id, filter, filter_params and action_tags, each once. Each holds its argument, and type is `retire`. There is no destination and no token_tags key. |
| `TransactionBuilder.Issue` | lib/sequence/transaction.rb:134-149 | `issue` fails exactly for a nil amount, with the `add_action` message. Otherwise it appends one action whose keys are exactly the issue fields, each holding its argument, and keeps the tags and the earlier actions. |
| `TransactionBuilder.Transfer` | lib/sequence/transaction.rb:169-190 | `transfer` fails exactly for a nil amount, with the `add_action` message. Otherwise it appends one action whose keys are exactly the transfer fields, each holding its argument, and keeps the tags and the earlier actions. |
| `TransactionBuilder.Retire` | lib/sequence/transaction.rb:206-223 | `retire` fails exactly for a nil amount, with the `add_action` message. Otherwise it appends one action whose keys are exactly the retire fields, each holding its argument, and keeps the tags and the earlier actions. |
| `TransactionBuilder.IssueDeterminesArguments` | lib/sequence/transaction.rb:141-148 | Two `issue` calls that build the same action hash had the same arguments, so none is dropped. |
| `TransactionBuilder.TransferDeterminesArguments` | lib/sequence/transaction.rb:179-189 | Two `transfer` calls that build the same action hash had the same arguments, so the source and the destination cannot trade places. |
| `TransactionBuilder.RetireDeterminesArguments` | lib/sequence/transaction.rb:214-222 | Two `retire` calls that build the same action hash had the same arguments. |
| `TransactionBuilder.ActionKindsDistinct` | lib/sequence/transaction.rb:141-222 | Issue, transfer and retire never append the same action, because their `type` fields differ. |
| `TransactionBuilder.EmptyBuilder` | lib/sequence/transaction.rb:79-92 | A new builder has no actions and reports empty tags. |

## Left out

- Connection setup, TLS, proxies, timeouts and the keep-alive connection (`setup_connection`): this is socket configuration with no logic the retry loop depends on.
- The mutex around an exchange: the model is sequential.
- Real sleeping, the monotonic clock, `rand` and `SecureRandom`: they are inputs (the draw, the clock reading and the generated ids). The clock reading is a real number of seconds since the call started.
- Request headers other than the attempt id, the idempotency key and the credential (`Accept`, `Content-Type`, `Name-Set`, `User-Agent`, basic auth): they are constants or depend only on options.
- JSON encoding of request bodies, `JSON.parse`, `Time.parse` and RFC 3339 rendering: these are injected functions, and no property here depends on their internals.
- The server's behaviour: responses, batches and exchange results are inputs.
- Credential refresh, and the `hello` call that re-reads the address: not in the session code modelled here.
- Automatic acknowledgement inside `consume`: a doc comment mentions it, but the code does none.
- The resource client modules (accounts, actions, tokens and the rest) other than the feed option checks: each is a thin wrapper that forwards to `Session.Request` or to a query.
- The block form of `Transaction::Builder.new`: a block is Ruby control flow over the same operations.
- `Values.Inspect` renders strings with quotes but without Ruby's escaping of special characters, and `ToS` renders floats not at all: numbers are integers in this model.
- Pager.PageOpts: a float size is not modelled (sizes are integers), and any non-numeric, non-nil size raises as `zero?` would.
- Feeds.Consume: the loop runs forever in the source; here it ends when the list of batches runs out, with the run marked as waiting.
- Feeds.Consume: the block's own exceptions, and any calls it makes other than one `ack` per delivery, are not modelled; only `ack` and `break` are.
- Feeds.NewItem: an array-valued item raises here, whereas Ruby's `Action.new` iterates an array's elements as key-value pairs; other non-hash items raise in both.
- Feeds.BatchLists: hash-valued `items` (which Ruby enumerates as pairs) and `cursors` that are strings or hashes are all treated as a malformed batch.
- Feeds.Consume: a failure of the `stream-feed-items` request itself is not modelled; it propagates unchanged out of `consume`.
- Pager.EachPage: an exception raised by a fetch itself propagates unchanged and is not modelled; only page building can raise here.
- ResponseObject.Detranslate: the message of the exception `to_datetime` raises is an input (`TimeCodec.noDatetime`), and an exception from `rfc3339` itself on a time is not modelled: rendering a time always succeeds here.
- ResponseObject.SnapshotIndex: the exception `@data[key]` raises on an array, a number, nil or a boolean is named by kind only, without Ruby's message text; a float snapshot is not modelled (numbers are integers).
- ResponseObject.Translate: a custom block's result is a JSON value, not an arbitrary Ruby object.
- ResponseObject.Build: the raw hash is assumed to have distinct keys, as a Ruby hash does. With a repeated key the first binding wins here.
- Errors.NewApiError: an error body that is not a JSON object reads every field as nil here, whereas Ruby indexes an array or a string body in its own way or raises.
- Session.NewSession: the only type error modelled is a non-string `addr` meeting `'https://' +`; `URI` parsing of the address is not modelled.

## Notes on the behaviour modelled

Where the client's documentation and its code disagree, the model follows the code:

- `Query#page` merges `size`, `cursor` and `page_size` into the stored query. It does not replace the query with the cursor.
- `ledger_url` removes one leading `/` from the path, not every duplicate separator.
- `Feed#consume` makes no automatic acknowledgements.

=== FILE: common.dfy ===
/** Failure-compatible wrappers shared by every module of the model. */
module Common {

  /** A Ruby value that may be nil, or a result that may be missing. */
  datatype Option<+T> = None | Some(value: T)

  /** The outcome of an operation that either returns a value or raises. */
  datatype Result<+T, +E> = Ok(value: T) | Err(error: E) {
    predicate IsFailure() {
      Err?
    }

    function PropagateFailure<U>(): Result<U, E>
      requires Err?
    {
      Err(error)
    }

    function Extract(): T
      requires Ok?
    {
      value
    }
  }

  /** A check that passes or raises, with no value of its own. */
  datatype Outcome<+E> = Pass | Fail(error: E)
}

=== FILE: errors.dfy ===
/**
  The exceptions the client raises, and how an API error turns a server
  error body into a message.  `UnauthorizedError` is the API error raised
  for status 401; it is a subclass, so every rule about API errors applies
  to it unchanged.
 */
module Errors {
  import opened Common
  import opened Values
  import Text

  /** What one HTTP exchange returned, as far as the client looks at it. */
  datatype HttpResponse = HttpResponse(status: int, body: string, requestIdHeader: Option<string>)

  /**
    Exception classes raised while talking to the server.  Each named
    constructor stands for that class together with all of its subclasses
    (so `TimeoutError`, Ruby's `Timeout::Error`, covers `Net::ReadTimeout`),
    since a `rescue` clause matches subclasses.
    `OtherException` stands only for classes outside all ten hierarchies.
   */
  datatype ExceptionClass =
    | InvalidRequestIDError
    | SocketError
    | EOFError
    | IOError
    | TimeoutError
    | ECONNABORTED
    | ECONNRESET
    | ETIMEDOUT
    | EHOSTUNREACH
    | ECONNREFUSED
    | OtherException(name: string)

  /** The classes the transport treats as network errors, each with its subclasses. */
  const NetworkErrors: set<ExceptionClass> := {
    InvalidRequestIDError, SocketError, EOFError, IOError, TimeoutError,
    ECONNABORTED, ECONNRESET, ETIMEDOUT, EHOSTUNREACH, ECONNREFUSED
  }

  const InvalidRequestIdMessage: string :=
    "Response HTTP header field Chain-Request-ID is unset. There may be network issues. Please check your local network settings."

  /** An error codified by the API, built from the error body of a non-2xx response. */
  datatype ApiError = ApiError(
    chainMessage: Json,
    detail: Json,
    retriable: Json,
    seqCode: Json,
    temporary: Json,
    response: Option<HttpResponse>,
    requestId: Option<string>,
    message: string,
    unauthorized: bool)

  /** A body that is not valid JSON; `requestId` is the attempt id of the request. */
  datatype JsonError = JsonError(requestId: string, response: HttpResponse, message: string)

  /** Everything a single attempt of a POST can raise. */
  datatype Failure =
    | Raised(cls: ExceptionClass)
    | Api(err: ApiError)
    | Decode(jsonErr: JsonError)

  /** `retriable?`: Ruby truthiness of the body's `retriable` field. */
  predicate Retriable(e: ApiError)
  {
    Truthy(e.retriable)
  }

  function RequestIdText(requestId: Option<string>): string
  {
    if requestId.Some? then requestId.value else ""
  }

  /** The space-separated tokens of an API error message, in order. */
  function ErrorTokens(seqCode: Json, message: Json, detail: Json, requestId: Option<string>): (t: seq<string>)
    ensures |t| == 2 + (if NonEmptyString(seqCode) then 1 else 0) + (if NonEmptyString(detail) then 1 else 0)
    ensures NonEmptyString(seqCode) ==> t[0] == "Code: " + seqCode.s
    ensures t[if NonEmptyString(seqCode) then 1 else 0] == "Message: " + ToS(message)
    ensures NonEmptyString(detail) ==> t[|t| - 2] == "Detail: " + detail.s
    ensures t[|t| - 1] == "Request-ID: " + RequestIdText(requestId)
  {
    var code := if NonEmptyString(seqCode) then ["Code: " + seqCode.s] else [];
    var det := if NonEmptyString(detail) then ["Detail: " + detail.s] else [];
    code + ["Message: " + ToS(message)] + det + ["Request-ID: " + RequestIdText(requestId)]
  }

  /** `APIError.format_error_message`. */
  function FormatErrorMessage(seqCode: Json, message: Json, detail: Json, requestId: Option<string>): string
  {
    Text.Join(ErrorTokens(seqCode, message, detail, requestId), " ")
  }

  /**
    The message opens with a `Code:` token exactly when the body carries a
    non-empty string code, and always closes with the request id.
   */
  lemma FormatErrorMessageShape(seqCode: Json, message: Json, detail: Json, requestId: Option<string>)
    ensures Text.StartsWith(FormatErrorMessage(seqCode, message, detail, requestId), "Code: ")
        <==> NonEmptyString(seqCode)
    ensures !NonEmptyString(seqCode) ==>
      Text.StartsWith(FormatErrorMessage(seqCode, message, detail, requestId), "Message: ")
    ensures Text.EndsWith(FormatErrorMessage(seqCode, message, detail, requestId),
                          "Request-ID: " + RequestIdText(requestId))
  {
    var t := ErrorTokens(seqCode, message, detail, requestId);
    var m := FormatErrorMessage(seqCode, message, detail, requestId);
    Text.JoinStartsWithFirst(t, " ");
    Text.JoinEndsWithLast(t, " ");
    if NonEmptyString(seqCode) {
      assert t[0][..6] == "Code: ";
      assert m[..6] == t[0][..6];
    } else {
      assert t[0][..9] == "Message: ";
      assert m[..9] == t[0][..9];
      assert m[..6] == t[0][..6];
      assert t[0][..6] == "Messag";
    }
  }

  /**
    The message of the unit test for a body with code, message and detail:
    `Code: SEQ008 Message: not found Detail: deets Request-ID: 1`.
   */
  lemma FormatErrorMessageExample()
    ensures FormatErrorMessage(JStr("SEQ008"), JStr("not found"), JStr("deets"), Some("1"))
         == "Code: SEQ008" + " " + "Message: not found" + " " + "Detail: deets" + " " + "Request-ID: 1"
  {
    var t := ErrorTokens(JStr("SEQ008"), JStr("not found"), JStr("deets"), Some("1"));
    assert NonEmptyString(JStr("SEQ008")) && NonEmptyString(JStr("deets"));
    assert |t| == 4;
    assert t[0] == "Code: SEQ008";
    assert t[1] == "Message: not found";
    assert t[2] == "Detail: deets";
    assert t[3] == "Request-ID: 1";
    assert t == [t[0], t[1], t[2], t[3]];
    Text.JoinFour(t[0], t[1], t[2], t[3], " ");
  }

  /** `APIError.new(body, response)`; `unauthorized` selects the `UnauthorizedError` subclass. */
  function NewApiError(body: Json, response: Option<HttpResponse>, unauthorized: bool): (e: ApiError)
    ensures Retriable(e) <==> Truthy(Field(body, "retriable"))
    ensures e.temporary == e.retriable
    ensures e.response == response
    ensures response.Some? ==> e.requestId == response.value.requestIdHeader
    ensures response.None? ==> e.requestId.None?
    ensures e.chainMessage == Field(body, "message") && e.detail == Field(body, "detail")
    ensures e.seqCode == Field(body, "seq_code")
    ensures Text.StartsWith(e.message, "Code: ") <==> NonEmptyString(Field(body, "seq_code"))
    ensures Text.EndsWith(e.message, "Request-ID: " + RequestIdText(e.requestId))
    ensures e.unauthorized == unauthorized
  {
    var requestId := if response.Some? then response.value.requestIdHeader else None;
    FormatErrorMessageShape(Field(body, "seq_code"), Field(body, "message"), Field(body, "detail"), requestId);
    ApiError(
      Field(body, "message"),
      Field(body, "detail"),
      Field(body, "retriable"),
      Field(body, "seq_code"),
      Field(body, "retriable"),
      response,
      requestId,
      FormatErrorMessage(Field(body, "seq_code"), Field(body, "message"), Field(body, "detail"), requestId),
      unauthorized)
  }

  /** `JSONError.new(request_id, response)`. */
  function NewJsonError(requestId: string, response: HttpResponse): (e: JsonError)
    ensures e.requestId == requestId && e.response == response
    ensures Text.EndsWith(e.message, "Request-ID: " + requestId)
  {
    var m := "Error decoding JSON response. Request-ID: " + requestId;
    assert m[|m| - |"Request-ID: " + requestId|..] == "Request-ID: " + requestId;
    JsonError(requestId, response, m)
  }
}

=== FILE: feed.dfy ===
/**
  Feeds: a server-side position in a stream of actions or transactions.
  The client keeps two cursors: `cursor`, the position the server has
  acknowledged, and `nextCursor`, the position just after the last item
  handed to the caller.  Consuming moves `nextCursor`; acknowledging, by
  the caller or from inside the caller's block, sends it to the server
  and makes it the new `cursor`.
 */
module Feeds {
  import opened Common
  import opened Values
  import opened Errors
  import ResponseObject
  import Validations

  /** A feed's attributes and its pending position (`nil` when nothing is pending). */
  datatype Feed = Feed(id: Json, feedType: Json, filter: Json, filterParams: Json, cursor: Json, nextCursor: Json)

  /** `Feed.new(raw, session)`: the declared attributes read from the raw hash; nothing is pending yet. */
  function FeedFromRaw(raw: Fields): (f: Feed)
    ensures f.id == Get(raw, "id") && f.feedType == Get(raw, "type") && f.cursor == Get(raw, "cursor")
    ensures f.filter == Get(raw, "filter") && f.filterParams == Get(raw, "filter_params")
    ensures !Truthy(f.nextCursor)
  {
    Feed(Get(raw, "id"), Get(raw, "type"), Get(raw, "filter"), Get(raw, "filter_params"), Get(raw, "cursor"), JNull)
  }

  /**
    The declared attributes of the `Action` and `Transaction` classes,
    whose bodies are not part of this model, and the codec their
    `rfc3339_time` attributes use.
   */
  datatype ItemClasses = ItemClasses(action: ResponseObject.Schema, transaction: ResponseObject.Schema, codec: ResponseObject.TimeCodec)

  /** What the caller's block receives: an `Action` or a `Transaction` response object. */
  datatype Item = AsAction(obj: ResponseObject.Obj) | AsTransaction(obj: ResponseObject.Obj)

  /** Why `Action.new(item)` or `Transaction.new(item)` raised: the item is not a hash, or an attribute failed to translate. */
  datatype ItemError = NotAHash(raw: Json) | Untranslatable(error: ResponseObject.ObjError)

  /** `type == 'action'` selects actions; every other type, transactions. */
  function ItemSchema(classes: ItemClasses, feedType: Json): ResponseObject.Schema
  {
    if feedType == JStr("action") then classes.action else classes.transaction
  }

  /** `Action.new(raw)` on an action feed, `Transaction.new(raw)` on any other. */
  function NewItem(classes: ItemClasses, feedType: Json, raw: Json): (r: Result<Item, ItemError>)
    ensures r.Ok? ==> (r.value.AsAction? <==> feedType == JStr("action"))
    ensures r.Ok? <==> raw.JObj? && ResponseObject.Build(ItemSchema(classes, feedType), classes.codec, raw.fields).Ok?
    ensures r.Ok? ==> r.value.obj == ResponseObject.Build(ItemSchema(classes, feedType), classes.codec, raw.fields).value
    ensures !raw.JObj? ==> r == Err(NotAHash(raw))
    ensures raw.JObj? && r.Err? ==>
      r == Err(Untranslatable(ResponseObject.Build(ItemSchema(classes, feedType), classes.codec, raw.fields).error))
  {
    if !raw.JObj? then Err(NotAHash(raw))
    else
      match ResponseObject.Build(ItemSchema(classes, feedType), classes.codec, raw.fields)
      case Err(e) => Err(Untranslatable(e))
      case Ok(obj) => if feedType == JStr("action") then Ok(AsAction(obj)) else Ok(AsTransaction(obj))
  }

  /**
    Every item of a batch built as the feed's kind.  Building is pure, so
    building the items up front and raising on reaching a failed one is
    the same as building each one as it is reached.
   */
  function BuildAll(classes: ItemClasses, feedType: Json, items: seq<Json>): (b: seq<Result<Item, ItemError>>)
    ensures |b| == |items|
    ensures forall i :: 0 <= i < |items| ==> b[i] == NewItem(classes, feedType, items[i])
  {
    seq(|items|, i requires 0 <= i < |items| => NewItem(classes, feedType, items[i]))
  }

  /** `cursors[index]`: nil past the end of the list. */
  function CursorAt(cursors: seq<Json>, index: nat): Json
  {
    if index < |cursors| then cursors[index] else JNull
  }

  /** The body of every `stream-feed-items` request. */
  function StreamRequest(f: Feed): Fields
  {
    [("id", f.id)]
  }

  /**
    What the caller's block does with one delivery: it may call `ack`
    (`ack` then holds what the `ack-feed` request raises, if anything),
    and afterwards it may `break`.
   */
  datatype Reaction = Reaction(ack: Option<Option<Failure>>, breaks: bool)

  /** The block's reaction to each delivery in turn; past the end of the list it neither acknowledges nor breaks. */
  type Handler = seq<Reaction>

  function ReactionAt(h: Handler, k: nat): Reaction
  {
    if k < |h| then h[k] else Reaction(None, false)
  }

  /** The reactions left after `n` deliveries. */
  function Remaining(h: Handler, n: nat): Handler
  {
    if n <= |h| then h[n..] else []
  }

  lemma ReactionAtRemaining(h: Handler, n: nat, k: nat)
    ensures ReactionAt(Remaining(h, n), k) == ReactionAt(h, n + k)
  {
  }

  /** A block that never calls `ack`. */
  predicate NoAcks(h: Handler)
  {
    forall k :: 0 <= k < |h| ==> h[k].ack.None?
  }

  lemma RemainingNoAcks(h: Handler, n: nat)
    requires NoAcks(h)
    ensures NoAcks(Remaining(h, n))
  {
    if n <= |h| {
      assert forall k :: 0 <= k < |h[n..]| ==> h[n..][k] == h[n + k];
    }
  }

  /** The block returns normally for an item whose cursor is `pending`: it does not break, and its `ack`, if any, does not raise. */
  predicate BlockReturns(r: Reaction, pending: Json)
  {
    !r.breaks && !(r.ack.Some? && r.ack.value.Some? && Truthy(pending))
  }

  /**
    One hand-over to the caller: the item, the pending position at that
    moment, and the `ack-feed` request the block sent, if any.
   */
  datatype Delivery = Delivery(item: Item, nextCursor: Json, ackSent: Option<Fields>)

  datatype ConsumeError =
    | MalformedBatch(batch: Fields)
    | ItemFailed(raw: Json, cursor: Json, error: ItemError)
    | AckFailed(failure: Failure)

  /** How consuming stopped: the caller broke out, something raised, or the server had no more batches yet. */
  datatype ConsumeEnd = Broke | Failed(error: ConsumeError) | Waiting

  /** The block itself ended the loop: by `break`, or by an `ack` that raised. */
  predicate StoppedByBlock(e: Option<ConsumeEnd>)
  {
    e == Some(Broke) || (e.Some? && e.value.Failed? && e.value.error.AckFailed?)
  }

  predicate ItemFailedEnd(e: Option<ConsumeEnd>)
  {
    e.Some? && e.value.Failed? && e.value.error.ItemFailed?
  }

  /** The feed after the block, the `ack-feed` request it sent, and whether it ended the loop. */
  datatype BlockRun = BlockRun(feed: Feed, ackSent: Option<Fields>, end: Option<ConsumeEnd>)

  /** One run of the caller's block on a feed whose pending position is the current item's cursor. */
  function RunBlock(f: Feed, r: Reaction): (b: BlockRun)
    ensures b.feed.(cursor := f.cursor, nextCursor := f.nextCursor) == f
    ensures b.ackSent.Some? <==> r.ack.Some? && Truthy(f.nextCursor)
    ensures b.ackSent.Some? ==> b.ackSent.value == AckRequest(f)
    ensures b.end.Some? <==> !BlockReturns(r, f.nextCursor)
    ensures b.end.Some? ==> StoppedByBlock(b.end)
    ensures b.end == Some(Broke) ==> r.breaks
    ensures b.end.Some? && b.end.value.Failed? ==>
      r.ack.Some? && r.ack.value.Some? && Truthy(f.nextCursor) && b.end.value.error == AckFailed(r.ack.value.value)
    ensures r.ack.None? || !Truthy(f.nextCursor) ==> b.feed == f
    ensures r.ack == Some(None) && Truthy(f.nextCursor) ==> b.feed == f.(cursor := f.nextCursor, nextCursor := JNull)
  {
    if r.ack.None? then BlockRun(f, None, if r.breaks then Some(Broke) else None)
    else
      var a := Ack(f, r.ack.value);
      if a.raised.Some? then BlockRun(a.feed, a.request, Some(Failed(AckFailed(a.raised.value))))
      else BlockRun(a.feed, a.request, if r.breaks then Some(Broke) else None)
  }

  /** What handing over (part of) one batch produced: the deliveries, the feed after them, and how the loop ended, if it did. */
  datatype Handover = Handover(delivered: seq<Delivery>, feed: Feed, end: Option<ConsumeEnd>)

  /**
    One item of a batch, with the outcome of building it: its cursor
    becomes the pending position, and the block runs on the built item.
   */
  function DeliverItem(f: Feed, raw: Json, built: Result<Item, ItemError>, cursor: Json, r: Reaction): (s: Handover)
    ensures |s.delivered| <= 1
    ensures s.feed.(cursor := f.cursor, nextCursor := f.nextCursor) == f
    ensures ItemFailedEnd(s.end) <==> built.Err?
    ensures ItemFailedEnd(s.end) ==>
      && s.delivered == [] && s.feed == f.(nextCursor := cursor)
      && s.end == Some(Failed(ItemFailed(raw, cursor, built.error)))
    ensures !ItemFailedEnd(s.end) ==>
      var b := RunBlock(f.(nextCursor := cursor), r);
      && s.delivered == [Delivery(built.value, cursor, b.ackSent)]
      && s.feed == b.feed && s.end == b.end
  {
    var f1 := f.(nextCursor := cursor);
    match built
    case Err(e) => Handover([], f1, Some(Failed(ItemFailed(raw, cursor, e))))
    case Ok(item) =>
      var b := RunBlock(f1, r);
      Handover([Delivery(item, cursor, b.ackSent)], b.feed, b.end)
  }

  /**
    The items of one batch from index `index` on, handed over one by one
    until building raises or the block breaks or raises.
   */
  function DeliverBatch(f: Feed, items: seq<Json>, built: seq<Result<Item, ItemError>>, cursors: seq<Json>, index: nat, h: Handler)
    : (r: Handover)
    requires index <= |items| && |built| == |items|
    ensures |r.delivered| <= |items| - index
    ensures r.end.None? ==> |r.delivered| == |items| - index
    ensures r.end.Some? ==> StoppedByBlock(r.end) || ItemFailedEnd(r.end)
    ensures StoppedByBlock(r.end) ==> |r.delivered| >= 1
    ensures r.feed.(cursor := f.cursor, nextCursor := f.nextCursor) == f
    decreases |items| - index
  {
    if index == |items| then Handover([], f, None)
    else
      var s := DeliverItem(f, items[index], built[index], CursorAt(cursors, index), ReactionAt(h, 0));
      if s.end.Some? then s
      else
        var rest := DeliverBatch(s.feed, items, built, cursors, index + 1, Remaining(h, 1));
        Handover(s.delivered + rest.delivered, rest.feed, rest.end)
  }

  /**
    Delivery `k` is item `index + k` as built, paired with the cursor at
    the same index (nil past the end).
   */
  lemma {:induction false} DeliverBatchDelivers(
    f: Feed, items: seq<Json>, built: seq<Result<Item, ItemError>>, cursors: seq<Json>, index: nat, h: Handler, k: nat)
    requires index <= |items| && |built| == |items|
    requires k < |DeliverBatch(f, items, built, cursors, index, h).delivered|
    ensures index + k < |items|
    ensures var d := DeliverBatch(f, items, built, cursors, index, h).delivered[k];
      built[index + k] == Ok(d.item) && d.nextCursor == CursorAt(cursors, index + k)
    decreases k
  {
    var s := DeliverItem(f, items[index], built[index], CursorAt(cursors, index), ReactionAt(h, 0));
    if k > 0 {
      DeliverBatchDelivers(s.feed, items, built, cursors, index + 1, Remaining(h, 1), k - 1);
    }
  }

  /** A delivered item sent an `ack-feed` request for its own cursor exactly when the block acknowledged and that cursor is truthy. */
  lemma DeliverItemAckSent(f: Feed, raw: Json, built: Result<Item, ItemError>, cursor: Json, r: Reaction)
    requires built.Ok?
    ensures var d := DeliverItem(f, raw, built, cursor, r).delivered[0];
      && (d.ackSent.Some? <==> r.ack.Some? && Truthy(cursor))
      && (d.ackSent.Some? ==> Get(d.ackSent.value, "cursor") == cursor)
  {
    var _ := Ack(f.(nextCursor := cursor), None);
  }

  /**
    Delivery `k` sent an `ack-feed` request, for the cursor at index
    `index + k`, exactly when the block acknowledged and that cursor is
    truthy.
   */
  lemma {:induction false} DeliverBatchAckSent(
    f: Feed, items: seq<Json>, built: seq<Result<Item, ItemError>>, cursors: seq<Json>, index: nat, h: Handler, k: nat)
    requires index <= |items| && |built| == |items|
    requires k < |DeliverBatch(f, items, built, cursors, index, h).delivered|
    ensures var d := DeliverBatch(f, items, built, cursors, index, h).delivered[k];
      && (d.ackSent.Some? <==> ReactionAt(h, k).ack.Some? && Truthy(CursorAt(cursors, index + k)))
      && (d.ackSent.Some? ==> Get(d.ackSent.value, "cursor") == CursorAt(cursors, index + k))
    decreases k
  {
    var s := DeliverItem(f, items[index], built[index], CursorAt(cursors, index), ReactionAt(h, 0));
    if k > 0 {
      DeliverBatchAckSent(s.feed, items, built, cursors, index + 1, Remaining(h, 1), k - 1);
      ReactionAtRemaining(h, 1, k - 1);
    } else {
      DeliverItemAckSent(f, items[index], built[index], CursorAt(cursors, index), ReactionAt(h, 0));
    }
  }

  /** The block returned normally on every delivery of the batch except a last one that broke or whose `ack` raised. */
  lemma {:induction false} DeliverBatchReturns(
    f: Feed, items: seq<Json>, built: seq<Result<Item, ItemError>>, cursors: seq<Json>, index: nat, h: Handler, k: nat)
    requires index <= |items| && |built| == |items|
    requires k < |DeliverBatch(f, items, built, cursors, index, h).delivered|
    ensures var r := DeliverBatch(f, items, built, cursors, index, h);
      !BlockReturns(ReactionAt(h, k), CursorAt(cursors, index + k)) <==> k == |r.delivered| - 1 && StoppedByBlock(r.end)
    decreases k
  {
    var s := DeliverItem(f, items[index], built[index], CursorAt(cursors, index), ReactionAt(h, 0));
    if k > 0 {
      DeliverBatchReturns(s.feed, items, built, cursors, index + 1, Remaining(h, 1), k - 1);
      ReactionAtRemaining(h, 1, k - 1);
    }
  }

  /** A batch the block ended broke on its last delivery, or ended there with an `ack` that raised. */
  lemma {:induction false} DeliverBatchStoppedByBlock(
    f: Feed, items: seq<Json>, built: seq<Result<Item, ItemError>>, cursors: seq<Json>, index: nat, h: Handler)
    requires index <= |items| && |built| == |items|
    requires StoppedByBlock(DeliverBatch(f, items, built, cursors, index, h).end)
    ensures var r := DeliverBatch(f, items, built, cursors, index, h);
      && (r.end == Some(Broke) ==> ReactionAt(h, |r.delivered| - 1).breaks)
      && (r.end != Some(Broke) ==>
            && ReactionAt(h, |r.delivered| - 1).ack == Some(Some(r.end.value.error.failure))
            && Truthy(CursorAt(cursors, index + |r.delivered| - 1)))
    decreases |items| - index
  {
    var s := DeliverItem(f, items[index], built[index], CursorAt(cursors, index), ReactionAt(h, 0));
    if s.end.None? {
      var rest := DeliverBatch(s.feed, items, built, cursors, index + 1, Remaining(h, 1));
      DeliverBatchStoppedByBlock(s.feed, items, built, cursors, index + 1, Remaining(h, 1));
      ReactionAtRemaining(h, 1, |rest.delivered| - 1);
    }
  }

  /**
    An item that failed to build is the one right after the last
    delivery: it was not handed over, yet its cursor is already the
    pending position.
   */
  lemma {:induction false} DeliverBatchItemFailed(
    f: Feed, items: seq<Json>, built: seq<Result<Item, ItemError>>, cursors: seq<Json>, index: nat, h: Handler)
    requires index <= |items| && |built| == |items|
    requires ItemFailedEnd(DeliverBatch(f, items, built, cursors, index, h).end)
    ensures var r := DeliverBatch(f, items, built, cursors, index, h);
      && index + |r.delivered| < |items|
      && r.end.value.error.raw == items[index + |r.delivered|]
      && r.end.value.error.cursor == CursorAt(cursors, index + |r.delivered|)
      && built[index + |r.delivered|] == Err(r.end.value.error.error)
      && r.feed.nextCursor == r.end.value.error.cursor
    decreases |items| - index
  {
    var s := DeliverItem(f, items[index], built[index], CursorAt(cursors, index), ReactionAt(h, 0));
    if s.end.None? {
      DeliverBatchItemFailed(s.feed, items, built, cursors, index + 1, Remaining(h, 1));
    }
  }

  /** The pending position after the deliveries: the cursor of a failed item, else of the last delivery, else unchanged. */
  function LastPosition(delivered: seq<Delivery>, end: Option<ConsumeEnd>, pending: Json): Json
  {
    if ItemFailedEnd(end) then end.value.error.cursor
    else if |delivered| > 0 then delivered[|delivered| - 1].nextCursor
    else pending
  }

  /**
    How the block ended a run, when it did: it broke on the last delivery,
    or its `ack` there raised, which needs a truthy pending cursor.
   */
  predicate BlockEnded(hh: Handler, delivered: seq<Delivery>, end: Option<ConsumeEnd>)
  {
    StoppedByBlock(end) ==>
      && |delivered| >= 1
      && (end == Some(Broke) ==> ReactionAt(hh, |delivered| - 1).breaks)
      && (end != Some(Broke) ==>
            && ReactionAt(hh, |delivered| - 1).ack == Some(Some(end.value.error.failure))
            && Truthy(delivered[|delivered| - 1].nextCursor))
  }

  /**
    When the block's `ack` succeeded on the last delivery and no failed
    item came after it, that delivery's cursor is the acknowledged
    position and nothing is pending.
   */
  predicate AckCommitsLast(hh: Handler, delivered: seq<Delivery>, feed: Feed, end: Option<ConsumeEnd>)
  {
    |delivered| >= 1 && ReactionAt(hh, |delivered| - 1).ack == Some(None)
    && Truthy(delivered[|delivered| - 1].nextCursor) && !ItemFailedEnd(end) ==>
      feed.cursor == delivered[|delivered| - 1].nextCursor && feed.nextCursor == JNull
  }

  /** Without acknowledgements, a batch moves only the pending position, to the last position reached. */
  lemma {:induction false} DeliverBatchWithoutAcks(
    f: Feed, items: seq<Json>, built: seq<Result<Item, ItemError>>, cursors: seq<Json>, index: nat, h: Handler)
    requires index <= |items| && |built| == |items|
    requires NoAcks(h)
    ensures var r := DeliverBatch(f, items, built, cursors, index, h);
      r.feed == f.(nextCursor := LastPosition(r.delivered, r.end, f.nextCursor))
    decreases |items| - index
  {
    if index < |items| {
      var s := DeliverItem(f, items[index], built[index], CursorAt(cursors, index), ReactionAt(h, 0));
      if s.end.None? {
        var rest := DeliverBatch(s.feed, items, built, cursors, index + 1, Remaining(h, 1));
        RemainingNoAcks(h, 1);
        DeliverBatchWithoutAcks(s.feed, items, built, cursors, index + 1, Remaining(h, 1));
        var ds := s.delivered + rest.delivered;
        if |rest.delivered| > 0 {
          assert ds[|ds| - 1] == rest.delivered[|rest.delivered| - 1];
        }
      }
    }
  }

  /**
    When the block's `ack` succeeded on the last delivery, and no item
    failed after it, that delivery's cursor is the acknowledged position
    and nothing is pending.
   */
  lemma {:induction false} DeliverBatchAckedLast(
    f: Feed, items: seq<Json>, built: seq<Result<Item, ItemError>>, cursors: seq<Json>, index: nat, h: Handler)
    requires index <= |items| && |built| == |items|
    ensures var r := DeliverBatch(f, items, built, cursors, index, h);
      |r.delivered| >= 1 && ReactionAt(h, |r.delivered| - 1).ack == Some(None)
      && Truthy(r.delivered[|r.delivered| - 1].nextCursor) && !ItemFailedEnd(r.end) ==>
        r.feed.cursor == r.delivered[|r.delivered| - 1].nextCursor && r.feed.nextCursor == JNull
    decreases |items| - index
  {
    if index < |items| {
      var s := DeliverItem(f, items[index], built[index], CursorAt(cursors, index), ReactionAt(h, 0));
      if s.end.None? {
        var rest := DeliverBatch(s.feed, items, built, cursors, index + 1, Remaining(h, 1));
        DeliverBatchAckedLast(s.feed, items, built, cursors, index + 1, Remaining(h, 1));
        var ds := s.delivered + rest.delivered;
        if |rest.delivered| > 0 {
          ReactionAtRemaining(h, 1, |rest.delivered| - 1);
          assert ds[|ds| - 1] == rest.delivered[|rest.delivered| - 1];
        } else if ItemFailedEnd(rest.end) {
        } else {
          assert rest.end.None? && index + 1 == |items|;
        }
      }
    }
  }

  /**
    The items of a batch and the cursors that go with them.  `cursors` is
    only read once there is an item, so an empty batch needs none.
   */
  function BatchLists(batch: Fields): (r: Option<(seq<Json>, seq<Json>)>)
    ensures r.Some? <==>
      Get(batch, "items").JArr? && (|Get(batch, "items").elems| > 0 ==> Get(batch, "cursors").JArr?)
    ensures r.Some? ==> r.value.0 == Get(batch, "items").elems
    ensures r.Some? && Get(batch, "cursors").JArr? ==> r.value.1 == Get(batch, "cursors").elems
  {
    var items := Get(batch, "items");
    var cursors := Get(batch, "cursors");
    if !items.JArr? || (|items.elems| > 0 && !cursors.JArr?) then None
    else Some((items.elems, if cursors.JArr? then cursors.elems else []))
  }

  /** One batch handed over from its first item; nothing when the batch cannot be read. */
  function ConsumeBatch(classes: ItemClasses, f: Feed, batch: Fields, h: Handler): (r: Option<Handover>)
    ensures r.Some? <==> BatchLists(batch).Some?
    ensures r.Some? ==> r.value.feed.(cursor := f.cursor, nextCursor := f.nextCursor) == f
  {
    match BatchLists(batch)
    case None => None
    case Some(lists) => Some(DeliverBatch(f, lists.0, BuildAll(classes, f.feedType, lists.0), lists.1, 0, h))
  }

  datatype ConsumeRun = ConsumeRun(requests: seq<Fields>, delivered: seq<Delivery>, feed: Feed, end: ConsumeEnd)

  /**
    One turn of `Feed#consume`'s loop: from the feed, the batch the
    `stream-feed-items` request returned and the reactions left, the
    hand-over of that batch, or nothing when the batch cannot be read.
   */
  type Step = (Feed, Fields, Handler) -> Option<Handover>

  /** The turn `Feed#consume` takes. */
  function BatchStep(classes: ItemClasses): Step
  {
    (g, b, hh) => ConsumeBatch(classes, g, b, hh)
  }

  /**
    The loop of `Feed#consume`, one request per batch.  The loop itself
    never ends; here it ends when the block breaks, something raises, or
    the list of batches runs out.
   */
  function ConsumeLoop(step: Step, f: Feed, batches: seq<Fields>, h: Handler): (run: ConsumeRun)
    ensures |run.requests| <= |batches|
    ensures |batches| > 0 ==> |run.requests| >= 1
    decreases |batches|
  {
    if |batches| == 0 then ConsumeRun([], [], f, Waiting)
    else
      match step(f, batches[0], h)
      case None => ConsumeRun([StreamRequest(f)], [], f, Failed(MalformedBatch(batches[0])))
      case Some(ho) =>
        if ho.end.Some? then ConsumeRun([StreamRequest(f)], ho.delivered, ho.feed, ho.end.value)
        else
          var rest := ConsumeLoop(step, ho.feed, batches[1..], Remaining(h, |ho.delivered|));
          ConsumeRun([StreamRequest(f)] + rest.requests, ho.delivered + rest.delivered, rest.feed, rest.end)
  }

  /** Unfolds one turn of the loop whose batch was handed over to the end. */
  lemma LoopContinues(step: Step, f: Feed, batches: seq<Fields>, h: Handler)
    requires |batches| > 0 && step(f, batches[0], h).Some? && step(f, batches[0], h).value.end.None?
    ensures var ho := step(f, batches[0], h).value;
      var rest := ConsumeLoop(step, ho.feed, batches[1..], Remaining(h, |ho.delivered|));
      ConsumeLoop(step, f, batches, h)
        == ConsumeRun([StreamRequest(f)] + rest.requests, ho.delivered + rest.delivered, rest.feed, rest.end)
  {
  }

  /** The loop hands over the first batch before anything else; an unreadable first batch hands over nothing. */
  lemma LoopFirstBatch(step: Step, f: Feed, batches: seq<Fields>, h: Handler)
    requires |batches| > 0
    ensures step(f, batches[0], h).None? ==>
      ConsumeLoop(step, f, batches, h) == ConsumeRun([StreamRequest(f)], [], f, Failed(MalformedBatch(batches[0])))
    ensures step(f, batches[0], h).Some? ==>
      var ds := step(f, batches[0], h).value.delivered;
      |ds| <= |ConsumeLoop(step, f, batches, h).delivered|
      && forall k :: 0 <= k < |ds| ==> ConsumeLoop(step, f, batches, h).delivered[k] == ds[k]
    ensures step(f, batches[0], h).Some? && step(f, batches[0], h).value.end.Some? ==>
      var ho := step(f, batches[0], h).value;
      ConsumeLoop(step, f, batches, h) == ConsumeRun([StreamRequest(f)], ho.delivered, ho.feed, ho.end.value)
  {
  }

  /*
    The laws one hand-over keeps, for the feed `g` it started from and the
    reactions `hh` the block had.  The batch step keeps each of them
    (`BatchStepLawful`), and the loop lemmas below need nothing else of it.
   */

  /** The loop ends early only as the block, after a delivery, or a failed item ends it; the feed's attributes stay. */
  predicate ShapeLaw(g: Feed, ho: Handover)
  {
    && (ho.end.Some? ==> StoppedByBlock(ho.end) || ItemFailedEnd(ho.end))
    && (StoppedByBlock(ho.end) ==> |ho.delivered| >= 1)
    && ho.feed.(cursor := g.cursor, nextCursor := g.nextCursor) == g
  }

  /** Every item handed over is of the feed's kind, and the block returned normally on all but a last one that ended the loop. */
  predicate DeliveryLaw(g: Feed, hh: Handler, ho: Handover)
  {
    && (forall k :: 0 <= k < |ho.delivered| ==> (ho.delivered[k].item.AsAction? <==> g.feedType == JStr("action")))
    && (forall k :: 0 <= k < |ho.delivered| ==>
          ((!BlockReturns(ReactionAt(hh, k), ho.delivered[k].nextCursor)) <==> k == |ho.delivered| - 1 && StoppedByBlock(ho.end)))
  }

  /** How the block ended the loop, and that a failed item's cursor is pending and the item does fail to build. */
  predicate EndLaw(classes: ItemClasses, g: Feed, hh: Handler, ho: Handover)
  {
    && BlockEnded(hh, ho.delivered, ho.end)
    && (ItemFailedEnd(ho.end) ==>
          && ho.feed.nextCursor == ho.end.value.error.cursor
          && NewItem(classes, g.feedType, ho.end.value.error.raw) == Err(ho.end.value.error.error))
  }

  /** Where the hand-over leaves the two cursors. */
  predicate PositionLaw(g: Feed, hh: Handler, ho: Handover)
  {
    && (NoAcks(hh) ==> ho.feed == g.(nextCursor := LastPosition(ho.delivered, ho.end, g.nextCursor)))
    && AckCommitsLast(hh, ho.delivered, ho.feed, ho.end)
    && (|ho.delivered| == 0 && !ItemFailedEnd(ho.end) ==> ho.feed == g)
  }

  ghost predicate StepShapes(step: Step)
  {
    forall g, b, hh :: step(g, b, hh).Some? ==> ShapeLaw(g, step(g, b, hh).value)
  }

  ghost predicate StepDelivers(step: Step)
  {
    forall g, b, hh :: step(g, b, hh).Some? ==> DeliveryLaw(g, hh, step(g, b, hh).value)
  }

  ghost predicate StepEnds(classes: ItemClasses, step: Step)
  {
    forall g, b, hh :: step(g, b, hh).Some? ==> EndLaw(classes, g, hh, step(g, b, hh).value)
  }

  ghost predicate StepPositions(step: Step)
  {
    forall g, b, hh :: step(g, b, hh).Some? ==> PositionLaw(g, hh, step(g, b, hh).value)
  }

  /** Every hand-over the step produces keeps every law. */
  ghost predicate Lawful(classes: ItemClasses, step: Step)
  {
    StepShapes(step) && StepDelivers(step) && StepEnds(classes, step) && StepPositions(step)
  }

  /** With no deliveries and no failed item, a batch had no items, so the feed is as it was. */
  lemma DeliverBatchIdle(
    f: Feed, items: seq<Json>, built: seq<Result<Item, ItemError>>, cursors: seq<Json>, index: nat, h: Handler)
    requires index <= |items| && |built| == |items|
    ensures var r := DeliverBatch(f, items, built, cursors, index, h);
      |r.delivered| == 0 && !ItemFailedEnd(r.end) ==> r.feed == f
  {
    if index < |items| {
      var s := DeliverItem(f, items[index], built[index], CursorAt(cursors, index), ReactionAt(h, 0));
    }
  }

  /** The block returned normally on every delivery of a batch but a last one that ended it, whatever was built. */
  lemma DeliverBatchAllReturn(g: Feed, items: seq<Json>, built: seq<Result<Item, ItemError>>, cursors: seq<Json>, hh: Handler)
    requires |built| == |items|
    ensures var ho := DeliverBatch(g, items, built, cursors, 0, hh);
      forall k :: 0 <= k < |ho.delivered| ==>
        ((!BlockReturns(ReactionAt(hh, k), ho.delivered[k].nextCursor)) <==> k == |ho.delivered| - 1 && StoppedByBlock(ho.end))
  {
    var ho := DeliverBatch(g, items, built, cursors, 0, hh);
    forall k | 0 <= k < |ho.delivered|
      ensures (!BlockReturns(ReactionAt(hh, k), ho.delivered[k].nextCursor)) <==> k == |ho.delivered| - 1 && StoppedByBlock(ho.end)
    {
      DeliverBatchDelivers(g, items, built, cursors, 0, hh, k);
      DeliverBatchReturns(g, items, built, cursors, 0, hh, k);
    }
  }

  /** Every readable batch keeps `DeliveryLaw`. */
  lemma ConsumeBatchDeliveryLaw(classes: ItemClasses, g: Feed, b: Fields, hh: Handler)
    requires ConsumeBatch(classes, g, b, hh).Some?
    ensures DeliveryLaw(g, hh, ConsumeBatch(classes, g, b, hh).value)
  {
    var lists := BatchLists(b).value;
    var built := BuildAll(classes, g.feedType, lists.0);
    var ho := DeliverBatch(g, lists.0, built, lists.1, 0, hh);
    DeliverBatchAllReturn(g, lists.0, built, lists.1, hh);
    forall k | 0 <= k < |ho.delivered|
      ensures ho.delivered[k].item.AsAction? <==> g.feedType == JStr("action")
    {
      DeliverBatchDelivers(g, lists.0, built, lists.1, 0, hh, k);
    }
  }

  /** A batch the block ended was ended by a break or a raising `ack` on its last delivery, whatever was built. */
  lemma DeliverBatchBlockEnded(g: Feed, items: seq<Json>, built: seq<Result<Item, ItemError>>, cursors: seq<Json>, hh: Handler)
    requires |built| == |items|
    ensures var ho := DeliverBatch(g, items, built, cursors, 0, hh); BlockEnded(hh, ho.delivered, ho.end)
  {
    var ho := DeliverBatch(g, items, built, cursors, 0, hh);
    if StoppedByBlock(ho.end) {
      DeliverBatchStoppedByBlock(g, items, built, cursors, 0, hh);
      DeliverBatchDelivers(g, items, built, cursors, 0, hh, |ho.delivered| - 1);
    }
  }

  /** A readable batch an item ended left that item's cursor pending, and the item does fail to build. */
  lemma ConsumeBatchItemFailed(classes: ItemClasses, g: Feed, b: Fields, hh: Handler)
    requires ConsumeBatch(classes, g, b, hh).Some?
    requires ItemFailedEnd(ConsumeBatch(classes, g, b, hh).value.end)
    ensures var ho := ConsumeBatch(classes, g, b, hh).value;
      && ho.feed.nextCursor == ho.end.value.error.cursor
      && NewItem(classes, g.feedType, ho.end.value.error.raw) == Err(ho.end.value.error.error)
  {
    var lists := BatchLists(b).value;
    var built := BuildAll(classes, g.feedType, lists.0);
    DeliverBatchItemFailed(g, lists.0, built, lists.1, 0, hh);
  }

  /** Every readable batch keeps `EndLaw`. */
  lemma ConsumeBatchEndLaw(classes: ItemClasses, g: Feed, b: Fields, hh: Handler)
    requires ConsumeBatch(classes, g, b, hh).Some?
    ensures EndLaw(classes, g, hh, ConsumeBatch(classes, g, b, hh).value)
  {
    var lists := BatchLists(b).value;
    DeliverBatchBlockEnded(g, lists.0, BuildAll(classes, g.feedType, lists.0), lists.1, hh);
    if ItemFailedEnd(ConsumeBatch(classes, g, b, hh).value.end) {
      ConsumeBatchItemFailed(classes, g, b, hh);
    }
  }

  /** Where a batch leaves the two cursors, whatever was built. */
  lemma DeliverBatchPositionLaw(g: Feed, items: seq<Json>, built: seq<Result<Item, ItemError>>, cursors: seq<Json>, hh: Handler)
    requires |built| == |items|
    ensures PositionLaw(g, hh, DeliverBatch(g, items, built, cursors, 0, hh))
  {
    if NoAcks(hh) {
      DeliverBatchWithoutAcks(g, items, built, cursors, 0, hh);
    }
    DeliverBatchAckedLast(g, items, built, cursors, 0, hh);
    DeliverBatchIdle(g, items, built, cursors, 0, hh);
  }

  /** Every readable batch keeps `PositionLaw`. */
  lemma ConsumeBatchPositionLaw(classes: ItemClasses, g: Feed, b: Fields, hh: Handler)
    requires ConsumeBatch(classes, g, b, hh).Some?
    ensures PositionLaw(g, hh, ConsumeBatch(classes, g, b, hh).value)
  {
    var lists := BatchLists(b).value;
    DeliverBatchPositionLaw(g, lists.0, BuildAll(classes, g.feedType, lists.0), lists.1, hh);
  }

  /** The batch step keeps every law. */
  lemma BatchStepLawful(classes: ItemClasses)
    ensures Lawful(classes, BatchStep(classes))
  {
    var step := BatchStep(classes);
    forall g, b, hh | step(g, b, hh).Some?
      ensures ShapeLaw(g, step(g, b, hh).value)
      ensures DeliveryLaw(g, hh, step(g, b, hh).value)
      ensures EndLaw(classes, g, hh, step(g, b, hh).value)
      ensures PositionLaw(g, hh, step(g, b, hh).value)
    {
      ConsumeBatchDeliveryLaw(classes, g, b, hh);
      ConsumeBatchEndLaw(classes, g, b, hh);
      ConsumeBatchPositionLaw(classes, g, b, hh);
    }
  }

  /**
    A run that is waiting made a request for every batch, a run the block
    ended handed something over, and no run changes the feed's attributes.
   */
  lemma {:induction false} LoopShape(step: Step, f: Feed, batches: seq<Fields>, h: Handler)
    requires StepShapes(step)
    ensures var run := ConsumeLoop(step, f, batches, h);
      && (run.end.Waiting? ==> |run.requests| == |batches|)
      && (StoppedByBlock(Some(run.end)) ==> |run.delivered| >= 1)
      && run.feed.(cursor := f.cursor, nextCursor := f.nextCursor) == f
    decreases |batches|
  {
    if |batches| > 0 && step(f, batches[0], h).Some? {
      var ho := step(f, batches[0], h).value;
      assert ShapeLaw(f, ho);
      if ho.end.None? {
        LoopContinues(step, f, batches, h);
        LoopShape(step, ho.feed, batches[1..], Remaining(h, |ho.delivered|));
      }
    }
  }

  /** Every request of the loop asks for the same feed, whatever the block acknowledged. */
  lemma {:induction false} LoopRequests(step: Step, f: Feed, batches: seq<Fields>, h: Handler, i: nat)
    requires StepShapes(step)
    requires i < |ConsumeLoop(step, f, batches, h).requests|
    ensures ConsumeLoop(step, f, batches, h).requests[i] == StreamRequest(f)
    decreases |batches|
  {
    LoopFirstBatch(step, f, batches, h);
    if i > 0 {
      var ho := step(f, batches[0], h).value;
      assert ShapeLaw(f, ho);
      var rest := ConsumeLoop(step, ho.feed, batches[1..], Remaining(h, |ho.delivered|));
      LoopContinues(step, f, batches, h);
      LoopRequests(step, ho.feed, batches[1..], Remaining(h, |ho.delivered|), i - 1);
      assert ([StreamRequest(f)] + rest.requests)[i] == rest.requests[i - 1];
    }
  }

  /** Every delivery of the loop carries an item of the feed's kind. */
  lemma {:induction false} LoopDeliversFeedKind(step: Step, f: Feed, batches: seq<Fields>, h: Handler, k: nat)
    requires StepShapes(step) && StepDelivers(step)
    requires k < |ConsumeLoop(step, f, batches, h).delivered|
    ensures ConsumeLoop(step, f, batches, h).delivered[k].item.AsAction? <==> f.feedType == JStr("action")
    decreases |batches|
  {
    LoopFirstBatch(step, f, batches, h);
    var ho := step(f, batches[0], h).value;
    assert ShapeLaw(f, ho) && DeliveryLaw(f, h, ho);
    if k >= |ho.delivered| {
      LoopContinues(step, f, batches, h);
      LoopDeliversFeedKind(step, ho.feed, batches[1..], Remaining(h, |ho.delivered|), k - |ho.delivered|);
    }
  }

  /** The block returned normally on every delivery of the loop but a last one that ended it. */
  lemma {:induction false} LoopReturns(step: Step, f: Feed, batches: seq<Fields>, h: Handler, k: nat)
    requires StepShapes(step) && StepDelivers(step)
    requires k < |ConsumeLoop(step, f, batches, h).delivered|
    ensures var run := ConsumeLoop(step, f, batches, h);
      (!BlockReturns(ReactionAt(h, k), run.delivered[k].nextCursor)) <==> k == |run.delivered| - 1 && StoppedByBlock(Some(run.end))
    decreases |batches|
  {
    LoopFirstBatch(step, f, batches, h);
    var ho := step(f, batches[0], h).value;
    assert ShapeLaw(f, ho) && DeliveryLaw(f, h, ho);
    var n := |ho.delivered|;
    if ho.end.None? {
      var rest := ConsumeLoop(step, ho.feed, batches[1..], Remaining(h, n));
      LoopContinues(step, f, batches, h);
      LoopShape(step, ho.feed, batches[1..], Remaining(h, n));
      if k >= n {
        LoopReturns(step, ho.feed, batches[1..], Remaining(h, n), k - n);
        ReactionAtRemaining(h, n, k - n);
        assert (ho.delivered + rest.delivered)[k] == rest.delivered[k - n];
      }
    }
  }

  /** A run the block ended broke on its last delivery, or ended there with an `ack` that raised. */
  lemma {:induction false} LoopBlockEnded(classes: ItemClasses, step: Step, f: Feed, batches: seq<Fields>, h: Handler)
    requires StepEnds(classes, step)
    ensures var run := ConsumeLoop(step, f, batches, h); BlockEnded(h, run.delivered, Some(run.end))
    decreases |batches|
  {
    if |batches| > 0 && step(f, batches[0], h).Some? {
      var ho := step(f, batches[0], h).value;
      assert EndLaw(classes, f, h, ho);
      var n := |ho.delivered|;
      var rest := ConsumeLoop(step, ho.feed, batches[1..], Remaining(h, n));
      if ho.end.None? && StoppedByBlock(Some(rest.end)) {
        LoopContinues(step, f, batches, h);
        LoopBlockEnded(classes, step, ho.feed, batches[1..], Remaining(h, n));
        ReactionAtRemaining(h, n, |rest.delivered| - 1);
        assert (ho.delivered + rest.delivered)[n + |rest.delivered| - 1] == rest.delivered[|rest.delivered| - 1];
      }
    }
  }

  /** A run an item ended left that item's cursor pending, and the item indeed fails to build. */
  lemma {:induction false} LoopItemFailed(classes: ItemClasses, step: Step, f: Feed, batches: seq<Fields>, h: Handler)
    requires StepShapes(step) && StepEnds(classes, step)
    requires ItemFailedEnd(Some(ConsumeLoop(step, f, batches, h).end))
    ensures var run := ConsumeLoop(step, f, batches, h);
      && run.feed.nextCursor == run.end.error.cursor
      && NewItem(classes, f.feedType, run.end.error.raw) == Err(run.end.error.error)
    decreases |batches|
  {
    LoopFirstBatch(step, f, batches, h);
    var ho := step(f, batches[0], h).value;
    assert ShapeLaw(f, ho) && EndLaw(classes, f, h, ho);
    if ho.end.None? {
      LoopContinues(step, f, batches, h);
      LoopItemFailed(classes, step, ho.feed, batches[1..], Remaining(h, |ho.delivered|));
    }
  }

  /** Without acknowledgements, the loop moves only the pending position, to the last position it reached. */
  lemma {:induction false} LoopWithoutAcks(step: Step, f: Feed, batches: seq<Fields>, h: Handler)
    requires StepPositions(step) && NoAcks(h)
    ensures var run := ConsumeLoop(step, f, batches, h);
      run.feed == f.(nextCursor := LastPosition(run.delivered, Some(run.end), f.nextCursor))
    decreases |batches|
  {
    if |batches| > 0 && step(f, batches[0], h).Some? {
      var ho := step(f, batches[0], h).value;
      assert PositionLaw(f, h, ho);
      if ho.end.None? {
        var n := |ho.delivered|;
        var rest := ConsumeLoop(step, ho.feed, batches[1..], Remaining(h, n));
        LoopContinues(step, f, batches, h);
        RemainingNoAcks(h, n);
        LoopWithoutAcks(step, ho.feed, batches[1..], Remaining(h, n));
        var ds := ho.delivered + rest.delivered;
        if |rest.delivered| > 0 {
          assert ds[|ds| - 1] == rest.delivered[|rest.delivered| - 1];
        } else {
          assert ds == ho.delivered;
        }
      }
    }
  }

  /** A run that handed nothing over and built nothing that failed leaves the feed as it was. */
  lemma {:induction false} LoopIdleKeepsFeed(step: Step, f: Feed, batches: seq<Fields>, h: Handler)
    requires StepPositions(step)
    ensures var run := ConsumeLoop(step, f, batches, h);
      |run.delivered| == 0 && !ItemFailedEnd(Some(run.end)) ==> run.feed == f
    decreases |batches|
  {
    if |batches| > 0 && step(f, batches[0], h).Some? {
      var ho := step(f, batches[0], h).value;
      assert PositionLaw(f, h, ho);
      if ho.end.None? && |ho.delivered| == 0 {
        LoopContinues(step, f, batches, h);
        LoopIdleKeepsFeed(step, ho.feed, batches[1..], Remaining(h, 0));
      }
    }
  }

  /** `LoopAckedLast` when the first batch is handed over to the end and the later batches hand over nothing. */
  lemma IdleAfterFirstBatchAckedLast(step: Step, f: Feed, batches: seq<Fields>, h: Handler)
    requires StepPositions(step)
    requires |batches| > 0 && step(f, batches[0], h).Some? && step(f, batches[0], h).value.end.None?
    requires var ho := step(f, batches[0], h).value;
      |ConsumeLoop(step, ho.feed, batches[1..], Remaining(h, |ho.delivered|)).delivered| == 0
    ensures var run := ConsumeLoop(step, f, batches, h); AckCommitsLast(h, run.delivered, run.feed, Some(run.end))
  {
    var ho := step(f, batches[0], h).value;
    assert PositionLaw(f, h, ho);
    LoopContinues(step, f, batches, h);
    LoopIdleKeepsFeed(step, ho.feed, batches[1..], Remaining(h, |ho.delivered|));
    var rest := ConsumeLoop(step, ho.feed, batches[1..], Remaining(h, |ho.delivered|));
    assert ho.delivered + rest.delivered == ho.delivered;
  }

  /**
    When the block's `ack` succeeded on the last delivery of a run that no
    failed item ended, that delivery's cursor is the acknowledged position
    and nothing is pending.
   */
  lemma {:induction false} LoopAckedLast(step: Step, f: Feed, batches: seq<Fields>, h: Handler)
    requires StepPositions(step)
    ensures var run := ConsumeLoop(step, f, batches, h); AckCommitsLast(h, run.delivered, run.feed, Some(run.end))
    decreases |batches|
  {
    if |batches| > 0 && step(f, batches[0], h).Some? {
      var ho := step(f, batches[0], h).value;
      assert PositionLaw(f, h, ho);
      if ho.end.None? {
        var n := |ho.delivered|;
        var rest := ConsumeLoop(step, ho.feed, batches[1..], Remaining(h, n));
        if |rest.delivered| > 0 {
          LoopContinues(step, f, batches, h);
          LoopAckedLast(step, ho.feed, batches[1..], Remaining(h, n));
          ReactionAtRemaining(h, n, |rest.delivered| - 1);
          var ds := ho.delivered + rest.delivered;
          assert ds[|ds| - 1] == rest.delivered[|rest.delivered| - 1];
        } else {
          IdleAfterFirstBatchAckedLast(step, f, batches, h);
        }
      }
    }
  }

  /** `Feed#consume` against the batches successive `stream-feed-items` requests return. */
  function Consume(classes: ItemClasses, f: Feed, batches: seq<Fields>, h: Handler): (run: ConsumeRun)
    ensures |run.requests| <= |batches|
    ensures |batches| > 0 ==> |run.requests| >= 1
    ensures run.end.Waiting? ==> |run.requests| == |batches|
    ensures StoppedByBlock(Some(run.end)) ==> |run.delivered| >= 1
    ensures run.feed.(cursor := f.cursor, nextCursor := f.nextCursor) == f
  {
    BatchStepLawful(classes);
    LoopShape(BatchStep(classes), f, batches, h);
    ConsumeLoop(BatchStep(classes), f, batches, h)
  }

  /** A run hands over its first readable batch before anything else; an unreadable first batch ends it. */
  lemma ConsumeFirstBatch(classes: ItemClasses, f: Feed, batches: seq<Fields>, h: Handler)
    requires |batches| > 0
    ensures ConsumeBatch(classes, f, batches[0], h).None? ==>
      Consume(classes, f, batches, h) == ConsumeRun([StreamRequest(f)], [], f, Failed(MalformedBatch(batches[0])))
    ensures ConsumeBatch(classes, f, batches[0], h).Some? ==>
      var ds := ConsumeBatch(classes, f, batches[0], h).value.delivered;
      |ds| <= |Consume(classes, f, batches, h).delivered|
      && forall k :: 0 <= k < |ds| ==> Consume(classes, f, batches, h).delivered[k] == ds[k]
  {
    LoopFirstBatch(BatchStep(classes), f, batches, h);
  }

  /** Every request of a consume run asks for the same feed, whatever the block acknowledged. */
  lemma ConsumeRequests(classes: ItemClasses, f: Feed, batches: seq<Fields>, h: Handler, i: nat)
    requires i < |Consume(classes, f, batches, h).requests|
    ensures Consume(classes, f, batches, h).requests[i] == StreamRequest(f)
  {
    BatchStepLawful(classes);
    LoopRequests(BatchStep(classes), f, batches, h, i);
  }

  /** Every delivery of a run carries an `Action` on an action feed and a `Transaction` on any other. */
  lemma ConsumeDeliversFeedKind(classes: ItemClasses, f: Feed, batches: seq<Fields>, h: Handler, k: nat)
    requires k < |Consume(classes, f, batches, h).delivered|
    ensures Consume(classes, f, batches, h).delivered[k].item.AsAction? <==> f.feedType == JStr("action")
  {
    BatchStepLawful(classes);
    LoopDeliversFeedKind(BatchStep(classes), f, batches, h, k);
  }

  /**
    The block returned normally on every delivery of a run, except on a
    last one where it broke or its `ack` raised, which ended the run.
   */
  lemma ConsumeReturns(classes: ItemClasses, f: Feed, batches: seq<Fields>, h: Handler, k: nat)
    requires k < |Consume(classes, f, batches, h).delivered|
    ensures var run := Consume(classes, f, batches, h);
      (!BlockReturns(ReactionAt(h, k), run.delivered[k].nextCursor)) <==> k == |run.delivered| - 1 && StoppedByBlock(Some(run.end))
  {
    BatchStepLawful(classes);
    LoopReturns(BatchStep(classes), f, batches, h, k);
  }

  /**
    A run the block ended broke on its last delivery, or ended there with
    an `ack` that raised.
   */
  lemma ConsumeBlockEnded(classes: ItemClasses, f: Feed, batches: seq<Fields>, h: Handler)
    ensures var run := Consume(classes, f, batches, h); BlockEnded(h, run.delivered, Some(run.end))
  {
    BatchStepLawful(classes);
    LoopBlockEnded(classes, BatchStep(classes), f, batches, h);
  }

  /**
    A run an item ended raised that item's construction error, and left
    the item's cursor as the pending position although the item was never
    handed over.
   */
  lemma ConsumeItemFailed(classes: ItemClasses, f: Feed, batches: seq<Fields>, h: Handler)
    requires ItemFailedEnd(Some(Consume(classes, f, batches, h).end))
    ensures var run := Consume(classes, f, batches, h);
      && run.feed.nextCursor == run.end.error.cursor
      && NewItem(classes, f.feedType, run.end.error.raw) == Err(run.end.error.error)
  {
    BatchStepLawful(classes);
    LoopItemFailed(classes, BatchStep(classes), f, batches, h);
  }

  /** Without acknowledgements, consuming moves only the pending position, to the last position it reached. */
  lemma ConsumeWithoutAcks(classes: ItemClasses, f: Feed, batches: seq<Fields>, h: Handler)
    requires NoAcks(h)
    ensures var run := Consume(classes, f, batches, h);
      run.feed == f.(nextCursor := LastPosition(run.delivered, Some(run.end), f.nextCursor))
  {
    BatchStepLawful(classes);
    LoopWithoutAcks(BatchStep(classes), f, batches, h);
  }

  /** A run that handed nothing over and built nothing that failed leaves the feed as it was. */
  lemma ConsumeIdleKeepsFeed(classes: ItemClasses, f: Feed, batches: seq<Fields>, h: Handler)
    ensures var run := Consume(classes, f, batches, h);
      |run.delivered| == 0 && !ItemFailedEnd(Some(run.end)) ==> run.feed == f
  {
    BatchStepLawful(classes);
    LoopIdleKeepsFeed(BatchStep(classes), f, batches, h);
  }

  /**
    When the block's `ack` succeeded on the last delivery of a run that no
    failed item ended, that delivery's cursor is the acknowledged position
    and nothing is pending, as with `f.ack` followed by `break`.
   */
  lemma ConsumeAckedLast(classes: ItemClasses, f: Feed, batches: seq<Fields>, h: Handler)
    ensures var run := Consume(classes, f, batches, h); AckCommitsLast(h, run.delivered, run.feed, Some(run.end))
  {
    BatchStepLawful(classes);
    LoopAckedLast(BatchStep(classes), f, batches, h);
  }

  /** A block that never acknowledges leaves the acknowledged cursor, and every attribute but the pending position, alone. */
  lemma ConsumeKeepsCursor(classes: ItemClasses, f: Feed, batches: seq<Fields>, h: Handler)
    requires NoAcks(h)
    ensures Consume(classes, f, batches, h).feed.(nextCursor := f.nextCursor) == f
  {
    ConsumeWithoutAcks(classes, f, batches, h);
  }

  /**
    Consuming a second time without any acknowledgement asks for the same
    feed, and the acknowledged position is still the one before both
    runs: an `ack` afterwards sends it as `previous_cursor`.
   */
  lemma ReconsumeWithoutAckKeepsPosition(
    classes: ItemClasses, f: Feed, batches: seq<Fields>, h: Handler, later: seq<Fields>, h2: Handler)
    requires NoAcks(h) && NoAcks(h2)
    ensures var g := Consume(classes, f, batches, h).feed;
      forall i :: 0 <= i < |Consume(classes, g, later, h2).requests| ==> Consume(classes, g, later, h2).requests[i] == StreamRequest(f)
    ensures var g := Consume(classes, f, batches, h).feed;
      var g2 := Consume(classes, g, later, h2).feed;
      && g2.cursor == f.cursor
      && (Truthy(g2.nextCursor) ==> Ack(g2, None).request.Some? && Get(Ack(g2, None).request.value, "previous_cursor") == f.cursor)
  {
    var g := Consume(classes, f, batches, h).feed;
    ConsumeKeepsCursor(classes, f, batches, h);
    ConsumeKeepsCursor(classes, g, later, h2);
    forall i | 0 <= i < |Consume(classes, g, later, h2).requests|
      ensures Consume(classes, g, later, h2).requests[i] == StreamRequest(f)
    {
      ConsumeRequests(classes, g, later, h2, i);
    }
  }

  /**
    Consuming without acknowledging and then acknowledging makes the last
    position reached the acknowledged one.  That position is the cursor
    of an item that failed to build when one did, so that item is skipped
    by every later run.
   */
  lemma ConsumeThenAck(classes: ItemClasses, f: Feed, batches: seq<Fields>, h: Handler)
    requires NoAcks(h)
    requires var run := Consume(classes, f, batches, h); Truthy(LastPosition(run.delivered, Some(run.end), f.nextCursor))
    ensures var run := Consume(classes, f, batches, h);
      && Ack(run.feed, None).feed.cursor == LastPosition(run.delivered, Some(run.end), f.nextCursor)
      && Ack(run.feed, None).request.Some?
      && Get(Ack(run.feed, None).request.value, "previous_cursor") == f.cursor
  {
    ConsumeWithoutAcks(classes, f, batches, h);
  }

  /** Whatever the block did, an `ack` after a run that a failed item ended commits that item's cursor. */
  lemma ItemFailedThenAck(classes: ItemClasses, f: Feed, batches: seq<Fields>, h: Handler)
    requires var run := Consume(classes, f, batches, h);
      run.end.Failed? && run.end.error.ItemFailed? && Truthy(run.end.error.cursor)
    ensures var run := Consume(classes, f, batches, h);
      Ack(run.feed, None).feed.cursor == run.end.error.cursor
  {
    ConsumeItemFailed(classes, f, batches, h);
  }

  /** The body of the `ack-feed` request. */
  function AckRequest(f: Feed): Fields
  {
    [("id", f.id), ("cursor", f.nextCursor), ("previous_cursor", f.cursor)]
  }

  /** The feed after an acknowledgement, the request it sent if any, and what that request raised. */
  datatype AckRun = AckRun(feed: Feed, request: Option<Fields>, raised: Option<Failure>)

  /**
    `Feed#ack`, where `raised` is what the `ack-feed` request raises, if
    anything.  Nothing pending: no request, no change.  Otherwise the
    pending position is sent with the acknowledged one as
    `previous_cursor`, and on success becomes the acknowledged position.
   */
  function Ack(f: Feed, raised: Option<Failure>): (r: AckRun)
    ensures !Truthy(f.nextCursor) ==> r == AckRun(f, None, None)
    ensures Truthy(f.nextCursor) ==>
      && r.request == Some(AckRequest(f))
      && Get(AckRequest(f), "cursor") == f.nextCursor
      && Get(AckRequest(f), "previous_cursor") == f.cursor
    ensures Truthy(f.nextCursor) && raised.None? ==>
      r.feed == f.(cursor := f.nextCursor, nextCursor := JNull) && r.raised.None?
    ensures Truthy(f.nextCursor) ==> r.raised == raised
    ensures raised.Some? ==> r.feed == f
  {
    var req := AckRequest(f);
    assert "id"[0] != "previous_cursor"[0] && "cursor"[0] != "previous_cursor"[0] && "id"[0] != "cursor"[0];
    assert req[1..][1..] == [("previous_cursor", f.cursor)];
    assert Get(req[1..], "previous_cursor") == f.cursor;
    if !Truthy(f.nextCursor) then AckRun(f, None, None)
    else if raised.Some? then AckRun(f, Some(AckRequest(f)), raised)
    else AckRun(f.(cursor := f.nextCursor, nextCursor := JNull), Some(AckRequest(f)), None)
  }

  /** A second acknowledgement right after a successful one sends nothing and changes nothing. */
  lemma AckTwiceIsAckOnce(f: Feed, raised: Option<Failure>, again: Option<Failure>)
    requires Ack(f, raised).raised.None?
    ensures Ack(Ack(f, raised).feed, again) == AckRun(Ack(f, raised).feed, None, None)
  {
  }

  const FeedOptions: seq<string> := ["id", "type", "filter", "filter_params"]

  const TypeMessage: string := ":type must equal action or transaction"

  /** `feeds.create(opts)`: the option checks made before any request; the request body is `opts` itself. */
  function CreateFeedRequest(opts: Fields): (r: Result<Fields, string>)
    ensures r.Ok? <==>
      && (forall i :: 0 <= i < |opts| ==> Validations.InValid(opts[i].0, FeedOptions))
      && (Get(opts, "type") == JStr("action") || Get(opts, "type") == JStr("transaction"))
    ensures r.Ok? ==> r.value == opts
    ensures (forall i :: 0 <= i < |opts| ==> Validations.InValid(opts[i].0, FeedOptions)) && Blank(Get(opts, "type")) ==>
      r == Err(Validations.RequiredMessage(["type"]))
  {
    match Validations.ValidateInclusionOf(opts, FeedOptions)
    case Fail(m) => Err(m)
    case Pass =>
      match Validations.ValidateRequired(opts, ["type"])
      case Fail(m) => Err(m)
      case Pass =>
        if Get(opts, "type") != JStr("action") && Get(opts, "type") != JStr("transaction") then Err(TypeMessage)
        else Ok(opts)
  }

  /** A type other than the two feed kinds is refused with its own message, before any request. */
  lemma CreateRejectsOtherTypes(opts: Fields)
    requires forall i :: 0 <= i < |opts| ==> Validations.InValid(opts[i].0, FeedOptions)
    requires !Blank(Get(opts, "type"))
    requires Get(opts, "type") != JStr("action") && Get(opts, "type") != JStr("transaction")
    ensures CreateFeedRequest(opts) == Err(TypeMessage)
  {
  }

  /**
    The three refusals exercised against `create`: an unknown option, no
    options at all, and a type that is neither kind.
   */
  lemma CreateFeedExamples()
    ensures CreateFeedRequest([("not", JStr("an-option"))]).Err?
    ensures CreateFeedRequest([]) == Err(Validations.RequiredMessage(["type"]))
    ensures CreateFeedRequest([("type", JStr("not-action-or-transaction")), ("filter", JStr("actions(type='issue')"))])
         == Err(TypeMessage)
  {
    assert !Validations.InValid("not", FeedOptions) by {
      assert forall j :: 0 <= j < |FeedOptions| ==> FeedOptions[j][0] != 'n';
    }
    var opts: Fields := [("type", JStr("not-action-or-transaction")), ("filter", JStr("actions(type='issue')"))];
    assert FeedOptions[1] == "type" && FeedOptions[2] == "filter";
    assert Validations.InValid(opts[0].0, FeedOptions) && Validations.InValid(opts[1].0, FeedOptions);
    assert Get(opts, "type") == JStr("not-action-or-transaction");
    assert JStr("not-action-or-transaction") != JStr("action") by {
      assert |"not-action-or-transaction"| != |"action"|;
    }
    assert JStr("not-action-or-transaction") != JStr("transaction") by {
      assert |"not-action-or-transaction"| != |"transaction"|;
    }
  }

  /** `feeds.get(opts)` and `feeds.delete(opts)`: a missing or empty id is refused before any request. */
  function IdRequest(opts: Fields): (r: Result<Fields, string>)
    ensures r.Ok? <==> !Blank(Get(opts, "id"))
    ensures r.Ok? ==> r.value == opts
    ensures r.Err? ==> r.error == Validations.RequiredMessage(["id"])
  {
    match Validations.ValidateRequired(opts, ["id"])
    case Fail(m) => Err(m)
    case Pass => Ok(opts)
  }
}

=== FILE: pager.dfy ===
/**
  Cursor paging.  A page is built from the hash one fetch returned; a page
  query fetches page after page, each time asking for exactly the cursor
  of the page before, and stops after the page that says it is the last
  one or that holds no items.  The server is a finite list of the hashes
  successive fetches return.
 */
module Pager {
  import opened Common
  import opened Values

  datatype Page<T> = Page(items: seq<T>, cursor: Json, lastPage: Json)

  datatype PageError =
    | ItemsNotEnumerable(items: Json)
    | ItemTranslateFailed(item: Json, message: string)
    | SizeNotNumeric(size: Json)

  /** The elements `map` walks: an array's elements, or a hash's `[key, value]` pairs. */
  function Enumerated(items: Json): (r: Result<seq<Json>, PageError>)
    ensures !Truthy(items) ==> r == Ok([])
    ensures items.JArr? ==> r == Ok(items.elems)
    ensures items.JObj? ==> r.Ok? && |r.value| == |items.fields|
    ensures items.JObj? ==> forall i :: 0 <= i < |items.fields| ==>
      r.value[i] == JArr([JStr(items.fields[i].0), items.fields[i].1])
    ensures r.Err? <==> Truthy(items) && !items.JArr? && !items.JObj?
  {
    match items
    case JNull => Ok([])
    case JBool(false) => Ok([])
    case JArr(xs) => Ok(xs)
    case JObj(fs) => Ok(seq(|fs|, i requires 0 <= i < |fs| => JArr([JStr(fs[i].0), fs[i].1])))
    case _ => Err(ItemsNotEnumerable(items))
  }

  /** `items.map { |i| translate.call(i) }`: one result per element, in order; the first failure raises. */
  function TranslateAll<T>(elems: seq<Json>, translate: Json -> Result<T, string>): (r: Result<seq<T>, PageError>)
    ensures r.Ok? <==> forall i :: 0 <= i < |elems| ==> translate(elems[i]).Ok?
    ensures r.Ok? ==> |r.value| == |elems| && forall i :: 0 <= i < |elems| ==> r.value[i] == translate(elems[i]).value
    ensures r.Err? ==>
      exists i ::
        && 0 <= i < |elems|
        && translate(elems[i]).Err?
        && (forall k :: 0 <= k < i ==> translate(elems[k]).Ok?)
        && r.error == ItemTranslateFailed(elems[i], translate(elems[i]).error)
  {
    if |elems| == 0 then Ok([])
    else
      match translate(elems[0])
      case Err(m) => Err(ItemTranslateFailed(elems[0], m))
      case Ok(x) =>
        var rest := TranslateAll(elems[1..], translate);
        assert forall i :: 1 <= i < |elems| ==> elems[i] == elems[1..][i - 1];
        if rest.Err? then
          var i :| 0 <= i < |elems[1..]| && translate(elems[1..][i]).Err?
            && (forall k :: 0 <= k < i ==> translate(elems[1..][k]).Ok?)
            && rest.error == ItemTranslateFailed(elems[1..][i], translate(elems[1..][i]).error);
          assert forall k :: 1 <= k < i + 1 ==> elems[k] == elems[1..][k - 1];
          Err(rest.error)
        else
          assert forall i :: 1 <= i < |elems| ==> ([x] + rest.value)[i] == rest.value[i - 1];
          Ok([x] + rest.value)
  }

  /** `Page.new(raw, translate)`: `cursor` and `last_page` are copied, missing items are an empty list. */
  function PageFromRaw<T>(raw: Fields, translate: Json -> Result<T, string>): (r: Result<Page<T>, PageError>)
    ensures r.Ok? ==> r.value.cursor == Get(raw, "cursor") && r.value.lastPage == Get(raw, "last_page")
    ensures !Truthy(Get(raw, "items")) ==> r.Ok? && r.value.items == []
    ensures Get(raw, "items").JArr? ==>
      var elems := Get(raw, "items").elems;
      && (r.Ok? <==> forall i :: 0 <= i < |elems| ==> translate(elems[i]).Ok?)
      && (r.Ok? ==> |r.value.items| == |elems| && forall i :: 0 <= i < |elems| ==> r.value.items[i] == translate(elems[i]).value)
    ensures Enumerated(Get(raw, "items")).Err? ==> r == Err(Enumerated(Get(raw, "items")).error)
    ensures Enumerated(Get(raw, "items")).Ok? ==>
      var elems := Enumerated(Get(raw, "items")).value;
      && (r.Ok? <==> forall i :: 0 <= i < |elems| ==> translate(elems[i]).Ok?)
      && (r.Ok? ==> |r.value.items| == |elems| && forall i :: 0 <= i < |elems| ==> r.value.items[i] == translate(elems[i]).value)
  {
    var elems :- Enumerated(Get(raw, "items"));
    match TranslateAll(elems, translate)
    case Err(e) =>
      var i :| 0 <= i < |elems| && translate(elems[i]).Err? && e == ItemTranslateFailed(elems[i], translate(elems[i]).error);
      Err(e)
    case Ok(items) => Ok(Page(items, Get(raw, "cursor"), Get(raw, "last_page")))
  }

  /** The two `break`s of the loop: a truthy `last_page`, or no items. */
  predicate Stops<T>(p: Page<T>)
  {
    Truthy(p.lastPage) || |p.items| == 0
  }

  /** `{cursor: page.cursor}`: the whole query of every fetch after the first. */
  function NextQuery<T>(p: Page<T>): Fields
  {
    [("cursor", p.cursor)]
  }

  /** How the loop ended: a stopping page, an exception, or the list of server responses ran out. */
  datatype End = Finished | Raised(error: PageError) | OutOfPages

  /** The queries fetched, the pages yielded, and how iteration ended. */
  datatype Iteration<T> = Iteration(queries: seq<Fields>, pages: seq<Page<T>>, end: End)

  /** `PageQuery#each` from query `query`, where `responses[i]` is what the `i`-th fetch returns. */
  function EachPage<T>(query: Fields, responses: seq<Fields>, translate: Json -> Result<T, string>): (it: Iteration<T>)
    ensures |it.queries| <= |responses|
    ensures |it.queries| == |it.pages| + (if it.end.Raised? then 1 else 0)
    ensures |responses| > 0 ==> |it.queries| >= 1 && it.queries[0] == query
    ensures it.end.OutOfPages? ==> |it.queries| == |responses|
    decreases |responses|
  {
    if |responses| == 0 then Iteration([], [], OutOfPages)
    else
      match PageFromRaw(responses[0], translate)
      case Err(e) => Iteration([query], [], Raised(e))
      case Ok(p) =>
        if Stops(p) then Iteration([query], [p], Finished)
        else
          var rest := EachPage(NextQuery(p), responses[1..], translate);
          Iteration([query] + rest.queries, [p] + rest.pages, rest.end)
  }

  /** Unfolds one round of the loop for a page that does not stop it. */
  lemma EachPageContinues<T>(query: Fields, responses: seq<Fields>, translate: Json -> Result<T, string>)
    requires |responses| > 0
    requires PageFromRaw(responses[0], translate).Ok?
    requires !Stops(PageFromRaw(responses[0], translate).value)
    ensures var p := PageFromRaw(responses[0], translate).value;
      var rest := EachPage(NextQuery(p), responses[1..], translate);
      EachPage(query, responses, translate) == Iteration([query] + rest.queries, [p] + rest.pages, rest.end)
  {
  }

  /** After the first fetch, every query is exactly the cursor of the page before; nothing else is kept. */
  lemma {:induction false} EachPageQueries<T>(
    query: Fields, responses: seq<Fields>, translate: Json -> Result<T, string>, i: nat)
    requires 1 <= i < |EachPage(query, responses, translate).queries|
    ensures var it := EachPage(query, responses, translate);
      i - 1 < |it.pages| && it.queries[i] == NextQuery(it.pages[i - 1])
    decreases |responses|
  {
    var p := PageFromRaw(responses[0], translate).value;
    EachPageContinues(query, responses, translate);
    if i > 1 {
      EachPageQueries(NextQuery(p), responses[1..], translate, i - 1);
    }
  }

  /** Page `i` is built from the `i`-th response: one fetch per page, in order. */
  lemma {:induction false} EachPagePages<T>(
    query: Fields, responses: seq<Fields>, translate: Json -> Result<T, string>, i: nat)
    requires i < |EachPage(query, responses, translate).pages|
    ensures i < |responses| && PageFromRaw(responses[i], translate) == Ok(EachPage(query, responses, translate).pages[i])
    decreases |responses|
  {
    var p := PageFromRaw(responses[0], translate).value;
    if i > 0 {
      EachPageContinues(query, responses, translate);
      EachPagePages(NextQuery(p), responses[1..], translate, i - 1);
      assert responses[1..][i - 1] == responses[i];
    }
  }

  /** Every yielded page but the last let the loop go on. */
  lemma {:induction false} EachPageOnlyLastStops<T>(
    query: Fields, responses: seq<Fields>, translate: Json -> Result<T, string>, i: nat)
    requires i + 1 < |EachPage(query, responses, translate).pages|
    ensures !Stops(EachPage(query, responses, translate).pages[i])
    decreases |responses|
  {
    var p := PageFromRaw(responses[0], translate).value;
    EachPageContinues(query, responses, translate);
    if i > 0 {
      EachPageOnlyLastStops(NextQuery(p), responses[1..], translate, i - 1);
    }
  }

  /** A finished iteration ended on a stopping page, and that page was still yielded. */
  lemma {:induction false} EachPageFinishedOnStop<T>(query: Fields, responses: seq<Fields>, translate: Json -> Result<T, string>)
    requires EachPage(query, responses, translate).end.Finished?
    ensures var it := EachPage(query, responses, translate);
      |it.pages| >= 1 && Stops(it.pages[|it.pages| - 1])
    decreases |responses|
  {
    var p := PageFromRaw(responses[0], translate).value;
    if !Stops(p) {
      EachPageContinues(query, responses, translate);
      EachPageFinishedOnStop(NextQuery(p), responses[1..], translate);
    }
  }

  /**
    When the server's page `j` is the first that stops the loop (and none
    before it fails to build), iteration makes exactly `j + 1` fetches and
    yields exactly `j + 1` pages, however many more pages the server holds.
   */
  lemma {:induction false} EachPageStopsAtFirstStoppingPage<T>(
    query: Fields, responses: seq<Fields>, translate: Json -> Result<T, string>, j: nat)
    requires j < |responses|
    requires forall i :: 0 <= i <= j ==> PageFromRaw(responses[i], translate).Ok?
    requires forall i :: 0 <= i < j ==> !Stops(PageFromRaw(responses[i], translate).value)
    requires Stops(PageFromRaw(responses[j], translate).value)
    ensures |EachPage(query, responses, translate).queries| == j + 1
    ensures |EachPage(query, responses, translate).pages| == j + 1
    ensures EachPage(query, responses, translate).end.Finished?
    decreases |responses|
  {
    if j > 0 {
      var p := PageFromRaw(responses[0], translate).value;
      EachPageContinues(query, responses, translate);
      assert forall i :: 0 <= i < |responses| - 1 ==> responses[1..][i] == responses[i + 1];
      EachPageStopsAtFirstStoppingPage(NextQuery(p), responses[1..], translate, j - 1);
    }
  }

  /**
    A first response without items (as an account record returned in place
    of a page) is one page with no items: exactly one fetch is made.
   */
  lemma OneFetchForAnItemlessPage<T>(query: Fields, responses: seq<Fields>, translate: Json -> Result<T, string>)
    requires |responses| >= 1
    requires !Truthy(Get(responses[0], "items"))
    ensures |EachPage(query, responses, translate).queries| == 1
    ensures EachPage(query, responses, translate).end.Finished?
  {
    EachPageStopsAtFirstStoppingPage(query, responses, translate, 0);
  }

  /** `PageQuery#page`: a single fetch with the current query. */
  function SinglePage<T>(query: Fields, response: Fields, translate: Json -> Result<T, string>): Result<Page<T>, PageError>
  {
    PageFromRaw(response, translate)
  }

  /**
    A single fetch with a query gives the page iteration from that query
    yields first, and a single fetch that raises is where iteration raises.
   */
  lemma SinglePageIsFirstPage<T>(query: Fields, responses: seq<Fields>, translate: Json -> Result<T, string>)
    requires |responses| >= 1
    ensures var it := EachPage(query, responses, translate);
      && it.queries[0] == query
      && (SinglePage(query, responses[0], translate).Ok? ==>
            |it.pages| >= 1 && it.pages[0] == SinglePage(query, responses[0], translate).value)
      && (SinglePage(query, responses[0], translate).Err? ==>
            it.pages == [] && it.end == Raised(SinglePage(query, responses[0], translate).error))
  {
    if PageFromRaw(responses[0], translate).Ok? && !Stops(PageFromRaw(responses[0], translate).value) {
      EachPageContinues(query, responses, translate);
    }
  }

  /** All items of the pages, page after page. */
  function Flatten<T>(pages: seq<Page<T>>): seq<T>
  {
    if |pages| == 0 then [] else pages[0].items + Flatten(pages[1..])
  }

  /** How many items come before page `p`. */
  function Offset<T>(pages: seq<Page<T>>, p: nat): nat
    requires p <= |pages|
  {
    if p == 0 then 0 else Offset(pages, p - 1) + |pages[p - 1].items|
  }

  /** Item `i` of page `p` is yielded at position `Offset(pages, p) + i`, so page order and item order are kept. */
  lemma {:induction false} FlattenKeepsOrder<T>(pages: seq<Page<T>>, p: nat, i: nat)
    requires p < |pages| && i < |pages[p].items|
    ensures Offset(pages, p) + i < |Flatten(pages)|
    ensures Flatten(pages)[Offset(pages, p) + i] == pages[p].items[i]
    decreases p
  {
    if p == 0 {
    } else {
      FlattenKeepsOrder(pages[1..], p - 1, i);
      OffsetOfTail(pages, p);
    }
  }

  lemma {:induction false} OffsetOfTail<T>(pages: seq<Page<T>>, p: nat)
    requires 1 <= p <= |pages|
    ensures Offset(pages, p) == |pages[0].items| + Offset(pages[1..], p - 1)
    decreases p
  {
    if p > 1 {
      OffsetOfTail(pages, p - 1);
      assert pages[1..][p - 2] == pages[p - 1];
    }
  }

  /** `items` lists item `i` of page `p` at position `Offset(pages, p) + i`: page order, then item order. */
  ghost predicate InPageOrder<T>(items: seq<T>, pages: seq<Page<T>>)
  {
    && |items| == Offset(pages, |pages|)
    && forall p, i | 0 <= p < |pages| && 0 <= i < |pages[p].items| ::
      Offset(pages, p) + i < |items| && items[Offset(pages, p) + i] == pages[p].items[i]
  }

  lemma {:induction false} FlattenLength<T>(pages: seq<Page<T>>)
    ensures |Flatten(pages)| == Offset(pages, |pages|)
  {
    if |pages| > 0 {
      FlattenLength(pages[1..]);
      OffsetOfTail(pages, |pages|);
    }
  }

  lemma FlattenInPageOrder<T>(pages: seq<Page<T>>)
    ensures InPageOrder(Flatten(pages), pages)
  {
    FlattenLength(pages);
    forall p, i | 0 <= p < |pages| && 0 <= i < |pages[p].items|
      ensures Offset(pages, p) + i < |Flatten(pages)|
      ensures Flatten(pages)[Offset(pages, p) + i] == pages[p].items[i]
    {
      FlattenKeepsOrder(pages, p, i);
    }
  }

  /** `Query#each`: the items of every yielded page, in order. */
  function EachItem<T>(query: Fields, responses: seq<Fields>, translate: Json -> Result<T, string>): (r: (seq<T>, End))
    ensures r.1 == EachPage(query, responses, translate).end
    ensures InPageOrder(r.0, EachPage(query, responses, translate).pages)
  {
    var it := EachPage(query, responses, translate);
    FlattenInPageOrder(it.pages);
    (Flatten(it.pages), it.end)
  }

  /** The options `Query#page` merges: `size` and `cursor` always, `page_size` when size is non-nil and non-zero. */
  function PageOpts(size: Json, cursor: Json): (r: Result<Fields, PageError>)
    ensures r.Err? <==> !size.JNull? && !size.JNum?
    ensures r.Ok? ==> DistinctKeys(r.value)
    ensures r.Ok? ==> Get(r.value, "size") == size && Get(r.value, "cursor") == cursor
    ensures r.Ok? ==> (HasKey(r.value, "page_size") <==> size.JNum? && size.n != 0)
    ensures r.Ok? && HasKey(r.value, "page_size") ==> Get(r.value, "page_size") == size
  {
    var opts: Fields := [("size", size), ("cursor", cursor)];
    assert "size" != "page_size" && "cursor" != "page_size" by {
      assert "size"[0] != "page_size"[0] && "cursor"[0] != "page_size"[0];
    }
    assert !HasKey(opts, "page_size");
    if size.JNull? then Ok(opts)
    else if !size.JNum? then Err(SizeNotNumeric(size))
    else if size.n == 0 then Ok(opts)
    else
      var r: Fields := opts + [("page_size", size)];
      assert r[1..][1..] == [("page_size", size)];
      assert r[2].0 == "page_size";
      assert Get(r[1..][1..], "page_size") == size;
      assert Get(r[1..], "page_size") == size;
      Ok(r)
  }

  /** What `Query#page` leaves behind and returns: the merged query (also the fetched one) and the page. */
  datatype PageCall<T> = PageCall(query: Fields, page: Result<Page<T>, PageError>)

  /** `Query#page(size:, cursor:)`: merges its options into the stored query, then fetches one page with it. */
  function QueryPage<T>(query: Fields, size: Json, cursor: Json, response: Fields, translate: Json -> Result<T, string>)
    : (r: Result<PageCall<T>, PageError>)
    ensures r.Err? <==> !size.JNull? && !size.JNum?
    ensures r.Ok? ==> r.value.page == PageFromRaw(response, translate)
    ensures r.Ok? ==> Get(r.value.query, "size") == size && Get(r.value.query, "cursor") == cursor
    ensures r.Ok? ==>
      Get(r.value.query, "page_size") == if size.JNum? && size.n != 0 then size else Get(query, "page_size")
    ensures r.Ok? ==> forall k :: k != "size" && k != "cursor" && k != "page_size" ==>
      Get(r.value.query, k) == Get(query, k)
  {
    var opts :- PageOpts(size, cursor);
    var merged := Merge(query, opts);
    MergeGet(query, opts, "size");
    MergeGet(query, opts, "cursor");
    MergeGet(query, opts, "page_size");
    forall k | k != "size" && k != "cursor" && k != "page_size" ensures Get(merged, k) == Get(query, k) {
      MergeGet(query, opts, k);
      assert !HasKey(opts, k);
    }
    Ok(PageCall(merged, PageFromRaw(response, translate)))
  }
}

=== FILE: response_object.dfy ===
/**
  Response objects: a record restricted to a declared set of attributes.
  Each declared attribute carries options that decide how a raw JSON value
  is translated on the way in and how it is written back out:
  `snapshot` wraps the raw hash, `rfc3339_time` parses a timestamp, and a
  custom block may compute anything (or raise).  Timestamps are opaque
  instants handled by an injected codec.
 */
module ResponseObject {
  import opened Common
  import opened Values
  import Text

  /** The options of one `attrib` declaration; `translate` is the optional block. */
  datatype AttrOpts = AttrOpts(snapshot: bool, rfc3339Time: bool, translate: Option<Json -> Result<Json, string>>)

  /** No name is bound twice, as in any Ruby hash. */
  predicate DistinctNames(decls: seq<(string, AttrOpts)>)
  {
    forall i, j :: 0 <= i < j < |decls| ==> decls[i].0 != decls[j].0
  }

  /**
    A class's `attrib_opts` hash: each declared attribute once, at the
    position of its first declaration, with the options it was last
    declared with (see `Attrib`).
   */
  type Schema = s: seq<(string, AttrOpts)> | DistinctNames(s)

  /**
    Timestamp handling outside the model: `parse` is `Time.parse` on a
    string (None when it raises), `rfc3339` is `to_datetime.rfc3339`,
    `toS` is the rendering `to_json` gives a time, and `noDatetime` is the
    message of the exception `to_datetime` raises on a value that is not
    a time.
   */
  datatype TimeCodec = TimeCodec(
    parse: string -> Option<int>,
    rfc3339: int -> string,
    toS: int -> string,
    noDatetime: Option<Value> -> string)

  /** The value of an attribute after translation. */
  datatype Value = VJson(j: Json) | VSnapshot(data: Json) | VTime(t: int)

  /** An instance: the attributes that have been set; the others read as nil. */
  datatype Obj = Obj(vars: map<string, Value>)

  datatype ObjError =
    | TranslateError(attribName: string, rawValue: Json, message: string)
    | TimeParseFailed(attribName: string, rawValue: Json)
    | DetranslateError(attribName: string, value: Option<Value>, message: string)
    | KeyError(message: string)

  const Plain := AttrOpts(false, false, None)

  predicate Declared(schema: Schema, name: string)
  {
    exists i :: 0 <= i < |schema| && schema[i].0 == name
  }

  /** `attrib_opts.fetch(name, {})`: the options bound to `name`; plain for an undeclared name. */
  function OptsOf(schema: Schema, name: string): (o: AttrOpts)
    ensures !Declared(schema, name) ==> o == Plain
    ensures forall i :: 0 <= i < |schema| && schema[i].0 == name ==> o == schema[i].1
  {
    if |schema| == 0 then Plain
    else if schema[0].0 == name then schema[0].1
    else
      assert Declared(schema, name) ==> Declared(schema[1..], name) by {
        if Declared(schema, name) {
          var i :| 0 <= i < |schema| && schema[i].0 == name;
          assert schema[1..][i - 1] == schema[i];
        }
      }
      OptsOf(schema[1..], name)
  }

  /**
    `self.attrib(name, opts)`: binds `name` to `opts` in `attrib_opts`.  A
    name declared again keeps its place and takes the new options.
   */
  function Attrib(schema: Schema, name: string, opts: AttrOpts): (s: Schema)
    ensures Declared(s, name) && OptsOf(s, name) == opts
    ensures forall other :: other != name ==> OptsOf(s, other) == OptsOf(schema, other)
    ensures forall other :: other != name ==> (Declared(s, other) <==> Declared(schema, other))
    ensures Declared(schema, name) ==> |s| == |schema| && forall i :: 0 <= i < |s| ==> s[i].0 == schema[i].0
    ensures !Declared(schema, name) ==> s == schema + [(name, opts)]
  {
    if Declared(schema, name) then
      var k :| 0 <= k < |schema| && schema[k].0 == name;
      var s := seq(|schema|, i requires 0 <= i < |schema| => if schema[i].0 == name then (name, opts) else schema[i]);
      assert s[k] == (name, opts);
      assert forall i :: 0 <= i < |s| ==> s[i].0 == schema[i].0;
      assert forall i :: 0 <= i < |s| && s[i].0 != name ==> s[i] == schema[i];
      s
    else
      var s := schema + [(name, opts)];
      assert s[|schema|] == (name, opts);
      assert forall i :: 0 <= i < |schema| ==> s[i] == schema[i];
      s
  }

  /** The `attrib` declarations of a class body, made in order. */
  function Declare(decls: seq<(string, AttrOpts)>): (s: Schema)
    ensures |s| <= |decls|
    ensures forall name :: Declared(s, name) <==> exists i :: 0 <= i < |decls| && decls[i].0 == name
    decreases |decls|
  {
    if |decls| == 0 then []
    else
      var prev := Declare(decls[..|decls| - 1]);
      var last := decls[|decls| - 1];
      assert forall i :: 0 <= i < |decls| - 1 ==> decls[..|decls| - 1][i] == decls[i];
      Attrib(prev, last.0, last.1)
  }

  /** An attribute takes the options of its last declaration. */
  lemma {:induction false} DeclareKeepsLast(decls: seq<(string, AttrOpts)>, i: nat)
    requires i < |decls|
    requires forall j :: i < j < |decls| ==> decls[j].0 != decls[i].0
    ensures OptsOf(Declare(decls), decls[i].0) == decls[i].1
    decreases |decls|
  {
    if i < |decls| - 1 {
      var front := decls[..|decls| - 1];
      assert front[i] == decls[i];
      DeclareKeepsLast(front, i);
    }
  }

  /** Declaring a name twice lists it once, with the second declaration's options. */
  lemma RedeclaredAttribute(schema: Schema, name: string, first: AttrOpts, second: AttrOpts)
    ensures var once := Attrib(schema, name, first);
      var twice := Attrib(once, name, second);
      && OptsOf(twice, name) == second
      && |twice| == |once|
      && forall i :: 0 <= i < |twice| ==> twice[i].0 == once[i].0
  {
  }

  function TranslateErrorMessage(name: string, source: string): string
  {
    "Error translating attrib " + name + ": " + source
  }

  /**
    `self.translate(name, raw)`: a snapshot wins over a time, a time over a
    block; a block that raises becomes a `TranslateError` naming the
    attribute and the raw value.  A timestamp that does not parse raises
    the parser's own error.
   */
  function Translate(name: string, opts: AttrOpts, codec: TimeCodec, raw: Json): (r: Result<Value, ObjError>)
    ensures opts.snapshot ==> r == Ok(VSnapshot(raw))
    ensures !opts.snapshot && opts.rfc3339Time ==>
      r == (if raw.JStr? && codec.parse(raw.s).Some? then Ok(VTime(codec.parse(raw.s).value)) else Err(TimeParseFailed(name, raw)))
    ensures !opts.snapshot && !opts.rfc3339Time && opts.translate.None? ==> r == Ok(VJson(raw))
    ensures !opts.snapshot && !opts.rfc3339Time && opts.translate.Some? ==>
      && (opts.translate.value(raw).Ok? ==> r == Ok(VJson(opts.translate.value(raw).value)))
      && (opts.translate.value(raw).Err? ==>
            r == Err(TranslateError(name, raw, TranslateErrorMessage(name, opts.translate.value(raw).error))))
    ensures r.Err? && r.error.TranslateError? ==>
      && opts.translate.Some? && !opts.snapshot && !opts.rfc3339Time
      && r.error.attribName == name && r.error.rawValue == raw
      && Text.StartsWith(r.error.message, "Error translating attrib " + name + ": ")
    ensures r.Err? ==> r.error.TranslateError? || r.error.TimeParseFailed?
  {
    if opts.snapshot then Ok(VSnapshot(raw))
    else if opts.rfc3339Time then
      if raw.JStr? && codec.parse(raw.s).Some? then Ok(VTime(codec.parse(raw.s).value))
      else Err(TimeParseFailed(name, raw))
    else if opts.translate.None? then Ok(VJson(raw))
    else
      match opts.translate.value(raw)
      case Ok(j) => Ok(VJson(j))
      case Err(source) =>
        var m := TranslateErrorMessage(name, source);
        assert m[..|"Error translating attrib " + name + ": "|] == "Error translating attrib " + name + ": ";
        Err(TranslateError(name, raw, m))
  }

  function DetranslateErrorMessage(name: string, source: string): string
  {
    "Error de-translating attrib " + name + ": " + source
  }

  /** How `to_json` renders a value the attribute does not treat as a time. */
  function ValueJson(codec: TimeCodec, v: Option<Value>): Json
  {
    match v
    case None => JNull
    case Some(VJson(j)) => j
    case Some(VSnapshot(d)) => d
    case Some(VTime(t)) => JStr(codec.toS(t))
  }

  /** `self.detranslate(name, value)` followed by the JSON rendering of the result. */
  function Detranslate(name: string, opts: AttrOpts, codec: TimeCodec, v: Option<Value>): (r: Result<Json, ObjError>)
    ensures opts.rfc3339Time ==> (r.Ok? <==> v.Some? && v.value.VTime?)
    ensures opts.rfc3339Time && r.Ok? ==> r.value == JStr(codec.rfc3339(v.value.t))
    ensures !opts.rfc3339Time ==> r == Ok(ValueJson(codec, v))
    ensures r.Err? ==> r.error == DetranslateError(name, v, DetranslateErrorMessage(name, codec.noDatetime(v)))
    ensures r.Err? ==> Text.StartsWith(r.error.message, "Error de-translating attrib " + name + ": ")
  {
    if opts.rfc3339Time then
      if v.Some? && v.value.VTime? then Ok(JStr(codec.rfc3339(v.value.t)))
      else
        var m := DetranslateErrorMessage(name, codec.noDatetime(v));
        assert m[..|"Error de-translating attrib " + name + ": "|] == "Error de-translating attrib " + name + ": ";
        Err(DetranslateError(name, v, m))
    else Ok(ValueJson(codec, v))
  }

  /**
    What comes in goes out unchanged for a plain or a snapshot attribute,
    and for a time attribute whenever the codec prints back the string it
    parsed.  A custom block has no inverse.
   */
  lemma TranslateRoundTrip(name: string, opts: AttrOpts, codec: TimeCodec, raw: Json)
    requires opts.snapshot || opts.translate.None?
    requires !(opts.snapshot && opts.rfc3339Time)
    requires opts.rfc3339Time && raw.JStr? && codec.parse(raw.s).Some? ==>
      codec.rfc3339(codec.parse(raw.s).value) == raw.s
    requires Translate(name, opts, codec, raw).Ok?
    ensures Detranslate(name, opts, codec, Some(Translate(name, opts, codec, raw).value)) == Ok(raw)
  {
  }

  /** Some binding of the raw hash gives `name` a non-nil value. */
  predicate SetFrom(raw: Fields, name: string)
  {
    exists i :: 0 <= i < |raw| && raw[i].0 == name && raw[i].1 != JNull
  }

  /** Binding `i` of the raw hash is one that construction translates, and its translation raises. */
  predicate FailsAt(schema: Schema, codec: TimeCodec, raw: Fields, i: int)
    requires 0 <= i < |raw|
  {
    Declared(schema, raw[i].0) && raw[i].1 != JNull && Translate(raw[i].0, OptsOf(schema, raw[i].0), codec, raw[i].1).Err?
  }

  /**
    `ResponseObject.new(raw)`: walks the raw hash in order, keeping declared,
    non-nil attributes; the first translation that raises ends construction.
   */
  function Build(schema: Schema, codec: TimeCodec, raw: Fields): (r: Result<Obj, ObjError>)
    ensures r.Ok? ==> forall name :: name in r.value.vars ==> Declared(schema, name) && SetFrom(raw, name)
    ensures r.Err? ==> r.error.TranslateError? || r.error.TimeParseFailed?
    decreases |raw|
  {
    if |raw| == 0 then Ok(Obj(map[]))
    else
      var (k, v) := raw[0];
      var rest := Build(schema, codec, raw[1..]);
      assert forall name :: SetFrom(raw[1..], name) ==> SetFrom(raw, name) by {
        forall name | SetFrom(raw[1..], name) ensures SetFrom(raw, name) {
          var i :| 0 <= i < |raw[1..]| && raw[1..][i].0 == name && raw[1..][i].1 != JNull;
          assert raw[i + 1] == raw[1..][i];
        }
      }
      if !Declared(schema, k) || v == JNull then rest
      else
        match Translate(k, OptsOf(schema, k), codec, v)
        case Err(e) => Err(e)
        case Ok(value) =>
          if rest.Err? then rest
          else
            assert SetFrom(raw, k) by { assert raw[0].0 == k && raw[0].1 != JNull; }
            Ok(Obj(rest.value.vars[k := value]))
  }

  /** Binding `i` of `raw` is binding `i - 1` of `raw[1..]`, as far as construction is concerned. */
  lemma FailsAtShift(schema: Schema, codec: TimeCodec, raw: Fields)
    requires |raw| > 0
    ensures forall i :: 1 <= i < |raw| ==> (FailsAt(schema, codec, raw, i) <==> FailsAt(schema, codec, raw[1..], i - 1))
  {
    assert forall i :: 1 <= i < |raw| ==> raw[i] == raw[1..][i - 1];
  }

  /** Construction succeeds exactly when no binding it translates raises. */
  lemma {:induction false} BuildSucceedsUnlessOneFails(schema: Schema, codec: TimeCodec, raw: Fields)
    ensures Build(schema, codec, raw).Ok? <==> forall i :: 0 <= i < |raw| ==> !FailsAt(schema, codec, raw, i)
    decreases |raw|
  {
    if |raw| > 0 {
      BuildSucceedsUnlessOneFails(schema, codec, raw[1..]);
      FailsAtShift(schema, codec, raw);
      if FailsAt(schema, codec, raw, 0) {
        assert Build(schema, codec, raw).Err?;
      } else {
        assert Build(schema, codec, raw).Ok? <==> Build(schema, codec, raw[1..]).Ok?;
        if Build(schema, codec, raw[1..]).Err? {
          var i :| 0 <= i < |raw[1..]| && FailsAt(schema, codec, raw[1..], i);
          assert FailsAt(schema, codec, raw, i + 1);
        }
      }
    }
  }

  /** When construction raises, it raises the translation error of the first binding whose translation raises. */
  lemma {:induction false} BuildFailsAtFirstFailure(schema: Schema, codec: TimeCodec, raw: Fields)
    ensures Build(schema, codec, raw).Err? ==>
      exists i ::
        && 0 <= i < |raw|
        && FailsAt(schema, codec, raw, i)
        && (forall j :: 0 <= j < i ==> !FailsAt(schema, codec, raw, j))
        && Build(schema, codec, raw).error == Translate(raw[i].0, OptsOf(schema, raw[i].0), codec, raw[i].1).error
    decreases |raw|
  {
    if |raw| > 0 && !FailsAt(schema, codec, raw, 0) {
      var rest := Build(schema, codec, raw[1..]);
      BuildFailsAtFirstFailure(schema, codec, raw[1..]);
      if rest.Err? {
        FailsAtShift(schema, codec, raw);
        var i :| 0 <= i < |raw[1..]| && FailsAt(schema, codec, raw[1..], i)
          && (forall j :: 0 <= j < i ==> !FailsAt(schema, codec, raw[1..], j))
          && rest.error == Translate(raw[1..][i].0, OptsOf(schema, raw[1..][i].0), codec, raw[1..][i].1).error;
        assert raw[i + 1] == raw[1..][i];
        assert FailsAt(schema, codec, raw, i + 1);
      }
    }
  }

  /** The attribute written on the way in is the translation of the raw value. */
  lemma {:induction false} BuildSetsDeclaredAttribute(schema: Schema, codec: TimeCodec, raw: Fields, i: nat)
    requires DistinctKeys(raw)
    requires i < |raw|
    requires Declared(schema, raw[i].0) && raw[i].1 != JNull
    requires Build(schema, codec, raw).Ok?
    ensures Translate(raw[i].0, OptsOf(schema, raw[i].0), codec, raw[i].1).Ok?
    ensures raw[i].0 in Build(schema, codec, raw).value.vars
    ensures Build(schema, codec, raw).value.vars[raw[i].0]
         == Translate(raw[i].0, OptsOf(schema, raw[i].0), codec, raw[i].1).value
    decreases |raw|
  {
    if i > 0 {
      var rest := raw[1..];
      assert DistinctKeys(rest) by {
        forall a, b | 0 <= a < b < |rest| ensures rest[a].0 != rest[b].0 {
          assert rest[a] == raw[a + 1] && rest[b] == raw[b + 1];
        }
      }
      assert rest[i - 1] == raw[i];
      assert raw[0].0 != raw[i].0;
      BuildSetsDeclaredAttribute(schema, codec, rest, i - 1);
    }
  }

  /** A nil raw value, or a key the class does not declare, leaves the attribute unset. */
  lemma {:induction false} BuildSkipsNilAndUndeclared(schema: Schema, codec: TimeCodec, raw: Fields, name: string)
    requires Build(schema, codec, raw).Ok?
    requires !Declared(schema, name) || Get(raw, name) == JNull
    requires DistinctKeys(raw)
    ensures name !in Build(schema, codec, raw).value.vars
  {
    if name in Build(schema, codec, raw).value.vars {
      var i :| 0 <= i < |raw| && raw[i].0 == name && raw[i].1 != JNull;
      GetFindsBinding(raw, i);
    }
  }

  function KeyNotFound(name: string): ObjError
  {
    KeyError("key not found: " + name)
  }

  /** `obj[name]`: the attribute's value, nil when unset; a `KeyError` for an undeclared name. */
  function Index(schema: Schema, obj: Obj, name: string): (r: Result<Option<Value>, ObjError>)
    ensures r.Err? <==> !Declared(schema, name)
    ensures r.Err? ==> r.error == KeyNotFound(name)
    ensures r.Ok? ==> (r.value.Some? <==> name in obj.vars)
    ensures r.Ok? && r.value.Some? ==> r.value.value == obj.vars[name]
  {
    if !Declared(schema, name) then Err(KeyNotFound(name))
    else if name in obj.vars then Ok(Some(obj.vars[name]))
    else Ok(None)
  }

  /** `obj[name] = v`: a `KeyError` for an undeclared name. */
  function SetIndex(schema: Schema, obj: Obj, name: string, v: Value): (r: Result<Obj, ObjError>)
    ensures r.Err? <==> !Declared(schema, name)
    ensures r.Err? ==> r.error == KeyNotFound(name)
  {
    if !Declared(schema, name) then Err(KeyNotFound(name)) else Ok(Obj(obj.vars[name := v]))
  }

  /** Writing one attribute changes what that attribute reads, and nothing else. */
  lemma SetThenIndex(schema: Schema, obj: Obj, name: string, v: Value, other: string)
    requires Declared(schema, name)
    ensures SetIndex(schema, obj, name, v).Ok?
    ensures Index(schema, SetIndex(schema, obj, name, v).value, name) == Ok(Some(v))
    ensures other != name ==> Index(schema, SetIndex(schema, obj, name, v).value, other) == Index(schema, obj, other)
  {
  }

  /** `to_h`: every declared attribute, in declaration order, with nil for the unset ones. */
  function ToH(schema: Schema, obj: Obj): (h: seq<(string, Option<Value>)>)
    ensures |h| == |schema|
    ensures forall i :: 0 <= i < |h| ==> h[i].0 == schema[i].0
    ensures forall i :: 0 <= i < |h| ==> Index(schema, obj, h[i].0) == Ok(h[i].1)
  {
    seq(|schema|, i requires 0 <= i < |schema| =>
      (schema[i].0, if schema[i].0 in obj.vars then Some(obj.vars[schema[i].0]) else None))
  }

  /** `to_json`: each attribute of `to_h` detranslated with the options declared for it. */
  function ToJson(schema: Schema, codec: TimeCodec, obj: Obj): (r: Result<Fields, ObjError>)
    ensures r.Ok? ==> |r.value| == |schema|
    ensures r.Ok? ==> forall i :: 0 <= i < |schema| ==>
      && r.value[i].0 == schema[i].0
      && Detranslate(schema[i].0, OptsOf(schema, schema[i].0), codec, ToH(schema, obj)[i].1) == Ok(r.value[i].1)
    ensures r.Err? ==>
      exists i ::
        && 0 <= i < |schema|
        && (forall j :: 0 <= j < i ==> Detranslate(schema[j].0, OptsOf(schema, schema[j].0), codec, ToH(schema, obj)[j].1).Ok?)
        && Detranslate(schema[i].0, OptsOf(schema, schema[i].0), codec, ToH(schema, obj)[i].1) == Err(r.error)
  {
    DetranslateAll(schema, codec, ToH(schema, obj))
  }

  /** One entry of `to_h` detranslated with the options declared for its name. */
  function DetranslateEntry(schema: Schema, codec: TimeCodec, e: (string, Option<Value>)): Result<Json, ObjError>
  {
    Detranslate(e.0, OptsOf(schema, e.0), codec, e.1)
  }

  /** Detranslates the entries of `h` (a suffix of `to_h`) in order, stopping at the first error. */
  function DetranslateAll(schema: Schema, codec: TimeCodec, h: seq<(string, Option<Value>)>)
    : (r: Result<Fields, ObjError>)
    ensures r.Ok? ==> |r.value| == |h|
    ensures r.Ok? ==> forall i :: 0 <= i < |h| ==>
      r.value[i].0 == h[i].0 && DetranslateEntry(schema, codec, h[i]) == Ok(r.value[i].1)
    ensures r.Err? ==>
      exists i ::
        && 0 <= i < |h|
        && (forall j :: 0 <= j < i ==> DetranslateEntry(schema, codec, h[j]).Ok?)
        && DetranslateEntry(schema, codec, h[i]) == Err(r.error)
    decreases |h|
  {
    if |h| == 0 then Ok([])
    else
      match DetranslateEntry(schema, codec, h[0])
      case Err(e) => Err(e)
      case Ok(first) =>
        var rest := DetranslateAll(schema, codec, h[1..]);
        assert forall i :: 1 <= i < |h| ==> h[1..][i - 1] == h[i];
        if rest.Err? then
          var i :| 0 <= i < |h[1..]|
            && (forall j :: 0 <= j < i ==> DetranslateEntry(schema, codec, h[1..][j]).Ok?)
            && DetranslateEntry(schema, codec, h[1..][i]) == Err(rest.error);
          Err(rest.error)
        else
          var out := [(h[0].0, first)] + rest.value;
          assert forall i :: 1 <= i < |h| ==> out[i] == rest.value[i - 1];
          Ok(out)
  }

  /** A wrapped snapshot of tags at the time an action was created. */
  datatype Snapshot = Snapshot(data: Json)

  /** Why `snapshot[key]` raises when the wrapped data cannot be indexed by a string. */
  datatype SnapshotError =
    | IndexTypeError(data: Json)  // an array or an integer: its `[]` takes no string
    | NoIndexMethod(data: Json)   // nil, true or false: there is no `[]`

  /** `key` occurs in `str` at position `i`. */
  predicate OccursAt(str: string, key: string, i: int)
  {
    0 <= i && i + |key| <= |str| && str[i..i + |key|] == key
  }

  /** An occurrence in the tail of a string is one position further on in the string. */
  lemma OccursShift(str: string, key: string, j: nat)
    requires |str| > 0
    ensures OccursAt(str[1..], key, j) <==> OccursAt(str, key, j + 1)
  {
    if j + 1 + |key| <= |str| {
      var x := str[1..][j..j + |key|];
      var y := str[j + 1..j + 1 + |key|];
      forall k | 0 <= k < |key|
        ensures x[k] == y[k]
      {
        assert x[k] == str[j + 1 + k] && y[k] == str[j + 1 + k];
      }
      assert x == y;
    }
  }

  /** Whether `key` occurs in `str`, searched from the front. */
  function Contains(str: string, key: string): (b: bool)
    ensures b <==> exists i :: OccursAt(str, key, i)
    decreases |str|
  {
    if |key| > |str| then false
    else if str[..|key|] == key then
      assert OccursAt(str, key, 0);
      true
    else
      assert !OccursAt(str, key, 0) by { assert str[0..|key|] == str[..|key|]; }
      assert (exists i :: OccursAt(str, key, i)) <==> (exists j :: OccursAt(str[1..], key, j)) by {
        if exists i :: OccursAt(str, key, i) {
          var i :| OccursAt(str, key, i);
          OccursShift(str, key, i - 1);
        }
        if exists j :: OccursAt(str[1..], key, j) {
          var j :| OccursAt(str[1..], key, j);
          OccursShift(str, key, j);
        }
      }
      Contains(str[1..], key)
  }

  /**
    `snapshot[key]`, that is `data[key]`: a hash gives the bound value or
    nil; a string gives the key itself when it occurs in it, else nil; any
    other data raises.
   */
  function SnapshotIndex(s: Snapshot, key: string): (r: Result<Json, SnapshotError>)
    ensures r.Err? <==> !s.data.JObj? && !s.data.JStr?
    ensures s.data.JObj? && DistinctKeys(s.data.fields) ==>
      forall i :: 0 <= i < |s.data.fields| && s.data.fields[i].0 == key ==> r == Ok(s.data.fields[i].1)
    ensures s.data.JObj? && !HasKey(s.data.fields, key) ==> r == Ok(JNull)
    ensures s.data.JStr? && (exists i :: OccursAt(s.data.s, key, i)) ==> r == Ok(JStr(key))
    ensures s.data.JStr? && (forall i :: !OccursAt(s.data.s, key, i)) ==> r == Ok(JNull)
    ensures s.data.JArr? || s.data.JNum? ==> r == Err(IndexTypeError(s.data))
    ensures s.data.JNull? || s.data.JBool? ==> r == Err(NoIndexMethod(s.data))
  {
    match s.data
    case JObj(fs) =>
      assert forall i :: 0 <= i < |fs| && DistinctKeys(fs) ==> Get(fs, fs[i].0) == fs[i].1 by {
        forall i | 0 <= i < |fs| && DistinctKeys(fs)
          ensures Get(fs, fs[i].0) == fs[i].1
        {
          GetFindsBinding(fs, i);
        }
      }
      Ok(Get(fs, key))
    case JStr(str) => Ok(if Contains(str, key) then JStr(key) else JNull)
    case JArr(_) => Err(IndexTypeError(s.data))
    case JNum(_) => Err(IndexTypeError(s.data))
    case _ => Err(NoIndexMethod(s.data))
  }

  /** The six named snapshot readers. */
  datatype SnapshotTags =
    | ActionTags
    | DestinationAccountTags
    | FlavorTags
    | SourceAccountTags
    | TokenTags
    | TransactionTags

  function SnapshotKey(t: SnapshotTags): string
  {
    match t
    case ActionTags => "action_tags"
    case DestinationAccountTags => "destination_account_tags"
    case FlavorTags => "flavor_tags"
    case SourceAccountTags => "source_account_tags"
    case TokenTags => "token_tags"
    case TransactionTags => "transaction_tags"
  }

  /** Each named reader is `[]` with its own key. */
  function SnapshotTag(s: Snapshot, t: SnapshotTags): (v: Result<Json, SnapshotError>)
    ensures v == SnapshotIndex(s, SnapshotKey(t))
    ensures s.data.JObj? ==> v == Ok(Get(s.data.fields, SnapshotKey(t)))
  {
    match t
    case ActionTags => SnapshotIndex(s, "action_tags")
    case DestinationAccountTags => SnapshotIndex(s, "destination_account_tags")
    case FlavorTags => SnapshotIndex(s, "flavor_tags")
    case SourceAccountTags => SnapshotIndex(s, "source_account_tags")
    case TokenTags => SnapshotIndex(s, "token_tags")
    case TransactionTags => SnapshotIndex(s, "transaction_tags")
  }

  /** The six readers read six different keys. */
  lemma SnapshotKeysDistinct(a: SnapshotTags, b: SnapshotTags)
    requires a != b
    ensures SnapshotKey(a) != SnapshotKey(b)
  {
    match a
    case ActionTags => assert SnapshotKey(a)[0] == 'a';
    case DestinationAccountTags => assert SnapshotKey(a)[0] == 'd';
    case FlavorTags => assert SnapshotKey(a)[0] == 'f';
    case SourceAccountTags => assert SnapshotKey(a)[0] == 's';
    case TokenTags => assert SnapshotKey(a)[..2] == "to";
    case TransactionTags => assert SnapshotKey(a)[..2] == "tr";
  }
}

=== FILE: session.dfy ===
/**
  A session with one ledger: the options it was opened with, the ledger
  and team names every path is prefixed with, and the request operations
  that go through the resilient POST of `Transport`.  A response is only
  accepted when it carries a non-empty `Chain-Request-ID` header; a missing
  header is raised as the network error `InvalidRequestIDError`, so the
  retry loop treats it like a dropped connection.
 */
module Session {
  import opened Common
  import opened Values
  import opened Errors
  import opened Transport
  import Text

  /** What opening a session can raise. */
  datatype SetupError = ArgumentError(message: string) | TypeError(message: string)

  /**
    An open session.  `opts` is the option hash it was opened with; `ledger`,
    `credential` and `teamName` are the (truthy) values read from it, and
    `baseUrl` is `"https://" + addr`.
   */
  datatype Session = Session(opts: Fields, ledger: Json, credential: Json, teamName: Json, baseUrl: string)

  /** `Session.new(opts)`: the three names must be truthy, in this order, and `addr` must be a string. */
  function NewSession(opts: Fields): (r: Result<Session, SetupError>)
    ensures r.Ok? <==>
      && Truthy(Get(opts, "ledger_name"))
      && Truthy(Get(opts, "credential"))
      && Truthy(Get(opts, "team_name"))
      && Get(opts, "addr").JStr?
    ensures r.Ok? ==>
      && r.value.opts == opts
      && r.value.ledger == Get(opts, "ledger_name")
      && r.value.credential == Get(opts, "credential")
      && r.value.teamName == Get(opts, "team_name")
      && Text.StartsWith(r.value.baseUrl, "https://")
    ensures !Truthy(Get(opts, "ledger_name")) ==> r == Err(ArgumentError("missing ledger_name"))
    ensures Truthy(Get(opts, "ledger_name")) && !Truthy(Get(opts, "credential")) ==>
      r == Err(ArgumentError("missing credential"))
    ensures Truthy(Get(opts, "ledger_name")) && Truthy(Get(opts, "credential")) && !Truthy(Get(opts, "team_name")) ==>
      r == Err(ArgumentError("missing team_name"))
    ensures r.Err? && r.error.TypeError? ==> !Get(opts, "addr").JStr?
  {
    var ledger := Get(opts, "ledger_name");
    var credential := Get(opts, "credential");
    var teamName := Get(opts, "team_name");
    var addr := Get(opts, "addr");
    if !Truthy(ledger) then Err(ArgumentError("missing ledger_name"))
    else if !Truthy(credential) then Err(ArgumentError("missing credential"))
    else if !Truthy(teamName) then Err(ArgumentError("missing team_name"))
    else if !addr.JStr? then Err(TypeError("no implicit conversion into String"))
    else Ok(Session(opts, ledger, credential, teamName, "https://" + addr.s))
  }

  /** `dup` opens a new session from the same options, and it is the same session again. */
  lemma DupIsSameSession(opts: Fields, s: Session)
    requires NewSession(opts) == Ok(s)
    ensures NewSession(s.opts) == Ok(s)
  {
  }

  /** `"/<team>/<ledger>/"`: the prefix of every path of the session. */
  function LedgerPrefix(s: Session): string
  {
    "/" + ToS(s.teamName) + "/" + ToS(s.ledger) + "/"
  }

  /** `ledger_url(path)`: one leading `/` of `path` is dropped, then the path is put under the ledger prefix. */
  function LedgerUrl(s: Session, path: string): (url: string)
    ensures Text.StartsWith(url, LedgerPrefix(s))
    ensures var rest := url[|LedgerPrefix(s)|..];
      if Text.StartsWith(path, "/") then "/" + rest == path else rest == path
  {
    var p := if Text.StartsWith(path, "/") then path[1..] else path;
    var url := LedgerPrefix(s) + p;
    assert url[..|LedgerPrefix(s)|] == LedgerPrefix(s);
    assert url[|LedgerPrefix(s)|..] == p;
    assert Text.StartsWith(path, "/") ==> path == "/" + p;
    url
  }

  /**
    Only one leading slash is dropped: a path and the same path behind a
    slash name the same url exactly when the path does not start with a
    slash itself.
   */
  lemma LedgerUrlDropsOneSlash(s: Session, path: string)
    ensures LedgerUrl(s, "/" + path) == LedgerUrl(s, path) <==> !Text.StartsWith(path, "/")
  {
    var n := |LedgerPrefix(s)|;
    var a := LedgerUrl(s, "/" + path);
    var b := LedgerUrl(s, path);
    assert Text.StartsWith("/" + path, "/");
    assert a[n..] == path;
    if Text.StartsWith(path, "/") {
      assert |b[n..]| + 1 == |path|;
      assert |a| != |b|;
    } else {
      assert b[n..] == path;
      assert a == a[..n] + a[n..];
      assert b == b[..n] + b[n..];
    }
  }

  /** The block `request_full_resp` hands to `post`: a response without a non-empty request id is raised. */
  function RequestIdCheck(r: HttpResponse): (f: Option<Failure>)
    ensures f.None? <==> r.requestIdHeader.Some? && |r.requestIdHeader.value| > 0
    ensures f.Some? ==> f.value == Raised(InvalidRequestIDError)
  {
    if r.requestIdHeader.Some? && |r.requestIdHeader.value| > 0 then None
    else Some(Raised(InvalidRequestIDError))
  }

  /**
    The logical call `request_full_resp(id, path, body)` makes: `freshId` is
    what `SecureRandom.hex(10)` returned, used when `id` is nil, and
    `idempotencyKey` what `SecureRandom.uuid` returned inside `post`.
   */
  function SessionCall(
    s: Session,
    id: Option<string>,
    freshId: string,
    idempotencyKey: string,
    path: string,
    body: Json,
    parse: string -> Option<Json>): (c: Call)
    ensures c.id == (if id.Some? then id.value else freshId)
    ensures c.url == LedgerUrl(s, path) && c.body == body
    ensures c.credential == s.credential && c.idempotencyKey == idempotencyKey
    ensures c.check == RequestIdCheck && c.parse == parse
  {
    Call(if id.Some? then id.value else freshId, LedgerUrl(s, path), body, s.credential, idempotencyKey, RequestIdCheck, parse)
  }

  /** `request_full_resp`: the resilient POST of the session call. */
  function RequestFullResp(
    s: Session,
    id: Option<string>,
    freshId: string,
    idempotencyKey: string,
    path: string,
    body: Json,
    parse: string -> Option<Json>,
    trace: seq<Step>): (run: PostRun)
    requires DrawsFit(1, trace)
    ensures forall i :: 0 <= i < |run.attempts| ==>
      && run.attempts[i].request.url == LedgerUrl(s, path)
      && run.attempts[i].request.credential == s.credential
      && run.attempts[i].request.attemptId
         == Text.AttemptId(if id.Some? then id.value else freshId, i + 1)
  {
    Post(SessionCall(s, id, freshId, idempotencyKey, path, body, parse), trace)
  }

  /** What a request hands back: the parsed body, the exception it raised, or nothing yet (the trace ran out). */
  datatype Reply = Body(parsed: Option<Json>) | Raises(failure: Failure) | Pending

  /** `request(path, body)`: the parsed body of `request_full_resp(nil, path, body)`. */
  function Request(
    s: Session,
    freshId: string,
    idempotencyKey: string,
    path: string,
    body: Json,
    parse: string -> Option<Json>,
    trace: seq<Step>): (reply: Reply)
    requires DrawsFit(1, trace)
    ensures var v := RequestFullResp(s, None, freshId, idempotencyKey, path, body, parse, trace).verdict;
      && (reply.Pending? <==> v.Unfinished?)
      && (v.Done? && v.result.Returned? ==> reply == Body(v.result.parsedBody))
      && (v.Done? && v.result.Failed? ==> reply == Raises(v.result.failure))
  {
    var v := RequestFullResp(s, None, freshId, idempotencyKey, path, body, parse, trace).verdict;
    match v
    case Unfinished => Pending
    case Done(Returned(parsed, _)) => Body(parsed)
    case Done(Failed(f)) => Raises(f)
  }

  /** A response without a request id is retried like a network error while the budget lasts. */
  lemma MissingRequestIdIsRetried(c: Call, attempt: nat, step: Step)
    requires c.check == RequestIdCheck
    requires step.exchange.Responded?
    requires step.exchange.response.requestIdHeader.None? || step.exchange.response.requestIdHeader == Some("")
    requires step.elapsedSecs <= RetryTimeoutSecs
    ensures Continues(c, attempt, step)
  {
    var r := step.exchange.response;
    ClassifyResponseCases(Text.AttemptId(c.id, attempt), r, c.check, c.parse);
  }

  /** Every response a session hands back carried a non-empty request id, whatever the server sent before it. */
  lemma ReturnedResponsesCarryRequestId(
    s: Session,
    id: Option<string>,
    freshId: string,
    idempotencyKey: string,
    path: string,
    body: Json,
    parse: string -> Option<Json>,
    trace: seq<Step>)
    requires DrawsFit(1, trace)
    requires var v := RequestFullResp(s, id, freshId, idempotencyKey, path, body, parse, trace).verdict;
      v.Done? && v.result.Returned?
    ensures var v := RequestFullResp(s, id, freshId, idempotencyKey, path, body, parse, trace).verdict;
      && v.result.response.requestIdHeader.Some?
      && |v.result.response.requestIdHeader.value| > 0
  {
    var c := SessionCall(s, id, freshId, idempotencyKey, path, body, parse);
    PostFromStops(c, 1, trace);
    var run := PostFrom(c, 1, trace);
    var n := |run.attempts|;
    var step := trace[n - 1];
    if step.exchange.Responded? {
      ClassifyResponseCases(Text.AttemptId(c.id, n), step.exchange.response, c.check, c.parse);
    }
  }
}

=== FILE: text.dfy ===
/**
  String helpers the client needs: joining token lists, decimal rendering
  of integers, and the per-attempt request id `"<id>/<attempt>"`.
 */
module Text {
  import opened Common

  /** Ruby's `Array#join(sep)`. */
  function Join(parts: seq<string>, sep: string): string
  {
    if |parts| == 0 then ""
    else if |parts| == 1 then parts[0]
    else parts[0] + sep + Join(parts[1..], sep)
  }

  /** Joining four parts puts the separator exactly between neighbours. */
  lemma JoinFour(a: string, b: string, c: string, d: string, sep: string)
    ensures Join([a, b, c, d], sep) == a + sep + (b + sep + (c + sep + d))
  {
    assert [a, b, c, d][1..] == [b, c, d];
    assert [b, c, d][1..] == [c, d];
    assert [c, d][1..] == [d];
    assert Join([c, d], sep) == c + sep + d;
    assert Join([b, c, d], sep) == b + sep + (c + sep + d);
  }

  predicate StartsWith(s: string, prefix: string)
  {
    |prefix| <= |s| && s[..|prefix|] == prefix
  }

  predicate EndsWith(s: string, suffix: string)
  {
    |suffix| <= |s| && s[|s| - |suffix|..] == suffix
  }

  /** The first part of a join is a prefix of the joined string. */
  lemma {:induction false} JoinStartsWithFirst(parts: seq<string>, sep: string)
    requires |parts| >= 1
    ensures StartsWith(Join(parts, sep), parts[0])
  {
    if |parts| > 1 {
      var rest := sep + Join(parts[1..], sep);
      assert Join(parts, sep) == parts[0] + rest;
    }
  }

  /** The last part of a join is a suffix of the joined string. */
  lemma {:induction false} JoinEndsWithLast(parts: seq<string>, sep: string)
    requires |parts| >= 1
    ensures EndsWith(Join(parts, sep), parts[|parts| - 1])
  {
    if |parts| > 1 {
      JoinEndsWithLast(parts[1..], sep);
      var tail := Join(parts[1..], sep);
      assert Join(parts, sep) == (parts[0] + sep) + tail;
    }
  }

  predicate IsDigit(c: char)
  {
    '0' <= c <= '9'
  }

  predicate AllDigits(s: string)
  {
    forall i :: 0 <= i < |s| ==> IsDigit(s[i])
  }

  function DigitChar(d: nat): (c: char)
    requires d < 10
    ensures IsDigit(c)
  {
    ('0' as int + d) as char
  }

  function DigitValue(c: char): nat
    requires IsDigit(c)
  {
    c as int - '0' as int
  }

  /** Ruby's `Integer#to_s` for a non-negative integer: decimal, no leading zeros. */
  function NatToString(n: nat): (s: string)
    ensures |s| >= 1 && AllDigits(s)
    ensures |s| > 1 ==> s[0] != '0'
  {
    if n < 10 then [DigitChar(n)] else NatToString(n / 10) + [DigitChar(n % 10)]
  }

  /** `Integer#to_s` for any integer. */
  function IntToString(i: int): string
  {
    if i < 0 then "-" + NatToString(-i) else NatToString(i)
  }

  /** Reads a string of decimal digits back as a number. */
  function ParseNat(s: string): nat
    requires AllDigits(s)
  {
    if |s| == 0 then 0 else ParseNat(s[..|s| - 1]) * 10 + DigitValue(s[|s| - 1])
  }

  /** Decimal rendering is undone by `ParseNat`, so distinct numbers render differently. */
  lemma {:induction false} ParseNatOfNatToString(n: nat)
    ensures ParseNat(NatToString(n)) == n
  {
    if n >= 10 {
      ParseNatOfNatToString(n / 10);
      var s := NatToString(n);
      assert s[..|s| - 1] == NatToString(n / 10);
    }
  }

  /** The id header of attempt `attempt` of logical request `id`. */
  function AttemptId(id: string, attempt: nat): string
  {
    id + "/" + NatToString(attempt)
  }

  /** The characters after the last `/`, or the whole string when there is none. */
  function AfterLastSlash(s: string): (r: string)
    ensures '/' !in r
    ensures |r| <= |s| && r == s[|s| - |r|..]
  {
    if |s| == 0 then ""
    else if s[|s| - 1] == '/' then ""
    else
      var r := AfterLastSlash(s[..|s| - 1]);
      assert s[..|s| - 1][|s| - 1 - |r|..] == s[|s| - 1 - |r|..|s| - 1];
      r + [s[|s| - 1]]
  }

  /** The attempt number encoded in an attempt id, if its last segment is decimal. */
  function AttemptNumber(attemptId: string): Option<nat>
  {
    var t := AfterLastSlash(attemptId);
    if |t| > 0 && AllDigits(t) then Some(ParseNat(t)) else None
  }

  lemma {:induction false} AfterLastSlashOfSuffix(prefix: string, tail: string)
    requires '/' !in tail
    ensures AfterLastSlash(prefix + "/" + tail) == tail
  {
    if |tail| > 0 {
      var s := prefix + "/" + tail;
      var init := tail[..|tail| - 1];
      assert s[..|s| - 1] == prefix + "/" + init;
      assert '/' !in init by {
        forall i | 0 <= i < |init| ensures init[i] != '/' {
          assert init[i] == tail[i];
        }
      }
      AfterLastSlashOfSuffix(prefix, init);
      assert tail == init + [tail[|tail| - 1]];
    } else {
      assert (prefix + "/" + tail)[|prefix + "/" + tail| - 1] == '/';
    }
  }

  /** The attempt number can be read back from every attempt id, whatever `id` holds. */
  lemma AttemptIdRoundTrip(id: string, attempt: nat)
    ensures AttemptNumber(AttemptId(id, attempt)) == Some(attempt)
  {
    var digits := NatToString(attempt);
    assert '/' !in digits;
    AfterLastSlashOfSuffix(id, digits);
    ParseNatOfNatToString(attempt);
  }

  /** Distinct attempts of one logical request carry distinct ids. */
  lemma AttemptIdsDistinct(id: string, m: nat, n: nat)
    requires m != n
    ensures AttemptId(id, m) != AttemptId(id, n)
  {
    AttemptIdRoundTrip(id, m);
    AttemptIdRoundTrip(id, n);
  }
}

=== FILE: transaction.dfy ===
/**
  The transaction builder: an append-only list of action hashes and the
  transaction's tags.  Every action needs an `amount`; the three helpers
  add an action of a fixed kind with a fixed set of fields.  Symbols such
  as `:issue` are written as the strings they serialise to.
 */
module TransactionBuilder {
  import opened Common
  import opened Values

  /** `tags` is the value last assigned to `transaction_tags=`, nil until then. */
  datatype Builder = Builder(actions: seq<Fields>, tags: Json)

  /** `Builder.new` without a block. */
  const Empty := Builder([], JNull)

  const AmountMessage: string := ":amount must be provided"

  /** `transaction_tags`: the assigned tags, or an empty hash while they are nil or false. */
  function TransactionTags(b: Builder): (t: Json)
    ensures Truthy(b.tags) ==> t == b.tags
    ensures !Truthy(b.tags) ==> t == JObj([])
  {
    if Truthy(b.tags) then b.tags else JObj([])
  }

  /** `transaction_tags = tags`: replaces the tags and nothing else. */
  function SetTransactionTags(b: Builder, tags: Json): (r: Builder)
    ensures r.actions == b.actions
    ensures TransactionTags(r) == (if Truthy(tags) then tags else JObj([]))
  {
    b.(tags := tags)
  }

  /** `to_h`: exactly the actions and the tags. */
  function ToH(b: Builder): (h: Fields)
    ensures Keys(h) == {"actions", "transaction_tags"} && DistinctKeys(h)
    ensures Get(h, "actions") == JArr(seq(|b.actions|, i requires 0 <= i < |b.actions| => JObj(b.actions[i])))
    ensures Get(h, "transaction_tags") == TransactionTags(b)
  {
    var h: Fields := [("actions", JArr(seq(|b.actions|, i requires 0 <= i < |b.actions| => JObj(b.actions[i])))),
                      ("transaction_tags", TransactionTags(b))];
    assert "actions"[0] != "transaction_tags"[0];
    assert Keys(h) == {h[0].0, h[1].0} by {
      assert forall k :: k in Keys(h) ==> k == h[0].0 || k == h[1].0;
    }
    h
  }

  /** `add_action(opts)`: refused while `amount` is nil; otherwise `opts` is appended as it is. */
  function AddAction(b: Builder, opts: Fields): (r: Result<Builder, string>)
    ensures r.Err? <==> Get(opts, "amount") == JNull
    ensures r.Err? ==> r.error == AmountMessage
    ensures r.Ok? ==> r.value.tags == b.tags
    ensures r.Ok? ==>
      && |r.value.actions| == |b.actions| + 1
      && r.value.actions[..|b.actions|] == b.actions
      && r.value.actions[|b.actions|] == opts
  {
    if Get(opts, "amount") == JNull then Err(AmountMessage) else Ok(b.(actions := b.actions + [opts]))
  }

  /** Adds the actions one after the other, stopping at the first refusal. */
  function AddAll(b: Builder, optss: seq<Fields>): Result<Builder, string>
    decreases |optss|
  {
    if |optss| == 0 then Ok(b)
    else
      match AddAction(b, optss[0])
      case Err(m) => Err(m)
      case Ok(b1) => AddAll(b1, optss[1..])
  }

  /** Actions are never removed or reordered: every successful addition keeps the list before it as a prefix. */
  lemma {:induction false} AddAllAppends(b: Builder, optss: seq<Fields>)
    requires forall i :: 0 <= i < |optss| ==> Get(optss[i], "amount") != JNull
    ensures AddAll(b, optss).Ok?
    ensures AddAll(b, optss).value.actions == b.actions + optss
    decreases |optss|
  {
    if |optss| > 0 {
      var b1 := b.(actions := b.actions + [optss[0]]);
      assert AddAction(b, optss[0]) == Ok(b1);
      assert forall i :: 0 <= i < |optss[1..]| ==> optss[1..][i] == optss[i + 1];
      AddAllAppends(b1, optss[1..]);
      calc {
        b1.actions + optss[1..];
        b.actions + ([optss[0]] + optss[1..]);
        { assert [optss[0]] + optss[1..] == optss; }
        b.actions + optss;
      }
    }
  }

  /**
    An `issue` action: exactly the issue fields, each holding its argument.
    It has a destination account but no source account and no filter.
   */
  predicate IsIssueAction(a: Fields, amount: Json, flavorId: Json, destinationAccountId: Json, tokenTags: Json, actionTags: Json)
  {
    && DistinctKeys(a)
    && Keys(a) == {"type", "amount", "flavor_id", "destination_account_id", "token_tags", "action_tags"}
    && Get(a, "type") == JStr("issue")
    && Get(a, "amount") == amount
    && Get(a, "flavor_id") == flavorId
    && Get(a, "destination_account_id") == destinationAccountId
    && Get(a, "token_tags") == tokenTags
    && Get(a, "action_tags") == actionTags
    && HasKey(a, "destination_account_id") && !HasKey(a, "source_account_id")
  }

  /** A `transfer` action: exactly the transfer fields, each holding its argument, with both accounts. */
  predicate IsTransferAction(
    a: Fields, amount: Json, flavorId: Json, sourceAccountId: Json, destinationAccountId: Json,
    filter: Json, filterParams: Json, tokenTags: Json, actionTags: Json)
  {
    && DistinctKeys(a)
    && Keys(a) == {"type", "amount", "flavor_id", "source_account_id", "destination_account_id",
                   "filter", "filter_params", "token_tags", "action_tags"}
    && Get(a, "type") == JStr("transfer")
    && Get(a, "amount") == amount
    && Get(a, "flavor_id") == flavorId
    && Get(a, "source_account_id") == sourceAccountId
    && Get(a, "destination_account_id") == destinationAccountId
    && Get(a, "filter") == filter
    && Get(a, "filter_params") == filterParams
    && Get(a, "token_tags") == tokenTags
    && Get(a, "action_tags") == actionTags
    && HasKey(a, "destination_account_id") && HasKey(a, "source_account_id")
  }

  /**
    A `retire` action: exactly the retire fields, each holding its argument.
    It has a source account but no destination account and no token tags.
   */
  predicate IsRetireAction(
    a: Fields, amount: Json, flavorId: Json, sourceAccountId: Json, filter: Json, filterParams: Json, actionTags: Json)
  {
    && DistinctKeys(a)
    && Keys(a) == {"type", "amount", "flavor_id", "source_account_id", "filter", "filter_params", "action_tags"}
    && Get(a, "type") == JStr("retire")
    && Get(a, "amount") == amount
    && Get(a, "flavor_id") == flavorId
    && Get(a, "source_account_id") == sourceAccountId
    && Get(a, "filter") == filter
    && Get(a, "filter_params") == filterParams
    && Get(a, "action_tags") == actionTags
    && HasKey(a, "source_account_id") && !HasKey(a, "destination_account_id") && !HasKey(a, "token_tags")
  }

  /** The hash `issue` passes to `add_action`. */
  function IssueFields(amount: Json, flavorId: Json, destinationAccountId: Json, tokenTags: Json, actionTags: Json)
    : (f: Fields)
    ensures IsIssueAction(f, amount, flavorId, destinationAccountId, tokenTags, actionTags)
  {
    var f := [("type", JStr("issue")), ("amount", amount), ("flavor_id", flavorId),
              ("destination_account_id", destinationAccountId), ("token_tags", tokenTags), ("action_tags", actionTags)];
    assert DistinctKeys(f);
    GetFindsEveryBinding(f);
    assert Keys(f) == {f[0].0, f[1].0, f[2].0, f[3].0, f[4].0, f[5].0};
    HasKeyInKeys(f, "destination_account_id");
    HasKeyInKeys(f, "source_account_id");
    f
  }

  /** The hash `transfer` passes to `add_action`. */
  function TransferFields(
    amount: Json, flavorId: Json, sourceAccountId: Json, destinationAccountId: Json,
    filter: Json, filterParams: Json, tokenTags: Json, actionTags: Json)
    : (f: Fields)
    ensures IsTransferAction(f, amount, flavorId, sourceAccountId, destinationAccountId, filter, filterParams, tokenTags, actionTags)
  {
    var f := [("type", JStr("transfer")), ("amount", amount), ("flavor_id", flavorId),
              ("source_account_id", sourceAccountId), ("destination_account_id", destinationAccountId),
              ("filter", filter), ("filter_params", filterParams), ("token_tags", tokenTags), ("action_tags", actionTags)];
    assert DistinctKeys(f);
    GetFindsEveryBinding(f);
    assert Keys(f) == {f[0].0, f[1].0, f[2].0, f[3].0, f[4].0, f[5].0, f[6].0, f[7].0, f[8].0};
    HasKeyInKeys(f, "destination_account_id");
    HasKeyInKeys(f, "source_account_id");
    f
  }

  /** The hash `retire` passes to `add_action`. */
  function RetireFields(
    amount: Json, flavorId: Json, sourceAccountId: Json, filter: Json, filterParams: Json, actionTags: Json)
    : (f: Fields)
    ensures IsRetireAction(f, amount, flavorId, sourceAccountId, filter, filterParams, actionTags)
  {
    var f := [("type", JStr("retire")), ("amount", amount), ("flavor_id", flavorId), ("source_account_id", sourceAccountId),
              ("filter", filter), ("filter_params", filterParams), ("action_tags", actionTags)];
    assert DistinctKeys(f);
    GetFindsEveryBinding(f);
    assert Keys(f) == {f[0].0, f[1].0, f[2].0, f[3].0, f[4].0, f[5].0, f[6].0};
    HasKeyInKeys(f, "source_account_id");
    HasKeyInKeys(f, "destination_account_id");
    HasKeyInKeys(f, "token_tags");
    f
  }

  /** `issue(...)`: refused without an amount; otherwise appends an issue action carrying every argument. */
  function Issue(b: Builder, amount: Json, flavorId: Json, destinationAccountId: Json, tokenTags: Json, actionTags: Json)
    : (r: Result<Builder, string>)
    ensures r.Err? <==> amount == JNull
    ensures r.Err? ==> r.error == AmountMessage
    ensures r.Ok? ==> r.value.tags == b.tags
    ensures r.Ok? ==> |r.value.actions| == |b.actions| + 1 && r.value.actions[..|b.actions|] == b.actions
    ensures r.Ok? ==>
      IsIssueAction(r.value.actions[|b.actions|], amount, flavorId, destinationAccountId, tokenTags, actionTags)
  {
    AddAction(b, IssueFields(amount, flavorId, destinationAccountId, tokenTags, actionTags))
  }

  /** `transfer(...)`: refused without an amount; otherwise appends a transfer action carrying every argument. */
  function Transfer(
    b: Builder, amount: Json, flavorId: Json, sourceAccountId: Json, destinationAccountId: Json,
    filter: Json, filterParams: Json, tokenTags: Json, actionTags: Json)
    : (r: Result<Builder, string>)
    ensures r.Err? <==> amount == JNull
    ensures r.Err? ==> r.error == AmountMessage
    ensures r.Ok? ==> r.value.tags == b.tags
    ensures r.Ok? ==> |r.value.actions| == |b.actions| + 1 && r.value.actions[..|b.actions|] == b.actions
    ensures r.Ok? ==> IsTransferAction(
      r.value.actions[|b.actions|], amount, flavorId, sourceAccountId, destinationAccountId,
      filter, filterParams, tokenTags, actionTags)
  {
    AddAction(b, TransferFields(amount, flavorId, sourceAccountId, destinationAccountId, filter, filterParams, tokenTags, actionTags))
  }

  /** `retire(...)`: refused without an amount; otherwise appends a retire action carrying every argument. */
  function Retire(
    b: Builder, amount: Json, flavorId: Json, sourceAccountId: Json, filter: Json, filterParams: Json, actionTags: Json)
    : (r: Result<Builder, string>)
    ensures r.Err? <==> amount == JNull
    ensures r.Err? ==> r.error == AmountMessage
    ensures r.Ok? ==> r.value.tags == b.tags
    ensures r.Ok? ==> |r.value.actions| == |b.actions| + 1 && r.value.actions[..|b.actions|] == b.actions
    ensures r.Ok? ==>
      IsRetireAction(r.value.actions[|b.actions|], amount, flavorId, sourceAccountId, filter, filterParams, actionTags)
  {
    AddAction(b, RetireFields(amount, flavorId, sourceAccountId, filter, filterParams, actionTags))
  }

  /** `issue` keeps every argument: two calls that build the same action hash were given the same arguments. */
  lemma IssueDeterminesArguments(
    amount: Json, flavorId: Json, destinationAccountId: Json, tokenTags: Json, actionTags: Json,
    amount': Json, flavorId': Json, destinationAccountId': Json, tokenTags': Json, actionTags': Json)
    requires IssueFields(amount, flavorId, destinationAccountId, tokenTags, actionTags)
          == IssueFields(amount', flavorId', destinationAccountId', tokenTags', actionTags')
    ensures amount == amount' && flavorId == flavorId' && destinationAccountId == destinationAccountId'
    ensures tokenTags == tokenTags' && actionTags == actionTags'
  {
  }

  /** `transfer` keeps every argument in its own field: in particular the two accounts cannot trade places. */
  lemma TransferDeterminesArguments(
    amount: Json, flavorId: Json, sourceAccountId: Json, destinationAccountId: Json,
    filter: Json, filterParams: Json, tokenTags: Json, actionTags: Json,
    amount': Json, flavorId': Json, sourceAccountId': Json, destinationAccountId': Json,
    filter': Json, filterParams': Json, tokenTags': Json, actionTags': Json)
    requires TransferFields(amount, flavorId, sourceAccountId, destinationAccountId, filter, filterParams, tokenTags, actionTags)
          == TransferFields(amount', flavorId', sourceAccountId', destinationAccountId', filter', filterParams', tokenTags', actionTags')
    ensures amount == amount' && flavorId == flavorId'
    ensures sourceAccountId == sourceAccountId' && destinationAccountId == destinationAccountId'
    ensures filter == filter' && filterParams == filterParams'
    ensures tokenTags == tokenTags' && actionTags == actionTags'
  {
  }

  /** `retire` keeps every argument: two calls that build the same action hash were given the same arguments. */
  lemma RetireDeterminesArguments(
    amount: Json, flavorId: Json, sourceAccountId: Json, filter: Json, filterParams: Json, actionTags: Json,
    amount': Json, flavorId': Json, sourceAccountId': Json, filter': Json, filterParams': Json, actionTags': Json)
    requires RetireFields(amount, flavorId, sourceAccountId, filter, filterParams, actionTags)
          == RetireFields(amount', flavorId', sourceAccountId', filter', filterParams', actionTags')
    ensures amount == amount' && flavorId == flavorId' && sourceAccountId == sourceAccountId'
    ensures filter == filter' && filterParams == filterParams' && actionTags == actionTags'
  {
  }

  /** The three helpers never append the same action: the `type` field tells the kinds apart. */
  lemma ActionKindsDistinct(
    b: Builder, amount: Json, flavorId: Json, sourceAccountId: Json, destinationAccountId: Json,
    filter: Json, filterParams: Json, tokenTags: Json, actionTags: Json)
    requires amount != JNull
    ensures var i := Issue(b, amount, flavorId, destinationAccountId, tokenTags, actionTags).value;
            var t := Transfer(b, amount, flavorId, sourceAccountId, destinationAccountId, filter, filterParams, tokenTags, actionTags).value;
            var r := Retire(b, amount, flavorId, sourceAccountId, filter, filterParams, actionTags).value;
            && i.actions[|b.actions|] != t.actions[|b.actions|]
            && t.actions[|b.actions|] != r.actions[|b.actions|]
            && i.actions[|b.actions|] != r.actions[|b.actions|]
  {
  }

  /** A new builder has no actions and reports empty tags. */
  lemma EmptyBuilder()
    ensures Empty.actions == [] && TransactionTags(Empty) == JObj([])
  {
  }
}

=== FILE: transport.dfy ===
/**
  The resilient POST of the HTTP wrapper.  One logical call makes one or
  more attempts; every attempt carries the same idempotency key and an
  attempt id `"<id>/<n>"`, and every attempt after the first is preceded
  by a randomised exponential backoff sleep.

  Nothing here touches a clock, a socket or a random generator: each
  attempt is described by a `Step` of an injected trace, holding the value
  `rand` returned before the attempt, what the exchange produced, and what
  the monotonic clock read when the attempt's failure was rescued.
 */
module Transport {
  import opened Common
  import opened Values
  import opened Errors
  import Text

  const RetryBaseDelayMs: nat := 40
  const RetryMaxDelayMs: nat := 20000
  const RetryTimeoutSecs: real := 120.0

  function Pow2(n: nat): (p: nat)
    ensures p >= 1
  {
    if n == 0 then 1 else 2 * Pow2(n - 1)
  }

  /** The `max` of `backoff_delay`: the exclusive bound handed to `rand` before attempt `attempt`. */
  function BackoffCapMs(attempt: nat): nat
    requires attempt >= 1
  {
    var max := RetryBaseDelayMs * Pow2(attempt - 1);
    if max < RetryMaxDelayMs then max else RetryMaxDelayMs
  }

  lemma {:induction false} Pow2Monotone(m: nat, n: nat)
    requires m <= n
    ensures Pow2(m) <= Pow2(n)
    decreases n
  {
    if m < n {
      Pow2Monotone(m, n - 1);
    }
  }

  /**
    The cap doubles from 40 ms for the first nine attempts (40 * 2^8 = 10240)
    and is pinned at 20000 ms from the tenth attempt on (40 * 2^9 = 20480).
   */
  lemma BackoffCapShape(attempt: nat)
    requires attempt >= 1
    ensures RetryBaseDelayMs <= BackoffCapMs(attempt) <= RetryMaxDelayMs
    ensures attempt <= 9 ==> BackoffCapMs(attempt) == RetryBaseDelayMs * Pow2(attempt - 1)
    ensures attempt >= 10 ==> BackoffCapMs(attempt) == RetryMaxDelayMs
    ensures attempt < 9 ==> BackoffCapMs(attempt + 1) == 2 * BackoffCapMs(attempt)
  {
    assert Pow2(8) == 256 by {
      assert Pow2(1) == 2 && Pow2(2) == 4 && Pow2(3) == 8 && Pow2(4) == 16;
      assert Pow2(5) == 32 && Pow2(6) == 64 && Pow2(7) == 128;
    }
    assert Pow2(9) == 512;
    if attempt <= 9 {
      Pow2Monotone(attempt - 1, 8);
    } else {
      Pow2Monotone(9, attempt - 1);
    }
    if attempt < 9 {
      Pow2Monotone(attempt, 8);
    }
  }

  /** The sleep before attempt `attempt`, in milliseconds: `rand(max) + 1`, where `draw` is what `rand(max)` returned. */
  function BackoffDelayMs(attempt: nat, draw: nat): (ms: nat)
    requires attempt >= 1
    requires draw < BackoffCapMs(attempt)
    ensures 1 <= ms <= BackoffCapMs(attempt)
    ensures ms <= RetryMaxDelayMs
  {
    BackoffCapShape(attempt);
    draw + 1
  }

  /** What one attempt's exchange produced before the status and body are looked at. */
  datatype Exchange =
    | Threw(cls: ExceptionClass)
    | Responded(response: HttpResponse)

  /** One attempt as seen from outside: the `rand` result, the exchange, the clock when rescued. */
  datatype Step = Step(draw: nat, exchange: Exchange, elapsedSecs: real)

  /**
    A logical call: the caller's id, url and body, the credential, the
    idempotency key the call generated, the caller's block (what it raises,
    if anything, on seeing the response) and the JSON parser.
   */
  datatype Call = Call(
    id: string,
    url: string,
    body: Json,
    credential: Json,
    idempotencyKey: string,
    check: HttpResponse -> Option<Failure>,
    parse: string -> Option<Json>)

  /** The request sent by one attempt, with the headers the retry logic controls. */
  datatype Request = Request(url: string, body: Json, attemptId: string, idempotencyKey: string, credential: Json)

  datatype Attempt = Attempt(sleepMs: Option<nat>, request: Request)

  datatype AttemptResult =
    | Returned(parsedBody: Option<Json>, response: HttpResponse)
    | Failed(failure: Failure)

  /** `Unfinished` means the injected trace ended while the loop still wanted to retry. */
  datatype Verdict = Done(result: AttemptResult) | Unfinished

  datatype PostRun = PostRun(attempts: seq<Attempt>, verdict: Verdict)

  /** Ruby's `status / 100 == 2` floors like Dafny's division by a positive divisor. */
  lemma Is2xx(status: int)
    ensures status / 100 == 2 <==> 200 <= status <= 299
  {
  }

  /** The body of the synchronized block once a response has arrived. */
  function ClassifyResponse(
    attemptId: string,
    r: HttpResponse,
    check: HttpResponse -> Option<Failure>,
    parse: string -> Option<Json>): AttemptResult
  {
    if check(r).Some? then Failed(check(r).value)
    else if r.status != 204 && parse(r.body).None? then Failed(Decode(NewJsonError(attemptId, r)))
    else
      var parsed := if r.status == 204 then None else parse(r.body);
      if r.status / 100 != 2 then
        Failed(Api(NewApiError(if parsed.Some? then parsed.value else JNull, Some(r), r.status == 401)))
      else
        Returned(parsed, r)
  }

  /**
    How a response is classified: the caller's block runs first; a body
    that does not parse is a JSON error whatever the status (204 bodies are
    never parsed); a 2xx status returns the parsed body; any other status is
    an API error, of the unauthorized kind exactly for 401.
   */
  lemma ClassifyResponseCases(
    attemptId: string,
    r: HttpResponse,
    check: HttpResponse -> Option<Failure>,
    parse: string -> Option<Json>)
    ensures var res := ClassifyResponse(attemptId, r, check, parse);
      && (check(r).Some? ==> res == Failed(check(r).value))
      && (res.Returned? <==> check(r).None? && 200 <= r.status <= 299 && (r.status == 204 || parse(r.body).Some?))
      && (res.Returned? ==> res.response == r)
      && (res.Returned? && r.status == 204 ==> res.parsedBody.None?)
      && (res.Returned? && r.status != 204 ==> res.parsedBody == parse(r.body))
      && (check(r).None? && r.status != 204 && parse(r.body).None? ==>
            res == Failed(Decode(NewJsonError(attemptId, r))))
      && (check(r).None? && !(200 <= r.status <= 299) && parse(r.body).Some? ==>
            res == Failed(Api(NewApiError(parse(r.body).value, Some(r), r.status == 401))))
  {
    Is2xx(r.status);
  }

  /** The two rescue clauses of `post`: network errors, then API errors; anything else propagates. */
  predicate ShouldRetry(f: Failure, elapsedSecs: real)
  {
    match f
    case Raised(c) => c in NetworkErrors && elapsedSecs <= RetryTimeoutSecs
    case Api(e) => Retriable(e) && elapsedSecs <= RetryTimeoutSecs
    case Decode(_) => false
  }

  function Outcome(call: Call, attempt: nat, step: Step): AttemptResult
  {
    match step.exchange
    case Threw(c) => Failed(Raised(c))
    case Responded(r) => ClassifyResponse(Text.AttemptId(call.id, attempt), r, call.check, call.parse)
  }

  /** The attempt failed and the rescue clause chose `retry`. */
  predicate Continues(call: Call, attempt: nat, step: Step)
  {
    var o := Outcome(call, attempt, step);
    o.Failed? && ShouldRetry(o.failure, step.elapsedSecs)
  }

  /** `rand(max)` returns a value below `max`; the draw of the first attempt is never used. */
  predicate DrawsFit(attempt: nat, trace: seq<Step>)
  {
    forall i :: 0 <= i < |trace| && attempt + i > 1 ==> trace[i].draw < BackoffCapMs(attempt + i)
  }

  lemma DrawsFitTail(attempt: nat, trace: seq<Step>)
    requires |trace| > 0 && DrawsFit(attempt, trace)
    ensures DrawsFit(attempt + 1, trace[1..])
  {
    forall i | 0 <= i < |trace[1..]| && attempt + 1 + i > 1
      ensures trace[1..][i].draw < BackoffCapMs(attempt + 1 + i)
    {
      assert trace[1..][i] == trace[i + 1];
    }
  }

  /** What attempt number `attempt` records: its backoff sleep (none before the first) and its request. */
  function AttemptRecord(call: Call, attempt: nat, step: Step): (a: Attempt)
    requires attempt >= 1
    requires attempt > 1 ==> step.draw < BackoffCapMs(attempt)
    ensures a.request.idempotencyKey == call.idempotencyKey
    ensures a.request.attemptId == Text.AttemptId(call.id, attempt)
    ensures a.sleepMs.None? <==> attempt == 1
    ensures a.sleepMs.Some? ==> 1 <= a.sleepMs.value <= BackoffCapMs(attempt)
  {
    var sleep := if attempt > 1 then Some(BackoffDelayMs(attempt, step.draw)) else None;
    Attempt(sleep, Request(call.url, call.body, Text.AttemptId(call.id, attempt), call.idempotencyKey, call.credential))
  }

  /** The `begin ... retry` loop from attempt number `attempt` on. */
  function PostFrom(call: Call, attempt: nat, trace: seq<Step>): (run: PostRun)
    requires attempt >= 1
    requires DrawsFit(attempt, trace)
    ensures |run.attempts| <= |trace|
    ensures |trace| > 0 ==> |run.attempts| >= 1
    ensures run.verdict.Unfinished? ==> |run.attempts| == |trace|
    decreases |trace|
  {
    if |trace| == 0 then PostRun([], Unfinished)
    else
      var here := AttemptRecord(call, attempt, trace[0]);
      if !Continues(call, attempt, trace[0]) then PostRun([here], Done(Outcome(call, attempt, trace[0])))
      else
        DrawsFitTail(attempt, trace);
        var rest := PostFrom(call, attempt + 1, trace[1..]);
        PostRun([here] + rest.attempts, rest.verdict)
  }

  /** Unfolds one iteration of the loop: a retried attempt is followed by the loop from the next attempt. */
  lemma PostFromRetried(call: Call, attempt: nat, trace: seq<Step>)
    requires attempt >= 1
    requires DrawsFit(attempt, trace)
    requires |trace| > 0 && Continues(call, attempt, trace[0])
    ensures DrawsFit(attempt + 1, trace[1..])
    ensures PostFrom(call, attempt, trace).attempts
         == [AttemptRecord(call, attempt, trace[0])] + PostFrom(call, attempt + 1, trace[1..]).attempts
    ensures PostFrom(call, attempt, trace).verdict == PostFrom(call, attempt + 1, trace[1..]).verdict
  {
    DrawsFitTail(attempt, trace);
  }

  /** Every attempt but the last one was retried. */
  lemma {:induction false} PostFromRetriesBeforeLast(call: Call, attempt: nat, trace: seq<Step>, i: nat)
    requires attempt >= 1
    requires DrawsFit(attempt, trace)
    requires i + 1 < |PostFrom(call, attempt, trace).attempts|
    ensures Continues(call, attempt + i, trace[i])
    decreases |trace|
  {
    if i > 0 {
      PostFromRetried(call, attempt, trace);
      PostFromRetriesBeforeLast(call, attempt + 1, trace[1..], i - 1);
      assert trace[1..][i - 1] == trace[i];
    }
  }

  /** Attempt `i` of the loop is the record of attempt number `attempt + i` and its step. */
  lemma {:induction false} PostFromRecords(call: Call, attempt: nat, trace: seq<Step>, i: nat)
    requires attempt >= 1
    requires DrawsFit(attempt, trace)
    requires i < |PostFrom(call, attempt, trace).attempts|
    ensures attempt + i > 1 ==> trace[i].draw < BackoffCapMs(attempt + i)
    ensures PostFrom(call, attempt, trace).attempts[i] == AttemptRecord(call, attempt + i, trace[i])
    decreases |trace|
  {
    if i > 0 {
      PostFromRetried(call, attempt, trace);
      PostFromRecords(call, attempt + 1, trace[1..], i - 1);
      assert trace[1..][i - 1] == trace[i];
    }
  }

  /** A verdict comes from the last attempt, which did not retry. */
  lemma {:induction false} PostFromDone(call: Call, attempt: nat, trace: seq<Step>)
    requires attempt >= 1
    requires DrawsFit(attempt, trace)
    requires PostFrom(call, attempt, trace).verdict.Done?
    ensures var run := PostFrom(call, attempt, trace);
      && |run.attempts| >= 1
      && run.verdict.result == Outcome(call, attempt + |run.attempts| - 1, trace[|run.attempts| - 1])
      && !Continues(call, attempt + |run.attempts| - 1, trace[|run.attempts| - 1])
    decreases |trace|
  {
    if Continues(call, attempt, trace[0]) {
      PostFromRetried(call, attempt, trace);
      PostFromDone(call, attempt + 1, trace[1..]);
      var n := |PostFrom(call, attempt + 1, trace[1..]).attempts|;
      assert trace[1..][n - 1] == trace[n];
    }
  }

  /** When the trace runs out first, its last step still wanted a retry. */
  lemma {:induction false} PostFromUnfinished(call: Call, attempt: nat, trace: seq<Step>)
    requires attempt >= 1
    requires DrawsFit(attempt, trace)
    requires PostFrom(call, attempt, trace).verdict.Unfinished?
    requires |trace| > 0
    ensures Continues(call, attempt + |trace| - 1, trace[|trace| - 1])
    decreases |trace|
  {
    PostFromRetried(call, attempt, trace);
    if |trace| > 1 {
      PostFromUnfinished(call, attempt + 1, trace[1..]);
      assert trace[1..][|trace| - 2] == trace[|trace| - 1];
    }
  }

  /** The loop's stopping rule, gathered for the first attempt. */
  lemma PostFromStops(call: Call, attempt: nat, trace: seq<Step>)
    requires attempt >= 1
    requires DrawsFit(attempt, trace)
    ensures var run := PostFrom(call, attempt, trace);
      && (forall i :: 0 <= i < |run.attempts| - 1 ==> Continues(call, attempt + i, trace[i]))
      && (run.verdict.Done? ==>
            && |run.attempts| >= 1
            && run.verdict.result == Outcome(call, attempt + |run.attempts| - 1, trace[|run.attempts| - 1])
            && !Continues(call, attempt + |run.attempts| - 1, trace[|run.attempts| - 1]))
      && (run.verdict.Unfinished? && |trace| > 0 ==> Continues(call, attempt + |trace| - 1, trace[|trace| - 1]))
  {
    var run := PostFrom(call, attempt, trace);
    forall i | 0 <= i < |run.attempts| - 1 ensures Continues(call, attempt + i, trace[i]) {
      PostFromRetriesBeforeLast(call, attempt, trace, i);
    }
    if run.verdict.Done? {
      PostFromDone(call, attempt, trace);
    } else if |trace| > 0 {
      PostFromUnfinished(call, attempt, trace);
    }
  }

  /** `HttpWrapper#post`: the first attempt is attempt 1. */
  function Post(call: Call, trace: seq<Step>): (run: PostRun)
    requires DrawsFit(1, trace)
    ensures |trace| > 0 ==> |run.attempts| >= 1
    ensures forall i :: 0 <= i < |run.attempts| ==>
      && run.attempts[i].request.idempotencyKey == call.idempotencyKey
      && run.attempts[i].request.attemptId == Text.AttemptId(call.id, i + 1)
      && run.attempts[i].request.url == call.url
      && run.attempts[i].request.body == call.body
      && run.attempts[i].request.credential == call.credential
    ensures |run.attempts| >= 1 ==> run.attempts[0].sleepMs.None?
    ensures forall i :: 1 <= i < |run.attempts| ==>
      run.attempts[i].sleepMs.Some? && 1 <= run.attempts[i].sleepMs.value <= BackoffCapMs(i + 1)
  {
    var run := PostFrom(call, 1, trace);
    forall i | 0 <= i < |run.attempts| ensures run.attempts[i] == AttemptRecord(call, i + 1, trace[i]) {
      PostFromRecords(call, 1, trace, i);
    }
    run
  }

  /** The loop ends at the first attempt that does not retry, and that attempt decides the verdict. */
  lemma PostStopsAtFirstFinalAttempt(call: Call, trace: seq<Step>, j: nat)
    requires DrawsFit(1, trace)
    requires j < |trace|
    requires !Continues(call, j + 1, trace[j])
    requires forall i :: 0 <= i < j ==> Continues(call, i + 1, trace[i])
    ensures |Post(call, trace).attempts| == j + 1
    ensures Post(call, trace).verdict == Done(Outcome(call, j + 1, trace[j]))
  {
    PostFromStops(call, 1, trace);
  }

  /** An API error the server did not mark retriable is raised after that single attempt. */
  lemma NonRetriableApiErrorRaisesAtOnce(call: Call, trace: seq<Step>, e: ApiError)
    requires DrawsFit(1, trace)
    requires |trace| >= 1
    requires Outcome(call, 1, trace[0]) == Failed(Api(e))
    requires !Retriable(e)
    ensures |Post(call, trace).attempts| == 1
    ensures Post(call, trace).verdict == Done(Failed(Api(e)))
  {
    PostStopsAtFirstFinalAttempt(call, trace, 0);
  }

  /**
    Once the clock reading of some attempt exceeds the 120 s budget, the
    loop has reached a verdict by that attempt at the latest: network and
    retriable API errors are then re-raised.
   */
  lemma BudgetBoundsAttempts(call: Call, trace: seq<Step>, j: nat)
    requires DrawsFit(1, trace)
    requires j < |trace|
    requires trace[j].elapsedSecs > RetryTimeoutSecs
    ensures |Post(call, trace).attempts| <= j + 1
    ensures Post(call, trace).verdict.Done?
  {
    PostFromStops(call, 1, trace);
  }

  /** Failures the rescue clauses retry lead to a further attempt whenever the trace has one. */
  lemma RetriableFailuresAreRetried(call: Call, trace: seq<Step>, k: nat)
    requires DrawsFit(1, trace)
    requires k + 1 < |trace|
    requires forall i :: 0 <= i <= k ==> Continues(call, i + 1, trace[i])
    ensures |Post(call, trace).attempts| >= k + 2
  {
    PostFromStops(call, 1, trace);
  }

  /** Attempt ids of one call never repeat, while the idempotency key never changes. */
  lemma AttemptIdsUnique(call: Call, trace: seq<Step>, i: nat, j: nat)
    requires DrawsFit(1, trace)
    requires i < j < |Post(call, trace).attempts|
    ensures Post(call, trace).attempts[i].request.attemptId != Post(call, trace).attempts[j].request.attemptId
    ensures Post(call, trace).attempts[i].request.idempotencyKey == Post(call, trace).attempts[j].request.idempotencyKey
  {
    Text.AttemptIdsDistinct(call.id, i + 1, j + 1);
  }
}

=== FILE: validations.dfy ===
/**
  The option checks resource calls run before any request: at least one of
  a list of keys must be present, and every option key must be one of a
  list of valid ones.  A failure is the message of the `ArgumentError`
  raised.
 */
module Validations {
  import opened Common
  import opened Values
  import Text

  /** `":k"` for each key, the way a symbol is interpolated. */
  function SymbolNames(keys: seq<string>): (names: seq<string>)
    ensures |names| == |keys|
    ensures forall i :: 0 <= i < |keys| ==> names[i] == ":" + keys[i]
  {
    seq(|keys|, i requires 0 <= i < |keys| => ":" + keys[i])
  }

  function RequiredMessage(keys: seq<string>): string
  {
    Text.Join(SymbolNames(keys), " and ") + " must be provided"
  }

  /** `keys.all? { |k| blank(opts[k]) }`, walking the keys in order; true for no keys at all. */
  function AllBlank(opts: Fields, keys: seq<string>): (b: bool)
    ensures b <==> forall i :: 0 <= i < |keys| ==> Blank(Get(opts, keys[i]))
  {
    if |keys| == 0 then true
    else if !Blank(Get(opts, keys[0])) then false
    else
      assert forall i :: 1 <= i < |keys| ==> keys[i] == keys[1..][i - 1];
      AllBlank(opts, keys[1..])
  }

  /** `validate_required!(opts, *keys)`: raises when every listed key is nil or empty. */
  function ValidateRequired(opts: Fields, keys: seq<string>): (r: Outcome<string>)
    ensures r.Fail? <==> forall i :: 0 <= i < |keys| ==> Blank(Get(opts, keys[i]))
    ensures r.Fail? ==> r.error == RequiredMessage(keys)
  {
    if AllBlank(opts, keys) then Fail(RequiredMessage(keys)) else Pass
  }

  /** With no keys listed the check always raises, with the bare `" must be provided"`. */
  lemma NoKeysAlwaysRaise(opts: Fields)
    ensures ValidateRequired(opts, []) == Fail(" must be provided")
  {
    assert SymbolNames([]) == [];
    assert Text.Join([], " and ") == "";
    assert "" + " must be provided" == " must be provided";
  }

  /** A single key that is present and not empty is enough, wherever it is in the list. */
  lemma OnePresentKeySuffices(opts: Fields, keys: seq<string>, i: nat)
    requires i < |keys|
    requires !Blank(Get(opts, keys[i]))
    ensures ValidateRequired(opts, keys) == Pass
  {
  }

  /** The message names the first and the last key and ends with `" must be provided"`. */
  lemma RequiredMessageShape(keys: seq<string>)
    requires |keys| >= 1
    ensures Text.StartsWith(RequiredMessage(keys), ":" + keys[0])
    ensures Text.EndsWith(RequiredMessage(keys), ":" + keys[|keys| - 1] + " must be provided")
  {
    var names := SymbolNames(keys);
    var j := Text.Join(names, " and ");
    Text.JoinStartsWithFirst(names, " and ");
    Text.JoinEndsWithLast(names, " and ");
    var m := RequiredMessage(keys);
    assert m == j + " must be provided";
    assert m[..|names[0]|] == j[..|names[0]|];
    var suffix := names[|names| - 1] + " must be provided";
    assert m[|m| - |suffix|..] == j[|j| - |names[|names| - 1]|..] + " must be provided";
  }

  /** The message of a missing asset key: `:keys must be provided`. */
  lemma RequiredMessageExample()
    ensures RequiredMessage(["keys"]) == ":keys must be provided"
  {
    var names := SymbolNames(["keys"]);
    assert |names| == 1 && names[0] == ":" + "keys";
    assert ":" + "keys" == ":keys";
    assert Text.Join(names, " and ") == ":keys";
  }

  function InvalidOptionMessage(key: string, valid: seq<string>): string
  {
    ":" + key + " is an invalid option. Valid options are " + Text.Join(SymbolNames(valid), ", ")
  }

  predicate InValid(key: string, valid: seq<string>)
  {
    exists j :: 0 <= j < |valid| && valid[j] == key
  }

  /** `validate_inclusion_of!(opts, *valid)`: raises for the first option key not in `valid`. */
  function ValidateInclusionOf(opts: Fields, valid: seq<string>): (r: Outcome<string>)
    ensures r.Pass? <==> forall i :: 0 <= i < |opts| ==> InValid(opts[i].0, valid)
    ensures r.Fail? ==>
      exists i ::
        && 0 <= i < |opts|
        && !InValid(opts[i].0, valid)
        && (forall k :: 0 <= k < i ==> InValid(opts[k].0, valid))
        && r.error == InvalidOptionMessage(opts[i].0, valid)
  {
    if |opts| == 0 then Pass
    else if !InValid(opts[0].0, valid) then Fail(InvalidOptionMessage(opts[0].0, valid))
    else
      var r := ValidateInclusionOf(opts[1..], valid);
      assert forall i :: 1 <= i < |opts| ==> opts[i] == opts[1..][i - 1];
      if r.Fail? then
        var i :| 0 <= i < |opts[1..]|
          && !InValid(opts[1..][i].0, valid)
          && (forall k :: 0 <= k < i ==> InValid(opts[1..][k].0, valid))
          && r.error == InvalidOptionMessage(opts[1..][i].0, valid);
        assert forall k :: 1 <= k < i + 1 ==> opts[k] == opts[1..][k - 1];
        r
      else r
  }

  /** An empty option hash is always valid. */
  lemma EmptyOptionsAreValid(valid: seq<string>)
    ensures ValidateInclusionOf([], valid) == Pass
  {
  }
}

=== FILE: values.dfy ===
/**
  The values the client exchanges with the ledger API: parsed JSON bodies,
  option hashes and response attributes.  A Ruby `Hash` is an insertion
  ordered list of bindings; Ruby hashes never bind a key twice, so lookup
  takes the first binding.
 */
module Values {
  import opened Common
  import Text

  datatype Json =
    | JNull
    | JBool(b: bool)
    | JNum(n: int)
    | JStr(s: string)
    | JArr(elems: seq<Json>)
    | JObj(fields: seq<(string, Json)>)

  /** A Ruby `Hash` keyed by symbol or string names. */
  type Fields = seq<(string, Json)>

  /** Ruby truthiness: only `nil` and `false` are falsy. */
  predicate Truthy(v: Json)
  {
    !v.JNull? && v != JBool(false)
  }

  /** `v.is_a?(String) && !v.empty?` */
  predicate NonEmptyString(v: Json)
  {
    v.JStr? && |v.s| > 0
  }

  /** `v.nil? || (v.respond_to?(:empty?) && v.empty?)`: strings, arrays and hashes respond to `empty?`. */
  predicate Blank(v: Json)
  {
    match v
    case JNull => true
    case JStr(s) => |s| == 0
    case JArr(xs) => |xs| == 0
    case JObj(fs) => |fs| == 0
    case _ => false
  }

  function Keys(fs: Fields): set<string>
  {
    set i | 0 <= i < |fs| :: fs[i].0
  }

  predicate HasKey(fs: Fields, k: string)
  {
    exists i :: 0 <= i < |fs| && fs[i].0 == k
  }

  predicate DistinctKeys(fs: Fields)
  {
    forall i, j :: 0 <= i < j < |fs| ==> fs[i].0 != fs[j].0
  }

  /** `hash[k]`: the bound value, or `nil` when `k` is not bound. */
  function Get(fs: Fields, k: string): (v: Json)
    ensures !HasKey(fs, k) ==> v == JNull
  {
    if |fs| == 0 then JNull
    else if fs[0].0 == k then fs[0].1
    else Get(fs[1..], k)
  }

  /** `value[k]` on a parsed JSON value: a hash lookup, `nil` for anything that is not a hash. */
  function Field(v: Json, k: string): Json
  {
    if v.JObj? then Get(v.fields, k) else JNull
  }

  /** In a hash, looking up a bound key finds its binding. */
  lemma {:induction false} GetFindsBinding(fs: Fields, i: nat)
    requires DistinctKeys(fs)
    requires i < |fs|
    ensures Get(fs, fs[i].0) == fs[i].1
  {
    if i > 0 {
      assert fs[0].0 != fs[i].0;
      assert fs[1..][i - 1] == fs[i];
      GetFindsBinding(fs[1..], i - 1);
    }
  }

  /** A key is bound exactly when it is among the hash's keys. */
  lemma HasKeyInKeys(fs: Fields, k: string)
    ensures HasKey(fs, k) <==> k in Keys(fs)
  {
    if k in Keys(fs) {
      var i :| 0 <= i < |fs| && fs[i].0 == k;
    }
  }

  /** In a hash, every binding is what looking up its key finds. */
  lemma GetFindsEveryBinding(fs: Fields)
    requires DistinctKeys(fs)
    ensures forall i :: 0 <= i < |fs| ==> Get(fs, fs[i].0) == fs[i].1
  {
    forall i | 0 <= i < |fs|
      ensures Get(fs, fs[i].0) == fs[i].1
    {
      GetFindsBinding(fs, i);
    }
  }

  /** `hash[k] = v`: replaces the binding in place, or appends a new one. */
  function Put(fs: Fields, k: string, v: Json): (r: Fields)
    ensures Get(r, k) == v
    ensures forall k' :: k' != k ==> Get(r, k') == Get(fs, k')
    ensures HasKey(fs, k) ==> |r| == |fs|
    ensures !HasKey(fs, k) ==> r == fs + [(k, v)]
    ensures forall i :: 0 <= i < |r| ==> r[i].0 == (if i < |fs| then fs[i].0 else k)
  {
    if |fs| == 0 then [(k, v)]
    else if fs[0].0 == k then [(k, v)] + fs[1..]
    else
      var rest := Put(fs[1..], k, v);
      assert HasKey(fs, k) <==> HasKey(fs[1..], k) by {
        if HasKey(fs, k) {
          var i :| 0 <= i < |fs| && fs[i].0 == k;
          assert fs[1..][i - 1] == fs[i];
        }
        if HasKey(fs[1..], k) {
          var i :| 0 <= i < |fs[1..]| && fs[1..][i].0 == k;
          assert fs[i + 1] == fs[1..][i];
        }
      }
      [fs[0]] + rest
  }

  /** `base.merge(extra)`: bindings of `extra` win; keys of `base` keep their position. */
  function Merge(base: Fields, extra: Fields): Fields
    decreases |extra|
  {
    if |extra| == 0 then base else Merge(Put(base, extra[0].0, extra[0].1), extra[1..])
  }

  lemma {:induction false} MergeGet(base: Fields, extra: Fields, k: string)
    requires DistinctKeys(extra)
    ensures Get(Merge(base, extra), k) == if HasKey(extra, k) then Get(extra, k) else Get(base, k)
    decreases |extra|
  {
    if |extra| > 0 {
      var rest := extra[1..];
      assert DistinctKeys(rest) by {
        forall i, j | 0 <= i < j < |rest| ensures rest[i].0 != rest[j].0 {
          assert rest[i] == extra[i + 1] && rest[j] == extra[j + 1];
        }
      }
      MergeGet(Put(base, extra[0].0, extra[0].1), rest, k);
      if HasKey(rest, k) {
        var i :| 0 <= i < |rest| && rest[i].0 == k;
        assert extra[i + 1] == rest[i];
        assert extra[0].0 != k;
      } else if extra[0].0 == k {
        assert HasKey(extra, k);
      }
    }
  }

  /** Ruby's `inspect` rendering, used by `to_s` of arrays and hashes. */
  function Inspect(v: Json): string
    decreases v
  {
    match v
    case JNull => "nil"
    case JBool(b) => if b then "true" else "false"
    case JNum(n) => Text.IntToString(n)
    case JStr(s) => "\"" + s + "\""
    case JArr(xs) =>
      "[" + Text.Join(seq(|xs|, i requires 0 <= i < |xs| => Inspect(xs[i])), ", ") + "]"
    case JObj(fs) =>
      "{" + Text.Join(seq(|fs|, i requires 0 <= i < |fs| => "\"" + fs[i].0 + "\"=>" + Inspect(fs[i].1)), ", ") + "}"
  }

  /** Ruby's `to_s`, as used by string interpolation `"#{v}"`. */
  function ToS(v: Json): string
  {
    match v
    case JNull => ""
    case JStr(s) => s
    case _ => Inspect(v)
  }
}
